=== FILE: README.md ===
# autoAtendeAI decision layer, modelled in Dafny

autoAtendeAI answers car buyers on WhatsApp for a dealership. An inbound chat message is
unwrapped from Meta's webhook envelope and normalised into a command. A typed question
goes to a language model that extracts search parameters as JSON. The reply is sanitised
and decoded, and then routed on its `intent`: a greeting, a redirect, a clarification
request, or an inventory search. The search is capped at five unsold vehicles of one
dealership. Each result is formatted as a chat reply. Quick-reply buttons carry the
vehicle model inside their ids, so a later click ("Quero saber mais", "Ver mais fotos",
"Não, obrigado") can be answered without a session store. Around this assistant sit
the REST endpoints that fill the inventory:

- dealership and vehicle creation, guarded by the `@validates` rules of the ORM models;
- the spreadsheet upload, with its table of accepted column headers;
- the vehicle list filters;
- the WhatsApp send helper and the webhook verification handshake.

The project models this decision layer as pure functions over immutable data:

- The database is a snapshot, `Db(dealerships, vehicles)`, in store order.
- The language model and `json.loads` are function-valued parameters (`Assistant.Oracles`).
- The clock, the configured verify token, the new row id and the ISO date parser are parameters too.
- Every exception the Python code would raise inside a `try` becomes an `Err` value, or the 500 answer of the view that catches it.
- Each webhook's outcome is its HTTP answer together with the exact sequence of payloads it would post to the Graph API.

Modules, one per component:

- `Wrappers`, `Json`, `Http`, `Text`, `Seqs`, `Like`: shared vocabulary. This covers results, JSON values, Flask answers, the Python string operations used, ORM-style filters and SQL `LIKE`/`ILIKE`.
- `Records`: the `Dealership` and `Vehicle` rows and their `;`-separated list columns.
- `Validators`: the `@validates` rules of `models.py`.
- `VehicleSearch`, `Formatter`, `Assistant`: `search_vehicles_in_db`, `format_vehicles_for_whatsapp` and `process_message_with_ai`.
- `Inbound`, `WhatsAppApi`, `WhatsAppService`, `WebhookRoute`: the live webhook, its send helper and the `/webhook` route.
- `LegacyWebhook`: the older text-routed webhook of `routes/main.py`.
- `Listing`, `Crud`, `Upload`: the list, create and upload endpoints. `upload_vehicles` appears twice in the code base, and `backend/src/routes/main.py:324-414` is the same code as `backend/src/routes.py:247-337`.

Behaviours of the code that a reader might not expect, and how the model states them:

- `format_vehicles_for_whatsapp` formats `preco` and `quilometragem` with numeric format specs, which raise on `None`. The model makes this the `Formatter.Formattable` precondition, and its callers take the error path.
- Any falsy bound (absent, 0, the empty string) imposes no price or mileage filter. A string of digits is read as its number, and any other string is an error (`VehicleSearch.Bound`).
- Every non-empty object whose `intent` is not one of the three handled intents goes to the search (`Assistant.UnknownIntentSearches`).
- `opcionais` is a list kept in order, and the search never reads it (`VehicleSearch.OpcionaisIgnored`).
- A model reply that cannot be decoded becomes a customer-visible `[DEBUG]` reply (`Assistant.ProcessMessage`).
- The legacy webhook tests the "quero saber mais" trigger before the closing phrases (`LegacyWebhook.Respond`). No closing phrase starts with the trigger, so the order never changes the route (`LegacyWebhook.ClosingIgnoresPhrase`).
- The repository's API tests create a dealership with a 13-digit WhatsApp number. The phone validator refuses that number (`Validators.ThirteenDigitsRefused`).
- The same tests list vehicles without the `dealership_id` that `VehicleList.get` requires (`Listing.ListScoped`).
- `VehicleList.get` is wrapped in `marshal_list_with(vehicle_model)`, which marshals its error tuple too. A refused listing therefore reaches the client as status 400 with an all-`null` vehicle record, and "dealership_id is required" is never sent (`Listing.RefusalBodyIsNullRecord`).

## Model

| member | source | states |
|---|---|---|
| Validators.Phone | backend/src/models.py:27-35 | A falsy value passes. Otherwise it passes iff it is a string with 10 or 11 digits once non-digits are removed. The original, uncleaned value is returned |
| Validators.FormattedPhoneAccepted | backend/src/models.py:31-35 | `(DD) NNNNN-NNNN` with 8 or 9 line digits is accepted: punctuation is not counted |
| Validators.ThirteenDigitsRefused | backend/src/models.py:33-34 | A 13-digit international number such as 5511999999999 is refused |
| Validators.EmailShapeIff | backend/src/models.py:41 | The direct decision procedure (first `@`, last `.`) accepts exactly the strings the pattern `local@domain.tld` describes, with the given character classes and a TLD of two or more letters |
| Validators.EmailPartsShape | backend/src/models.py:41 | Any well-formed local part, domain and TLD joined as `local@domain.tld` has the e-mail shape |
| Validators.Email | backend/src/models.py:37-43 | Passes iff the value is a non-empty string matching the pattern, where `$` also allows one final newline. A falsy value gives "Email is required". The value is returned unchanged |
| Validators.TrailingNewlineAccepted | backend/src/models.py:41 | A valid address followed by `\n` is accepted with the newline kept, as `re.match` with `$` allows |
| Validators.Cnpj | backend/src/models.py:45-53 | Passes iff the value is a string with exactly 14 digits after removing non-digits. A falsy value gives "CNPJ is required". The value is returned unchanged |
| Validators.PunctuatedCnpjAccepted | backend/src/models.py:49-53 | The punctuated `NN.NNN.NNN/NNNN-NN` spelling is accepted |
| Validators.Year | backend/src/models.py:98-105 | Passes iff the value is `None` or a number with 1900 <= year <= currentYear + 1. The value is unchanged |
| Validators.Km | backend/src/models.py:107-113 | `None` becomes 0. Any other value passes iff it is a number >= 0, and is then returned unchanged |
| Validators.Price | backend/src/models.py:115-119 | Passes iff the value is `None` or a number >= 0. The value is unchanged |
| Validators.OneOf | backend/src/models.py:121-139 | An enum column passes iff its value is one of the listed values (`None` included). The value is unchanged |
| Validators.CheckColumn | backend/src/models.py:98-139 | Mileage, the two years and the two prices go through their own validators. A column that no validator watches is stored as given |
| Validators.CheckColumnIdempotent | backend/src/models.py:107-113 | Validating a validated value again gives the same result. In particular, the `None`-to-0 mileage rule is idempotent |
| Validators.CheckAll | backend/src/models.py:98-139 | Running the validators of a constructor call keeps the key set, and leaves unchecked columns unchanged |
| Validators.CheckAllColumns | backend/src/models.py:98-139 | After a successful run, every checked column holds its validator's output for the given value |
| Validators.CheckAllIdempotent | backend/src/models.py:98-139 | Re-running the validators over their own output changes nothing |
| Validators.ValidateVehicle | backend/src/models.py:98-139 | A `Vehicle(...)` construction keeps the keyword set, and keeps every non-validated column as given |
| Validators.ValidateVehicleIdempotent | backend/src/models.py:98-139 | A validated vehicle validates to itself |
| Validators.ValidatedVehicleRules | backend/src/models.py:107-125 | What validation accepts obeys the column rules: mileage is a non-negative number, `None` mileage becomes 0, `estado` is Novo/Usado/None, and the price is `None` or non-negative |
| Validators.KmRule | backend/src/models.py:107-113 | A validated mileage is a non-negative number, and an omitted (`None`) mileage is stored as 0 |
| Validators.EstadoRule | backend/src/models.py:121-125 | A validated `estado` is one of Novo, Usado, `None` |
| Validators.PrecoRule | backend/src/models.py:115-119 | A validated price is `None` or a non-negative number |
| Validators.CheckContact | backend/src/models.py:27-53 | Each contact validator of a dealership returns its value unchanged |
| Validators.ValidateDealership | backend/src/models.py:27-53 | A `Dealership(...)` construction succeeds iff every present contact field (`whatsapp_number`, `email`, `cnpj`, `phone`) passes its validator. The row is then the keyword arguments, unchanged |
| Validators.ContactsFrom | backend/src/models.py:27-53 | The contact validators run in argument order and succeed iff each listed present field passes |
| Records.DealershipById | backend/src/ai_processor.py:96-97 | `Dealership.query.get(id)` finds a stored dealership with that id, and finds nothing iff no stored dealership has that id |
| Records.FirstDealership | backend/src/services/whatsapp_service.py:35 | `Dealership.query.first()` is the first stored dealership, and is `None` iff there is none |
| Records.FirstActiveDealership | backend/src/routes/main.py:473-475 | The result is a stored active dealership, and is `None` iff no dealership is active |
| Records.NonBlank | backend/src/ai_processor.py:37 | The kept entries are exactly the non-empty stripped pieces: each is kept as often as it occurs among the stripped pieces, in the pieces' order, and the empty ones are dropped |
| Records.StripAll | backend/src/ai_processor.py:37 | Each piece is stripped in place, and no piece is added or lost |
| Records.Photos | backend/src/ai_processor.py:37 | Every photo URL is non-empty, stripped and free of `;`. The URLs are the non-empty stripped `;`-pieces of `link_fotos`, in order and with their multiplicities |
| Records.FirstPhoto | backend/src/ai_processor.py:38 | The image is the first photo, and is `None` iff there are no photos |
| Records.PhotosOfJoined | backend/src/ai_processor.py:37-38 | Clean URLs stored `;`-joined come back as the same list, in order |
| Records.ListField | backend/src/models.py:164-165 | `to_dict` gives [] for a `None` or empty column. Otherwise it gives at least one piece, no piece holds `;`, and the pieces re-join with `;` to the stored text, so nothing is trimmed or dropped |
| Records.ListFieldUnique | backend/src/models.py:164-165 | Any non-empty, `;`-free list of pieces that joins back to the column is exactly what `to_dict` returns, so the pieces are the `;`-split |
| Records.ListFieldKeepsBlanks | backend/src/models.py:164-165 | Blank and untrimmed entries survive: "a; ;b" splits into "a", " ", "b", and ";" into two empty strings |
| VehicleSearch.Term | backend/src/ai_processor.py:57-59 | A falsy parameter imposes no filter. A truthy string becomes its stripped, lower-cased form. A truthy non-string raises |
| VehicleSearch.Bound | backend/src/ai_processor.py:78-85 | A falsy bound (absent, 0, empty) imposes no filter. A non-zero number is the bound. A non-empty string is read iff it is a whole number once stripped, and then that number is the bound. Only strings, lists and objects fail |
| VehicleSearch.StringBoundFilters | backend/src/ai_processor.py:78-85 | "50000" is the bound 50000, " 0 " is the bound 0, and "barato" is an error |
| VehicleSearch.ParseFilter | backend/src/ai_processor.py:57-90 | Each filter of the query is read from its own parameter. The query fails iff a term or a bound fails, and the errors are reported in source order: `modelo`, `marca`, `cor`, then the bounds |
| VehicleSearch.TokenLikeIsWordMatch | backend/src/ai_processor.py:60-77 | The four OR-ed ILIKE patterns hold iff the field equals the term, starts with term+" ", ends with " "+term, or contains " "+term+" ", case-insensitively. This needs a term without `%`/`_` |
| VehicleSearch.GolIsNotGolf | backend/src/ai_processor.py:58-66 | The term "gol" rejects "Golf" and accepts "Gol G5" |
| VehicleSearch.GolfNotWord | backend/src/ai_processor.py:58-66 | "gol" is not a whole word of "Golf" |
| VehicleSearch.GolG5Word | backend/src/ai_processor.py:58-66 | "gol" is the leading word of "Gol G5" |
| VehicleSearch.Search | backend/src/ai_processor.py:52-93 | The result has min(5, number of matches) vehicles. Every element is a matching, unsold vehicle of the dealership. The result is a subsequence of the inventory in store order |
| VehicleSearch.SearchComplete | backend/src/ai_processor.py:92 | When at most five vehicles match, every matching vehicle is returned |
| VehicleSearch.CorIsSubstring | backend/src/ai_processor.py:86-88 | The `cor` filter is a case-insensitive substring test: any unsold vehicle of the dealership whose colour contains the term passes |
| VehicleSearch.BoundsInclusive | backend/src/ai_processor.py:78-81 | A vehicle priced exactly at `preco_max` and at `preco_min` passes both bounds |
| VehicleSearch.NoFilterMatches | backend/src/ai_processor.py:54 | With no filter, a vehicle matches iff it belongs to the dealership and is unsold |
| VehicleSearch.OpcionaisIgnored | backend/src/ai_processor.py:143-145 | Changing `opcionais` never changes the search filters: the key is normalised but never read |
| Like.ILikeExact | backend/src/ai_processor.py:62 | `ILIKE 'q'` is case-insensitive equality for a wildcard-free term |
| Like.ILikePrefixWord | backend/src/ai_processor.py:63 | `ILIKE 'q %'` is a case-insensitive test for "q " at the start |
| Like.ILikeSuffixWord | backend/src/ai_processor.py:64 | `ILIKE '% q'` is a case-insensitive test for " q" at the end |
| Like.ILikeInfixWord | backend/src/ai_processor.py:65 | `ILIKE '% q %'` is case-insensitive containment of " q " |
| Like.ILikeInfix | backend/src/ai_processor.py:88 | `ILIKE '%q%'` is case-insensitive containment of a wildcard-free term |
| Formatter.FormatVehicles | backend/src/ai_processor.py:29-50 | No vehicles gives exactly one reply: the fixed "😕 Não encontrei…" notice, without an image. Otherwise there is one reply per vehicle, in order. Its text opens with that vehicle's bold header line, and its image is the first photo, or none iff the vehicle has no photos |
| Formatter.VehicleText | backend/src/ai_processor.py:39-45 | The summary opens with `*marca modelo ano*` and a newline, and ends with the items line |
| Formatter.Items | backend/src/ai_processor.py:45 | The items line shows "Não informado" for a `None` or empty `itens_opcionais`, and the raw text otherwise |
| Formatter.Price | backend/src/ai_processor.py:40 | A whole-number price renders with two decimals ".00" |
| Formatter.ShowText | backend/src/ai_processor.py:41-44 | A text column renders as itself, or as "None" when null |
| Formatter.ShowInt | backend/src/ai_processor.py:39 | A null year renders as "None" |
| Formatter.HeaderOpens | backend/src/ai_processor.py:39 | A vehicle summary starts with "*marca modelo " |
| Formatter.VehicleTextNotSad | backend/src/services/whatsapp_service.py:132 | A vehicle summary never starts with the 😕 of the no-match notice |
| Formatter.NoMatchIsSad | backend/src/ai_processor.py:30-34 | The no-match notice starts with 😕 |
| Formatter.ModeloIsSecondWord | backend/src/services/whatsapp_service.py:139 | When `marca` and `modelo` are single words, `text.split()[1]` of a vehicle summary is `modelo` |
| Formatter.SecondWordOf | backend/src/services/whatsapp_service.py:139 | A text opening with "a b " splits with `b` as its second word |
| Assistant.WelcomeText | backend/src/ai_processor.py:135-136 | The greeting names the dealership |
| Text.Framed | backend/src/ai_processor.py:135-136 | A one-slot message template contains its slot text, and its length is the sum of the three parts |
| Assistant.DecodeErrorText | backend/src/ai_processor.py:132-134 | The decode-error reply starts "[DEBUG] Erro ao decodificar JSON: " and ends with the raw model text |
| Assistant.GeneralError | backend/src/ai_processor.py:147-149 | The outer-exception reply starts "[DEBUG] Erro geral: " and has no image |
| Assistant.Sanitise | backend/src/ai_processor.py:122-125 | The cleaned reply has no backtick and is never longer than the model's text |
| Assistant.Candidate | backend/src/ai_processor.py:127-129 | Without `{`, the whole text. With `{` and no later `}`, the empty string. Otherwise the slice from the first `{` through the last `}`, containing no earlier `{` and no later `}` |
| Assistant.FencedObject | backend/src/ai_processor.py:122-129 | A fenced ```` ```json\n{...}\n``` ```` reply yields exactly the inner object |
| Assistant.SanitiseFenced | backend/src/ai_processor.py:122-125 | Removing backticks and the `json` tag and re-stripping turns a fenced object into the bare object |
| Assistant.UnfenceTicks | backend/src/ai_processor.py:122 | Removing backticks from the fenced text leaves `json`, the object and its line breaks |
| Assistant.OpeningFence | backend/src/ai_processor.py:122 | The opening fence loses its backticks and keeps "json\n" |
| Assistant.ClosingFence | backend/src/ai_processor.py:122 | The closing fence loses its backticks and keeps "\n" |
| Assistant.LowerAll | backend/src/ai_processor.py:144 | Every entry is lower-cased, position by position |
| Assistant.KeepKnown | backend/src/ai_processor.py:143-144 | Every kept entry is a known option in lower case. The kept entries are the lower-cased inputs in their original order. Every known option is kept as many times as it occurs among the lower-cased inputs, and nothing else is kept |
| Assistant.KeepKnownIdempotent | backend/src/ai_processor.py:143-144 | Normalising the options twice equals normalising once |
| Assistant.Strings | backend/src/ai_processor.py:144 | A list of options reads as strings iff every entry is a string (`op.lower()` raises otherwise), and the strings are kept in order |
| Assistant.NormaliseOpcionais | backend/src/ai_processor.py:143-144 | Only `opcionais` holding a list is rewritten, to its known lower-cased entries. Every other key is untouched. The step fails iff an entry is not a string |
| Assistant.Classify | backend/src/ai_processor.py:135-141 | Priority routing: a non-object raises, `greeting` gives the welcome, `other`/`fallback` the redirect, `{}` the clarification, and every other object the search, with its parameters |
| Assistant.UnknownIntentSearches | backend/src/ai_processor.py:135-146 | An object with an unknown intent and no filter is a search with no filter at all |
| Assistant.Answer | backend/src/ai_processor.py:141-146 | The search branch always produces at least one reply |
| Assistant.ProcessMessage | backend/src/ai_processor.py:95-149 | Unknown dealership: the single apology. A failing model call: one general-error reply. An unparseable candidate: exactly one imageless reply that starts "[DEBUG] Erro ao decodificar JSON: " and ends with the sanitised model text, and no search. A parsed non-object: one general-error reply. Otherwise the greeting naming the dealership, the redirect, the clarification, or the search answer, in that priority |
| Assistant.EmptySearchIsNotice | backend/src/ai_processor.py:145-146 | A search that finds nothing answers with exactly the no-match notice |
| Assistant.AnswerFormatsFound | backend/src/ai_processor.py:143-146 | When the found vehicles are formattable, the answer is their formatted list, whatever `opcionais` held |
| Assistant.NormalisedFilter | backend/src/ai_processor.py:143-146 | Normalising `opcionais` leaves every search filter as it was |
| Inbound.Unwrap | backend/src/services/whatsapp_service.py:9-22 | A falsy payload, or an object without `entry`, is answered "Invalid webhook payload" with 400 |
| Inbound.UnwrapNoChanges | backend/src/services/whatsapp_service.py:14-16 | An entry with no changes is answered 400 "No changes in webhook payload" |
| Inbound.UnwrapNoMessages | backend/src/services/whatsapp_service.py:17-21 | A change with no `value`, or with an empty `messages` list, gets the handler's no-message answer |
| Inbound.UnwrapFirstMessage | backend/src/services/whatsapp_service.py:13-22 | The first message of the first change is the one handled |
| WhatsAppApi.NormaliseNumber | backend/src/integrations/whatsapp_api.py:18 | The normalised recipient has no `+` and no surrounding whitespace |
| WhatsAppApi.NormaliseDigits | backend/src/integrations/whatsapp_api.py:18 | A bare digit string is already normalised |
| WhatsAppApi.NormalisePrefixed | backend/src/integrations/whatsapp_api.py:18 | "whatsapp:+<digits>" normalises to the digits |
| WhatsAppApi.Kind | backend/src/integrations/whatsapp_api.py:35-58 | Buttons win over an image, and an image wins over text: "interactive" iff there are buttons, "image" iff there are no buttons and a truthy image URL, otherwise "text" |
| WhatsAppApi.Payload | backend/src/integrations/whatsapp_api.py:28-58 | Every payload has `messaging_product` "whatsapp", `recipient_type` "individual", `to` the normalised number, and `type` its kind. Exactly one of the text/image/interactive keys is present, and it is the one `type` names |
| WhatsAppApi.Send | backend/src/integrations/whatsapp_api.py:16-58 | A send succeeds iff the recipient is a string, and then posts the payload for the normalised number |
| WhatsAppApi.Effective | backend/src/integrations/whatsapp_api.py:35-52 | What survives the shape selection: the text and buttons always, and the image only when there are no buttons and it is truthy |
| WhatsAppApi.ReceivedPayload | backend/src/integrations/whatsapp_api.py:34-58 | Reading a payload back gives the text, the image and the buttons that survived the shape selection. The payload carries exactly that message |
| WebhookRoute.Webhook | backend/src/routes/whatsapp.py:8-21 | A POST is handed to the live handler unchanged. A GET answers 200 with the challenge iff mode is "subscribe" and the token equals the configured one (a challenge must be present). Otherwise it answers 403 "Verification token mismatch" |
| WebhookRoute.UnsetTokenAccepted | backend/src/routes/whatsapp.py:10-16 | With no configured token, a handshake that sends no token is verified: two missing values compare equal |
| WebhookRoute.ModeMustBeSubscribe | backend/src/routes/whatsapp.py:14-19 | Any other mode is refused, even with the right token |
| WhatsAppService.DecodeModel | backend/src/services/whatsapp_service.py:34 | A decoded model has no `*` and no surrounding whitespace |
| WhatsAppService.ClassifyButton | backend/src/services/whatsapp_service.py:33-116 | Routing order: the detail prefix first, then the gallery prefix, then exactly `nao_obrigado`. Any other id falls back to the title as a question |
| WhatsAppService.ReplyButton | backend/src/services/whatsapp_service.py:63-78 | A quick-reply button carries its id under `reply` |
| WhatsAppService.SearchButtons | backend/src/services/whatsapp_service.py:135-157 | Exactly three buttons, in order: `quero_saber_mais_<m>`, `ver_mais_fotos_<m>`, `nao_obrigado` |
| WhatsAppService.FollowUpButtons | backend/src/services/whatsapp_service.py:63-78 | Two buttons, in order: `ver_mais_fotos_<m>` and `nao_obrigado` |
| WhatsAppService.DecodeEncoded | backend/src/services/whatsapp_service.py:34 | An id built from a prefix and a single word that does not contain the prefix decodes back to that word without `*` |
| WhatsAppService.DecodeWord | backend/src/services/whatsapp_service.py:89 | A word without `_`, `*` or spaces round-trips through both button prefixes |
| WhatsAppService.ClickRoutes | backend/src/services/whatsapp_service.py:33-115 | Clicking any built button routes back to its own branch |
| WhatsAppService.ReadEvent | backend/src/services/whatsapp_service.py:23-124 | The sender is `message['from']`. A button command can only come from an interactive message. A question is stripped and lower-cased. A message of another type becomes the empty question |
| WhatsAppService.ReadText | backend/src/services/whatsapp_service.py:121-122 | A text message becomes its body, stripped and lower-cased |
| WhatsAppService.ReadButton | backend/src/services/whatsapp_service.py:26-30 | A button click is classified by its id, with the stripped, lower-cased title as the fallback |
| WhatsAppService.ReadList | backend/src/services/whatsapp_service.py:117-118 | A list choice becomes its title, stripped and lower-cased |
| WhatsAppService.ReadOtherInteractive | backend/src/services/whatsapp_service.py:119-120 | Any other interactive subtype becomes the empty question |
| WhatsAppService.NotFoundText | backend/src/services/whatsapp_service.py:81-82 | The apology names the decoded model |
| WhatsAppService.FindModel | backend/src/services/whatsapp_service.py:37-43 | The lookup returns a stored, unsold vehicle of the dealership whose model contains the term case-insensitively, and returns `None` iff there is none |
| WhatsAppService.FindModelOfOwnName | backend/src/services/whatsapp_service.py:37-43 | The lower-cased model of an unsold vehicle finds a vehicle for its dealership |
| WhatsAppService.SeriesItems | backend/src/services/whatsapp_service.py:52 | The series items contain no `;` (each becomes a bullet line), and show "Não informado" when the column is empty |
| WhatsAppService.DetailText | backend/src/services/whatsapp_service.py:45-55 | The detail message opens with the same bold header as the search reply, and ends with the technical details |
| WhatsAppService.DetailMessages | backend/src/services/whatsapp_service.py:33-87 | With no dealership: the generic error. With no vehicle found: the apology naming the model. Otherwise: the found vehicle's detail messages |
| WhatsAppService.VehicleDetail | backend/src/services/whatsapp_service.py:44-79 | The detail text, then "Aqui está uma foto…" with the first photo when there is one, then the follow-up buttons for the lower-cased model. The call fails iff price or mileage is missing |
| WhatsAppService.PhotoCaption | backend/src/services/whatsapp_service.py:103 | A gallery caption ends with the vehicle's model |
| WhatsAppService.GalleryMessages | backend/src/services/whatsapp_service.py:88-110 | With no dealership: the error text. With no vehicle or no photos: "Não há mais fotos…". Otherwise one image message per photo, in order, each captioned with its position and the model |
| WhatsAppService.GalleryDelivers | backend/src/services/whatsapp_service.py:99-103 | Each gallery photo reaches the recipient as an image with its caption |
| WhatsAppService.AskMessages | backend/src/services/whatsapp_service.py:132-166 | Only the first reply is sent, without its image. It carries the three buttons iff its text does not start with 😕, and the buttons encode its lower-cased second word. A one-word vehicle text raises |
| WhatsAppService.VehicleReplyButtons | backend/src/services/whatsapp_service.py:132-158 | A search reply for a vehicle with a single-word brand and model carries the buttons for that model, lower-cased |
| WhatsAppService.NoMatchHasNoButtons | backend/src/services/whatsapp_service.py:159-162 | The no-match notice goes out as plain text |
| WhatsAppService.DetailRoundTrip | backend/src/services/whatsapp_service.py:33-43 | The buttons built under a vehicle's search reply route back to the detail and gallery branches with that vehicle's lower-cased model, and the lookup finds a vehicle |
| WhatsAppService.PlanFor | backend/src/services/whatsapp_service.py:26-166 | Decline: the fixed farewell. Gallery: the gallery messages. Detail: the detail messages, failing iff the detail lookup fails. A question with no dealership: 404. A question otherwise: what the assistant's first reply becomes |
| WhatsAppService.SendAll | backend/src/services/whatsapp_service.py:56-79 | All messages are posted in order to the normalised sender, or none are when the sender is not a string |
| WhatsAppService.Handle | backend/src/services/whatsapp_service.py:7-170 | The status is 200, 400, 404 or 500. Anything posted implies `{'status': 'ok'}`, and is exactly what serving the unwrapped, readable event posts. A 404 is "Dealership not found" with nothing posted. An early stop answers with the unwrap step's response |
| WhatsAppService.Proceed | backend/src/services/whatsapp_service.py:21-170 | An unreadable event is a 500 with nothing posted. A readable one is served, and anything posted comes from a readable event |
| WhatsAppService.Serve | backend/src/services/whatsapp_service.py:126-167 | 404 iff the plan is "no dealership". 200 iff there is something to deliver and the sender is a string. On 200 the posts are the plan's messages, one each, in order, addressed to the normalised sender. Any other status posts nothing |
| WhatsAppService.HandleServes | backend/src/services/whatsapp_service.py:22-26 | Once a message is unwrapped and read, the handler serves its event |
| WhatsAppService.StatusIsIgnored | backend/src/services/whatsapp_service.py:19-21 | A change without messages is answered `{'status': 'ignored'}` with 200 and nothing is posted |
| WhatsAppService.ButtonsIgnoreAssistant | backend/src/services/whatsapp_service.py:33-115 | The outcome of the three buttons is independent of the language model and the JSON parser |
| WhatsAppService.ButtonPlansIgnoreAssistant | backend/src/services/whatsapp_service.py:33-115 | The plan of a button command is independent of the language model and the JSON parser |
| WhatsAppService.DeclineReplies | backend/src/services/whatsapp_service.py:111-115 | Clicking `nao_obrigado` posts exactly the farewell to the normalised sender, and answers ok |
| WhatsAppService.DeclineServed | backend/src/services/whatsapp_service.py:111-115 | The decline event is served with the farewell alone |
| WhatsAppService.NonStringSender | backend/src/services/whatsapp_service.py:168-170 | A sender that is not a string makes the first send raise: nothing is posted and the status is not 200 |
| LegacyWebhook.LegacyPayload | backend/src/routes/main.py:416-440 | The legacy payload posts the recipient as received. With a non-empty image URL it is an image message without the text. Otherwise it is a text message |
| LegacyWebhook.ImageDropsText | backend/src/routes/main.py:432-440 | An image message does not depend on the text it was sent with |
| LegacyWebhook.RequestedModel | backend/src/routes/main.py:480-485 | No model iff the text has at most three words. Otherwise the model is the words from index 3, whose own split gives back those words |
| LegacyWebhook.AskedModel | backend/src/routes/main.py:478-485 | "quero saber mais" followed by words asks for exactly those words joined by single spaces |
| LegacyWebhook.ClosingBodyAsWritten | backend/src/routes/main.py:522 | As written, the closing branch posts the assistant's whole reply list as the message body |
| LegacyWebhook.ClosingAsWrittenHasNoText | backend/src/routes/main.py:522-523 | As written, the posted body is not a string, so the recipient receives no text message |
| LegacyWebhook.ClosingText | backend/src/routes/main.py:519-523 | The intended closing text is the text of the assistant's first reply |
| LegacyWebhook.ClosingDelivers | backend/src/routes/main.py:519-523 | The corrected closing message reaches the recipient as the assistant's text |
| LegacyWebhook.Respond | backend/src/routes/main.py:477-563 | The trigger is tested first. With no model, or no vehicle found, the apology. With a vehicle, its summary with its first photo. A closing phrase posts, as the code does, the assistant's whole reply list to the fixed courtesy prompt as the body. Anything else gets the first reply of the assistant for the text itself |
| LegacyWebhook.RespondCorrected | backend/src/routes/main.py:519-523 | The corrected route sends the text of the first reply to the courtesy prompt for a closing phrase, and otherwise routes as the code does |
| LegacyWebhook.ClosingAsWrittenVsCorrected | backend/src/routes/main.py:519-523 | For every closing phrase the as-written post reaches the customer as no text message, while the corrected post delivers the first reply's text |
| LegacyWebhook.AnswerClosing | backend/src/routes/main.py:519-523 | A closing phrase answers 204 after posting one message to the sender whose body is the whole reply list |
| LegacyWebhook.AnswerPosts | backend/src/routes/main.py:468-566 | A typed message that routes to an outgoing message is answered 204, and exactly that message is posted to the sender as received |
| LegacyWebhook.ClosingIgnoresPhrase | backend/src/routes/main.py:519-522 | Every closing phrase gets the same answer: the user's words never reach the assistant |
| LegacyWebhook.BareTriggerApologises | backend/src/routes/main.py:478-518 | The bare trigger is answered with the apology and no lookup |
| LegacyWebhook.ReadIncoming | backend/src/routes/main.py:469 | The incoming text is stripped and lower-cased. A message without `text` gives "" |
| LegacyWebhook.Handle | backend/src/routes/main.py:451-566 | The status is 204, 400, 404 or 500. 204 iff exactly one message was posted. A 404 is "No active dealership found". An early stop answers with the unwrap step's response |
| LegacyWebhook.Answer | backend/src/routes/main.py:468-566 | 404 iff the text reads and no dealership is active. 204 iff one message was posted. At most one message is ever posted |
| LegacyWebhook.StatusIsRejected | backend/src/routes/main.py:464-466 | Unlike the live webhook, a change without messages is a 400 error |
| LegacyWebhook.DefaultSendsFirstReply | backend/src/routes/main.py:531-546 | A typed message reaches the assistant stripped and lower-cased. Its first reply, with its image, is posted to the sender, and the answer is 204 |
| LegacyWebhook.HandleTextMessage | backend/src/routes/main.py:453-470 | A payload holding one text message is answered as that message |
| LegacyWebhook.AnswerDefault | backend/src/routes/main.py:531-546 | The default route posts the assistant's first reply and answers 204 |
| Listing.ListAll | backend/src/routes.py:97-146 | Every listed vehicle is stored, unsold and passes the filters. Every stored vehicle that passes is listed. Store order is kept. There is no dealership scoping |
| Listing.ListScoped | backend/src/routes/main.py:206-258 | Refused with status 400 iff the id is missing or 0, and the refusal passes through `marshal_list_with`, so its body is the marshalled vehicle record. Otherwise it lists passing, unsold vehicles of that dealership, in store order |
| Listing.Marshal | backend/src/routes/main.py:58-78 | Marshalling with `vehicle_model` gives exactly the model's fields. A field the body carries is copied, and a field it lacks is `null` |
| Listing.RefusalBodyIsNullRecord | backend/src/routes/main.py:206-212 | The refused listing reaches the client as status 400 with a vehicle record whose every field is `null`. The "dealership_id is required" text is not in it |
| Listing.ScopedIsRestrictedAll | backend/src/routes/main.py:224 | The scoped list is the unscoped list restricted to one dealership |
| Listing.FalseMeansFeatured | backend/src/routes/main.py:222 | `?destaque=false` turns the featured filter on, and an empty value leaves it off |
| Listing.ZeroBoundApplies | backend/src/routes/main.py:230-233 | A price bound of 0 is applied, not ignored, and a vehicle without a price never passes a bound |
| Listing.ModeloIsSubstring | backend/src/routes/main.py:228-229 | The list's `modelo` filter is plain case-insensitive containment |
| Listing.FeaturedUntilExclusive | backend/src/routes/main.py:242-251 | A vehicle is featured strictly before `destaque_ate`, and is no longer featured at that instant |
| Crud.Failed | backend/src/routes.py:91-94 | An exception gives 500 and inserts nothing |
| Crud.FirstMissing | backend/src/routes.py:63-65 | Reports the first required field not in the body, in list order. None is missing iff every field is present. A body that is not a container raises |
| Crud.NoneMissing | backend/src/routes.py:63-65 | An object holding every required field passes the check |
| Crud.MissingField | backend/src/routes.py:65 | A missing field is a 400 |
| Crud.DealershipKwargs | backend/src/routes.py:71-81 | The constructor receives the four required fields as given, and the five optional ones or `None` |
| Crud.CreateDealership | backend/src/routes.py:56-94 | 400 for the first missing required field. 409 only for a taken CNPJ. 201 iff a row is inserted. The inserted row is the validated, non-null keyword arguments, none of whose values is a list or an object, and no stored dealership holds its number or address |
| Crud.Insert | backend/src/routes.py:67-89 | 409 iff the CNPJ is taken. 201 iff a row is inserted. Valid, non-null arguments for a new CNPJ are inserted exactly when sqlite3 can bind every value and no stored dealership holds the same `whatsapp_number` or `email`. A taken number or address fails the commit with 500 |
| Crud.ColumnText | backend/src/models.py:12-14 | The text a unique `String` column compares with: a string as itself, a number as decimal text that reads back as the number, a bool as "1" or "0". `null`, a list or an object compare with nothing |
| Crud.TakenContactFails | backend/src/routes.py:67-94 | A new CNPJ whose number or address another dealership already holds answers 500, whatever the rest of the request |
| Crud.NumericCnpjConflicts | backend/src/routes.py:67-69 | A CNPJ sent as a JSON number conflicts (409) with the same digits stored as text |
| Crud.DealershipCreated | backend/src/routes.py:56-89 | A request for a new CNPJ, number and address, with valid contacts and bindable column values, is created (201). Keys that are not columns do not matter |
| Crud.KwargsValid | backend/src/routes.py:71-81 | Valid contact fields make the constructor's arguments pass validation and fill the required columns |
| Crud.KwargsNotNull | backend/src/routes.py:71-84 | Non-null required fields fill the `NOT NULL` columns |
| Crud.ValidKwargsCreated | backend/src/routes.py:67-89 | Valid, complete and bindable arguments for a new CNPJ, number and address are created |
| Crud.UnbindableDealershipFails | backend/src/routes.py:71-95 | An otherwise valid request whose `name` is a list or an object answers 500, because the commit cannot bind it |
| Crud.ContactsValid | backend/src/models.py:27-53 | Passing contact validators make the whole dealership valid |
| Crud.DuplicateBeforeValidation | backend/src/routes.py:67-71 | A taken CNPJ is reported as a 409 even when other fields are invalid |
| Crud.Identity | backend/src/routes.py:169 | The one-value identity `Session.get` forms: a scalar is itself. A list must hold exactly one scalar and a dict exactly the key "id" with a scalar, which then stands for the whole. Anything else raises |
| Crud.ScalarKey | backend/src/routes.py:169 | A scalar identity finds nothing exactly when it is `null` or a string that is not a digit string; a digit string is read as its number |
| Crud.LookupKey | backend/src/routes.py:169 | A number is looked up as itself, `true` as 1 and `false` as 0, and `null` finds nothing. The lookup raises exactly when `Session.get` cannot form the identity; otherwise it looks up that identity's value |
| Crud.WrappedKeyIsValue | backend/src/routes.py:169 | `[v]` and `{"id": v}` look up exactly what `v` does |
| Crud.TrueKeyIsFirstId | backend/src/routes.py:169 | `"dealership_id": true` names a dealership iff dealership 1 exists |
| Crud.FeaturedUntil | backend/src/routes.py:191 | A falsy `destaque_ate` is `None`. Otherwise it is the parsed date, and an unparseable date raises |
| Crud.VehicleKwargs | backend/src/routes.py:173-195 | The required fields are passed as given. Mileage defaults to 0, `destaque` to False, and `destaque_ate` is the parsed date. The other columns are `data.get` |
| Crud.CreateVehicle | backend/src/routes.py:157-208 | 400 for the first missing required field. 404 only when the dealership lookup runs and finds nothing. 201 iff a row is inserted, and that row is validated, non-null, belongs to an existing dealership, holds no list or object, and is the validated keyword arguments built from the request |
| Crud.StoreVehicle | backend/src/routes.py:168-208 | With the required fields present: 404 iff the lookup runs and finds no dealership. A key `Session.get` refuses gives 500. 201 iff a row is stored. The stored row is what validating the keyword arguments gives, carries the request's `dealership_id` unchanged, has its `NOT NULL` columns filled and every value bindable. Conversely, a known dealership, a readable `destaque_ate` and validating, complete, bindable arguments are always stored |
| Crud.Construct | backend/src/routes.py:171-198 | The constructor and commit: 201 iff the validated arguments fill the `NOT NULL` columns and can all be bound, and then the row is the validated arguments and validates to itself. Any failure is the 500 answer |
| Crud.CompleteBodyStored | backend/src/routes.py:161-168 | A body holding the three required fields passes the field check and goes straight to the dealership lookup |
| Crud.VehicleCreated | backend/src/routes.py:157-198 | A request with the three required fields, a known dealership, a readable `destaque_ate` and keyword arguments that validate with their `NOT NULL` columns filled and no list or object value is answered 201 and stores exactly that validated row |
| Crud.UnbindableVehicleNotStored | backend/src/routes.py:171-208 | A vehicle whose `cor` is a list or an object is never stored: `cor` has no validator, so the commit meets the value and fails |
| Crud.ContainerKeyNotStored | backend/src/routes.py:168-208 | A list or a dict as `dealership_id` is never stored: 404 when the lookup runs and finds nothing, otherwise 500 (the lookup raises, or the commit cannot bind the list or dict) |
| Crud.MissingDealershipFirst | backend/src/routes.py:163-166 | A body without `dealership_id` is reported for it, whatever else is missing |
| Crud.UnknownDealership | backend/src/routes.py:168-171 | An unknown numeric dealership id gives 404 before any column is validated |
| Crud.VehicleDefaults | backend/src/routes.py:180-191 | An omitted mileage is stored as 0, and an omitted highlight as off with no end date |
| Crud.DefaultsKept | backend/src/models.py:107-113 | The defaults survive the validators unchanged |
| Upload.FirstPresent | backend/src/routes.py:308-311 | The cell under the first accepted header that is present and not NaN, and `None` iff no header has a cell |
| Upload.Fill | backend/src/routes.py:307-311 | A column ends up in the row iff it was there already or some mapping entry finds a cell for it |
| Upload.FillKeeps | backend/src/routes.py:305-311 | A key that no mapping entry names keeps its value |
| Upload.FillTakes | backend/src/routes.py:307-311 | An entry that no later entry overrides sets its column to the first present cell |
| Upload.MapRow | backend/src/routes.py:305-311 | A row's keys are `dealership_id` plus exactly the mapped columns that found a cell |
| Upload.NoDealershipColumn | backend/src/routes.py:283-302 | No column of the header table is called `dealership_id` |
| Upload.DealershipIdKept | backend/src/routes.py:305 | Every mapped row carries the form's dealership id, as a string |
| Upload.HeaderSpellings | backend/src/routes.py:284-289 | Only listed headers are read: a lower-case "quilometragem" header is not. For `marca`, "Marca" wins over "marca" |
| Upload.ColumnTakesFirstPresent | backend/src/routes.py:307-311 | Each column takes the cell under its first present alias |
| Upload.RowVehicle | backend/src/routes.py:314 | An accepted row is a validated vehicle over the mapped keys |
| Upload.Outcomes | backend/src/routes.py:280-320 | One constructor outcome per row, in sheet order |
| Upload.RowError | backend/src/routes.py:319 | The error reads "Error in row <index+2>: " followed by the message |
| Upload.Process | backend/src/routes.py:280-320 | Each outcome is either added or reported as an error, and exactly as many are added as were accepted |
| Upload.AddedAreAccepted | backend/src/routes.py:313-316 | Only accepted rows are added |
| Upload.ErrorsNameRows | backend/src/routes.py:318-320 | Every error names a refused row by its sheet line and carries its message |
| Upload.AcceptedRowAdded | backend/src/routes.py:313-316 | Every accepted row is added |
| Upload.NoneAcceptedAllReported | backend/src/routes.py:318-320 | When no row is accepted, every row is reported |
| Upload.FormDealership | backend/src/routes.py:266 | The form's dealership id finds a row only when it is a digit string naming a stored dealership |
| Upload.Refused | backend/src/routes.py:250-268 | A refused request stores nothing |
| Upload.Commit | backend/src/routes.py:322-337 | 201 iff rows were stored. Then the stored rows are the accepted rows in sheet order, each one an accepted outcome with its `NOT NULL` columns filled. 400 when nothing was accepted. 201 whenever some row was accepted and every accepted row fills its `NOT NULL` columns |
| Upload.ProcessSplits | backend/src/routes.py:280-320 | The row loop keeps sheet order: two runs of rows processed one after the other add, and report, what each run does, the first run first |
| Upload.UploadVehicles | backend/src/routes.py:247-337 | The checks run in order: no file, an empty filename, not .csv/.xlsx, no `dealership_id` (each 400), an unknown dealership (404). An unreadable file gives 500. Otherwise the rows are committed |
| Upload.StoredRows | backend/src/routes.py:314-327 | Every stored row is a validated vehicle that came from some sheet row |
| Upload.FromSomeRow | backend/src/routes.py:314-316 | An accepted outcome is the validated vehicle of some sheet row |
| Upload.MissingMakeFailsAll | backend/src/routes.py:322-337 | One accepted row without `marca` fails the whole commit with 500 |
| Upload.RowWithoutMake | backend/src/routes.py:305-314 | A row with no make cell passes the validators but lacks `marca` |
| Upload.NothingAccepted | backend/src/routes.py:328-332 | When no row is accepted, the answer is 400 with one error per row |

## Left out

- The language model and its prompt: `generate_content` is the `llm` parameter of `Assistant.Oracles`. The dealership name and user text are its inputs, and the prompt wording is not modelled.
- `json.loads`: the `parse` parameter of `Assistant.Oracles`. It is not a verified JSON parser.
- HTTP transport: `requests.post`, `raise_for_status`, Flask requests and `jsonify` are not modelled. The model stops at the payload posted and the status answered. Logging is dropped.
- The Graph API's reaction to a payload is not modelled. `WhatsAppApi.Received` reads a payload the way a recipient would, and nothing more.
- The database is the SQLite backend that backend/tests/test_api.py:9 configures. The deployment reads `DATABASE_URL` (backend/src/main.py:44) and backend/setup.py installs a PostgreSQL driver, which binds and compares lists, bools and numbers differently; that backend is not modelled. The database is a snapshot sequence, and transactions are not modelled. SQLite type affinity is modelled only where the model compares values: `Crud.ColumnText` for the unique text columns, and digit strings for integer ids. The commit refuses only values sqlite3 cannot bind, lists and objects (`Crud.Storable`), and rows that break the unique `whatsapp_number` or `email` (`Crud.ContactTaken`). The conversions of SQLAlchemy's column types are not modelled: the strict `Boolean`, `Float` and `DateTime` processors. Digit-string ids are looked up through `ParseNat`.
- Crud.CreateVehicle: a value that SQLAlchemy's column type refuses at commit is stored with 201, because the column conversions are not modelled. Examples are a string in the Boolean `destaque` or a non-numeric string in the Float `preco_promocional`. Only lists and objects are refused.
- Crud.StoreVehicle: the same column conversions are not modelled.
- Upload.Commit: sheet cells are taken to be scalars, as pandas yields them, so the bind check for lists and objects is not repeated there.
- Listing.Marshal: copies a value the body carries without the field's own formatting (`fields.Integer`, `Float`, `Boolean`). The listing only marshals bodies that carry none of the model's fields.
- Listing.ListScoped: the listed vehicles are returned as rows. Their marshalling into `vehicle_model` records, which drops the other columns, is not modelled. The `except` branch is not modelled either, because the model's query cannot fail.
- pandas reading of CSV/XLSX: the parsed table is part of the request, with NaN cells absent or `null`. An unreadable file is `None` (a 500).
- Floating point: prices are integers. `Formatter.Price` renders thousands groups and ".00". Float bounds from `type=float` are integers.
- Unicode: `Text.Lower` lower-cases ASCII and Latin-1 capitals only. `\D` in `re.sub` counts ASCII digits only. `Text.IsSpace` is the ASCII and Latin-1 part of what `str.strip()` removes; U+1680, U+2000-U+200A, U+2028, U+2029, U+202F, U+205F and U+3000 are not stripped. `Like.ILike` folds with `Text.Lower`, while SQLite's `lower()` and `LIKE` fold ASCII only, so the model matches some accented capitals that SQLite would not.
- The f-string of backend/src/services/whatsapp_service.py:52 holds a `'\n• '` inside a replacement field, which Python accepts from version 3.12 on. The model follows Python 3.12 or later; earlier versions refuse to import the module.
- Crud.LookupKey: a string id is looked up only when it is a digit string. SQLite's affinity would also read forms such as "1.0" or " 1" as numbers, and those find nothing in the model. A JSON number is an integer in the model.
- Clocks: the current year and "now" are parameters.
- Authentication, registration, login, Swagger models, app bootstrap, debug routes and the React frontend are not part of this model.
- The tracebacks appended to `[DEBUG] Erro geral` replies are not modelled, only the exception text. That text is Python's own message for the failing conversion (`VehicleSearch.Bound`, `VehicleSearch.Term`). SQLAlchemy's wrapping of errors raised when the query runs is not modelled, nor are sqlite3's binding messages. Examples are `(builtins.ValueError) … [SQL: …]`, and a list bound to an integer column.
- The header table in `Upload` is a parameter (`Mapping`). The view passes `Upload.ColumnMapping`.
- VehicleSearch.Bound: reads only whole-number strings (after stripping) as numbers. Decimal strings such as "50000.50" are errors in the model, and the database's own comparison of a text bound with a numeric column is not modelled.
- LegacyWebhook.Respond: the posted closing body is the whole reply list, as the code posts it; the model uses `LegacyWebhook.RespondCorrected` only to state the intended behaviour.
- Crud.VehicleKwargs: states the required keys, `estado`, `preco` and the three defaults, and not each of the other `data.get` columns one by one.
- Formatter.Price: states only the ".00" ending. The thousands grouping is defined by `Text.GroupedNat` and proved value-preserving there.
- Formatter.ShowInt: states only the `None` rendering. Numbers render through `Text.NatToString`.
- Assistant.Answer: states only that there is a reply. Its content is stated by `Assistant.EmptySearchIsNotice` and `Assistant.AnswerFormatsFound`.
- Assistant.Sanitise: states only the removed backticks and the length bound. The fence behaviour is in `Assistant.FencedObject`.
- Assistant.WelcomeText: states only that the dealership name is contained.
- Inbound.Unwrap: states only the first two stops. The others are stated by `Inbound.UnwrapNoChanges`, `Inbound.UnwrapNoMessages` and `Inbound.UnwrapFirstMessage`.
- Upload.FormDealership: states only what a found dealership implies.
- WhatsAppService.NotFoundText: states only that the model is named.
- WhatsAppService.PhotoCaption: states only that the caption ends with the model.

## Findings

| source | as written | input that shows it | evidently intended | confidence | as-written member | corrected member |
|---|---|---|---|---|---|---|
| backend/src/routes/main.py:522 | The closing branch takes the reply's `text` only when the assistant's answer is a dict, and otherwise uses the answer itself. `process_message_with_ai` always returns a list, so the whole list becomes the text body of the closing message | the text "nao obrigado" with an active dealership: the posted `text.body` is a JSON list, not a string | post the text of the assistant's first reply | not executed | LegacyWebhook.Respond, LegacyWebhook.AnswerClosing, LegacyWebhook.ClosingBodyAsWritten, LegacyWebhook.ClosingAsWrittenHasNoText | LegacyWebhook.RespondCorrected, LegacyWebhook.ClosingAsWrittenVsCorrected, LegacyWebhook.ClosingText, LegacyWebhook.ClosingDelivers |

=== FILE: assistant.dfy ===
/** `process_message_with_ai` (backend/src/ai_processor.py): ask the language model to
    extract search parameters, clean its reply, decode it, route on `intent`, and search
    and format the inventory. The model call and `json.loads` are parameters. */
module Assistant {
  import opened Wrappers
  import opened Text
  import opened Json
  import opened Seqs
  import opened Records
  import opened VehicleSearch
  import opened Formatter

  /** What `model.generate_content(prompt)` yields: its text, or the exception it raised. */
  datatype LlmReply = LlmText(text: string) | LlmFailure(error: string)

  /** What `json.loads(candidate)` yields: a value, or the message of the exception. */
  datatype Parsed = Parsed(value: Json) | ParseError(message: string)

  /** The two untrusted collaborators. The model sees the dealership name and the user
      message (the prompt wording around them is fixed). */
  datatype Oracles = Oracles(llm: (string, string) -> LlmReply, parse: string -> Parsed)

  // ---------------------------------------------------------------------------
  // Fixed replies
  // ---------------------------------------------------------------------------

  const UnknownDealershipText := "Desculpe, não consegui identificar a concessionária."
  const RedirectText := "Entendido! Se precisar de ajuda para buscar um veículo, é só me dizer a marca, modelo, opcionais ou faixa de preço que procura. 😉"
  const NotUnderstoodText := "Não entendi quais características de veículo você procura. Pode me dar mais detalhes como marca, modelo, opcionais ou preço?"
  const DecodeErrorPrefix := "[DEBUG] Erro ao decodificar JSON: "
  const GeneralErrorPrefix := "[DEBUG] Erro geral: "

  /** The message Python raises when `f"{None:,.2f}"` or `f"{None:,}"` is formatted. */
  const NoneFormatError := "unsupported format string passed to NoneType.__format__"

  function WelcomeText(name: string): (r: string)
    ensures Contains(r, name)
  {
    Framed("Olá! 👋 Bem-vindo à ", name, ". Como posso ajudar você a encontrar seu próximo carro? Me diga o que procura!")
  }

  function DecodeErrorText(error: string, raw: string): (r: string)
    ensures StartsWith(r, DecodeErrorPrefix) && EndsWith(r, raw)
  {
    ConcatEnds(DecodeErrorPrefix, error + "\nResposta bruta: " + raw);
    ConcatEnds(DecodeErrorPrefix + error + "\nResposta bruta: ", raw);
    assert DecodeErrorPrefix + (error + "\nResposta bruta: " + raw)
        == DecodeErrorPrefix + error + "\nResposta bruta: " + raw;
    DecodeErrorPrefix + error + "\nResposta bruta: " + raw
  }

  /** The reply of the outer `except`: the exception text (the traceback that follows it
      in the source is not modelled). */
  function GeneralError(error: string): (r: Reply)
    ensures StartsWith(r.text, GeneralErrorPrefix) && r.image.None?
  {
    ConcatEnds(GeneralErrorPrefix, error + "\nTraceback: ");
    assert GeneralErrorPrefix + (error + "\nTraceback: ") == GeneralErrorPrefix + error + "\nTraceback: ";
    Reply(GeneralErrorPrefix + error + "\nTraceback: ", None)
  }

  // ---------------------------------------------------------------------------
  // Cleaning the model's reply
  // ---------------------------------------------------------------------------

  /** `text.strip().replace('`', '')`, then a leading case-insensitive `json` tag dropped
      and the rest stripped again. */
  function Sanitise(text: string): (r: string)
    ensures '`' !in r
    ensures |r| <= |text|
  {
    var raw := RemoveChar(Strip(text), '`');
    if StartsWith(Lower(raw), "json") then
      var rest := raw[4..];
      assert forall c :: c in rest ==> c in raw;
      StripKeepsAbsent(rest, '`');
      Strip(rest)
    else raw
  }

  /** `raw[raw.find('{'):raw.rfind('}') + 1]`, or all of `raw` when it has no `{`. */
  function Candidate(raw: string): (r: string)
    ensures '{' !in raw ==> r == raw
    ensures '{' in raw ==> (r == "" <==> forall k :: FindChar(raw, '{') < k < |raw| ==> raw[k] != '}')
    ensures '{' in raw && r != "" ==>
      var i := FindChar(raw, '{');
      && i + |r| <= |raw| && r == raw[i..i + |r|]
      && r[0] == '{' && r[|r| - 1] == '}'
      && (forall k :: 0 <= k < i ==> raw[k] != '{')
      && (forall k :: i + |r| <= k < |raw| ==> raw[k] != '}')
  {
    var start := FindChar(raw, '{');
    var end := RFindChar(raw, '}') + 1;
    if start == -1 then raw
    else if end <= start then ""
    else raw[start..end]
  }

  lemma Assoc3(a: string, b: string, c: string, d: string)
    ensures (a + b) + c + d == a + (b + c + d)
  {
  }

  /** The usual fenced reply, ```` ```json\n{...}\n``` ````, yields exactly the object. */
  lemma FencedObject(obj: string)
    requires |obj| >= 2 && obj[0] == '{' && obj[|obj| - 1] == '}' && '`' !in obj
    ensures Candidate(Sanitise("```json\n" + obj + "\n```")) == obj
  {
    SanitiseFenced(obj);
    CandidateOfObject(obj);
  }

  /** A text that already is one object is its own candidate. */
  lemma CandidateOfObject(obj: string)
    requires |obj| >= 2 && obj[0] == '{' && obj[|obj| - 1] == '}'
    ensures Candidate(obj) == obj
  {
    assert FindChar(obj, '{') == 0;
    assert RFindChar(obj, '}') == |obj| - 1;
    assert obj[0..|obj|] == obj;
  }

  lemma {:induction false} SanitiseFenced(obj: string)
    requires |obj| >= 2 && obj[0] == '{' && obj[|obj| - 1] == '}' && '`' !in obj
    ensures Sanitise("```json\n" + obj + "\n```") == obj
  {
    var text := "```json\n" + obj + "\n```";
    StripNoop(text);
    var rest := "\n" + obj + "\n";
    var raw := "json" + rest;
    UnfenceTicks(obj);
    LowerConcat("json", rest);
    LowerOfNoUpper("json");
    ConcatEnds("json", Lower(rest));
    assert raw[4..] == rest;
    StripPadded("\n", obj, "\n");
  }

  lemma {:induction false} UnfenceTicks(obj: string)
    requires '`' !in obj
    ensures RemoveChar("```json\n" + obj + "\n```", '`') == "json" + ("\n" + obj + "\n")
  {
    OpeningFence();
    ClosingFence();
    RemoveCharAround("```json\n", obj, "\n```", '`');
    assert "json\n" == "json" + "\n";
    Assoc3("json", "\n", obj, "\n");
  }

  /** The opening fence loses its three backticks and keeps the language tag. */
  lemma OpeningFence()
    ensures RemoveChar("```json\n", '`') == "json\n"
  {
    assert "```json\n" == "```" + "json\n";
    RemoveCharConcat("```", "json\n", '`');
    RemoveCharOnly("```", '`');
    RemoveCharAbsent("json\n", '`');
  }

  /** The closing fence loses its three backticks and keeps the line break. */
  lemma ClosingFence()
    ensures RemoveChar("\n```", '`') == "\n"
  {
  }

  // ---------------------------------------------------------------------------
  // Optional items
  // ---------------------------------------------------------------------------

  const KnownOpcionais: seq<string> := [
    "ar condicionado", "direção hidráulica", "direção elétrica", "vidros elétricos",
    "teto solar", "rodas de liga leve", "banco de couro", "sensor de estacionamento",
    "câmera de ré", "piloto automático", "airbag", "freios abs", "multimídia", "gps",
    "alarme", "travas elétricas"]

  predicate IsKnown(op: string) {
    op in KnownOpcionais
  }

  function LowerAll(ops: seq<string>): (r: seq<string>)
    ensures |r| == |ops| && forall i :: 0 <= i < |ops| ==> r[i] == Lower(ops[i])
  {
    seq(|ops|, i requires 0 <= i < |ops| => Lower(ops[i]))
  }

  /** `[op.lower() for op in ops if op.lower() in KNOWN_OPCIONAIS]` over strings. */
  function KeepKnown(ops: seq<string>): (r: seq<string>)
    ensures forall i :: 0 <= i < |r| ==> IsKnown(r[i])
    ensures IsSubseq(r, LowerAll(ops))
    ensures forall i :: 0 <= i < |ops| && IsKnown(Lower(ops[i])) ==> Lower(ops[i]) in r
    ensures forall i :: 0 <= i < |r| ==> NoUpper(r[i])
    ensures forall x :: multiset(r)[x] == if IsKnown(x) then multiset(LowerAll(ops))[x] else 0
  {
    var lowered := LowerAll(ops);
    var r := Filter(lowered, IsKnown);
    assert forall x :: multiset(r)[x] == if IsKnown(x) then multiset(lowered)[x] else 0 by {
      forall x
        ensures multiset(r)[x] == if IsKnown(x) then multiset(lowered)[x] else 0
      {
        FilterCounts(lowered, IsKnown, x);
      }
    }
    assert forall i :: 0 <= i < |ops| ==> lowered[i] == Lower(ops[i]);
    assert forall i :: 0 <= i < |r| ==> NoUpper(r[i]) by {
      forall i | 0 <= i < |r|
        ensures NoUpper(r[i])
      {
        var j :| 0 <= j < |lowered| && lowered[j] == r[i];
      }
    }
    r
  }

  /** Normalising twice changes nothing: the kept entries are already lower-case and known. */
  lemma KeepKnownIdempotent(ops: seq<string>)
    ensures KeepKnown(KeepKnown(ops)) == KeepKnown(ops)
  {
    var r := KeepKnown(ops);
    forall i | 0 <= i < |r|
      ensures Lower(r[i]) == r[i]
    {
      LowerOfNoUpper(r[i]);
    }
    assert LowerAll(r) == r;
    FilterAll(r, IsKnown);
  }

  /** The items of a JSON list as strings: `op.lower()` raises on the first non-string. */
  function Strings(items: seq<Json>): (r: Result<seq<string>>)
    ensures r.Ok? <==> forall i :: 0 <= i < |items| ==> items[i].JStr?
    ensures r.Ok? ==> |r.value| == |items| && forall i :: 0 <= i < |items| ==> r.value[i] == items[i].s
  {
    if |items| == 0 then Ok([])
    else
      var head := AsStr(items[0], "lower");
      var tail := Strings(items[1..]);
      if head.Err? then Err(head.error)
      else if tail.Err? then
        assert exists i :: 1 <= i < |items| && !items[i].JStr? by {
          var j :| 0 <= j < |items[1..]| && !items[1..][j].JStr?;
          assert items[j + 1] == items[1..][j];
        }
        Err(tail.error)
      else
        assert forall i :: 1 <= i < |items| ==> items[i] == items[1..][i - 1];
        Ok([head.value] + tail.value)
  }

  /** The `opcionais` normalisation of `process_message_with_ai`: applied only when the key
      holds a list; raises when an entry is not a string. */
  function NormaliseOpcionais(params: map<string, Json>): (r: Result<map<string, Json>>)
    ensures r.Ok? ==> r.value.Keys == params.Keys
    ensures r.Ok? ==> forall k :: k in params && k != "opcionais" ==> r.value[k] == params[k]
    ensures !("opcionais" in params && params["opcionais"].JArr?) ==> r == Ok(params)
    ensures "opcionais" in params && params["opcionais"].JArr? ==>
      (r.Ok? <==> forall i :: 0 <= i < |params["opcionais"].items| ==> params["opcionais"].items[i].JStr?)
    ensures r.Ok? && "opcionais" in params && params["opcionais"].JArr? ==>
      exists ops :: Strings(params["opcionais"].items) == Ok(ops)
        && r.value["opcionais"] == JArr(JStrs(KeepKnown(ops)))
  {
    if "opcionais" in params && params["opcionais"].JArr? then
      var ops := Strings(params["opcionais"].items);
      if ops.Err? then Err(ops.error)
      else Ok(params["opcionais" := JArr(JStrs(KeepKnown(ops.value)))])
    else Ok(params)
  }

  // ---------------------------------------------------------------------------
  // Routing on the decoded value
  // ---------------------------------------------------------------------------

  /** Where a decoded reply goes, in the order the source tests it. */
  datatype Route =
    | NotAnObject(typeName: string)
    | Greeting
    | Redirect
    | NotUnderstood
    | Query(params: map<string, Json>)

  function Classify(j: Json): (r: Route)
    ensures !j.JObj? <==> r.NotAnObject?
    ensures r == Greeting <==> j.JObj? && Get(j.fields, "intent") == JStr("greeting")
    ensures r == Redirect <==> j.JObj? && Get(j.fields, "intent") in {JStr("other"), JStr("fallback")}
    ensures r == NotUnderstood <==> j == JObj(map[])
    ensures r.Query? <==> (j.JObj? && j.fields != map[]
                           && Get(j.fields, "intent") !in {JStr("greeting"), JStr("other"), JStr("fallback")})
    ensures r.Query? ==> r.params == j.fields
  {
    if !j.JObj? then NotAnObject(TypeName(j))
    else
      var intent := Get(j.fields, "intent");
      if intent == JStr("greeting") then Greeting
      else if intent == JStr("other") || intent == JStr("fallback") then Redirect
      else if j.fields == map[] then NotUnderstood
      else Query(j.fields)
  }

  /** Any object that is not one of the three intents and not empty is a search, even with
      an intent the prompt never mentions and no filter at all. */
  lemma UnknownIntentSearches(intent: string)
    requires intent !in {"greeting", "other", "fallback"}
    ensures Classify(JObj(map["intent" := JStr(intent)])) == Query(map["intent" := JStr(intent)])
    ensures ParseFilter(map["intent" := JStr(intent)]) == Ok(NoFilter)
  {
    var m := map["intent" := JStr(intent)];
    assert m != map[] by { assert "intent" in m; }
    assert JStr(intent) !in {JStr("greeting"), JStr("other"), JStr("fallback")};
  }

  /** The search-and-format branch. */
  function Answer(db: Db, dealershipId: int, params: map<string, Json>): (r: seq<Reply>)
    ensures |r| >= 1
  {
    match NormaliseOpcionais(params)
    case Err(e) => [GeneralError(e)]
    case Ok(normalised) =>
      match ParseFilter(normalised)
      case Err(e) => [GeneralError(e)]
      case Ok(f) =>
        var found := Search(db, dealershipId, f);
        if forall i :: 0 <= i < |found| ==> Formattable(found[i]) then FormatVehicles(found)
        else [GeneralError(NoneFormatError)]
  }

  /** `process_message_with_ai(dealership_id, user_message)`. */
  function ProcessMessage(db: Db, dealershipId: int, message: string, o: Oracles): (r: seq<Reply>)
    ensures |r| >= 1
    ensures DealershipById(db, dealershipId).None? ==> r == [Reply(UnknownDealershipText, None)]
    ensures DealershipById(db, dealershipId).Some? ==>
      var d := DealershipById(db, dealershipId).value;
      match o.llm(d.name, message)
      case LlmFailure(e) => r == [GeneralError(e)]
      case LlmText(t) =>
        var raw := Sanitise(t);
        match o.parse(Candidate(raw))
        case ParseError(e) =>
          && |r| == 1 && r[0].image.None?
          && StartsWith(r[0].text, DecodeErrorPrefix) && EndsWith(r[0].text, raw)
        case Parsed(j) =>
          match Classify(j)
          case NotAnObject(_) => |r| == 1 && StartsWith(r[0].text, GeneralErrorPrefix)
          case Greeting => r == [Reply(WelcomeText(d.name), None)] && Contains(r[0].text, d.name)
          case Redirect => r == [Reply(RedirectText, None)]
          case NotUnderstood => r == [Reply(NotUnderstoodText, None)]
          case Query(params) => r == Answer(db, dealershipId, params)
  {
    match DealershipById(db, dealershipId)
    case None => [Reply(UnknownDealershipText, None)]
    case Some(d) =>
      match o.llm(d.name, message)
      case LlmFailure(e) => [GeneralError(e)]
      case LlmText(t) =>
        var raw := Sanitise(t);
        match o.parse(Candidate(raw))
        case ParseError(e) => [Reply(DecodeErrorText(e, raw), None)]
        case Parsed(j) =>
          match Classify(j)
          case NotAnObject(name) => [GeneralError("'" + name + "' object has no attribute 'get'")]
          case Greeting => [Reply(WelcomeText(d.name), None)]
          case Redirect => [Reply(RedirectText, None)]
          case NotUnderstood => [Reply(NotUnderstoodText, None)]
          case Query(params) => Answer(db, dealershipId, params)
  }

  /** A search that finds nothing answers with exactly the no-match notice. */
  lemma EmptySearchIsNotice(db: Db, dealershipId: int, params: map<string, Json>, f: Criteria)
    requires NormaliseOpcionais(params).Ok? && ParseFilter(NormaliseOpcionais(params).value) == Ok(f)
    requires Search(db, dealershipId, f) == []
    ensures Answer(db, dealershipId, params) == [Reply(NoMatchText, None)]
  {
  }

  /** When every found vehicle has a price and a mileage, the answer is one reply per
      vehicle; the `opcionais` entry does not change which vehicles are found. */
  lemma AnswerFormatsFound(db: Db, dealershipId: int, params: map<string, Json>, f: Criteria)
    requires NormaliseOpcionais(params).Ok? && ParseFilter(params) == Ok(f)
    requires forall i :: 0 <= i < |Search(db, dealershipId, f)| ==> Formattable(Search(db, dealershipId, f)[i])
    ensures Answer(db, dealershipId, params) == FormatVehicles(Search(db, dealershipId, f))
  {
    NormalisedFilter(params);
  }

  /** Normalising the options leaves the search filters as they were. */
  lemma NormalisedFilter(params: map<string, Json>)
    requires NormaliseOpcionais(params).Ok?
    ensures ParseFilter(NormaliseOpcionais(params).value) == ParseFilter(params)
  {
    var normalised := NormaliseOpcionais(params).value;
    if "opcionais" in params && params["opcionais"].JArr? {
      assert normalised == params["opcionais" := normalised["opcionais"]];
      OpcionaisIgnored(params, normalised["opcionais"]);
    }
  }
}

=== FILE: crud.dfy ===
/** The JSON creation endpoints of backend/src/routes.py: `POST /api/dealerships` and
    `POST /api/vehicles`. A request body is a decoded JSON value; the database is read
    for the duplicate and existence checks, and the row a successful call inserts is
    returned as the keyword arguments the model constructor received, after its
    validators ran. The new row's id and the ISO date parser are parameters. */
module Crud {
  import opened Wrappers
  import opened Text
  import opened Json
  import opened Records
  import opened Http
  import opened Validators

  /** The result of a creation request: the HTTP answer, and the inserted row if any. */
  datatype Created = Created(response: Response, row: Option<map<string, Json>>)

  /** Every exception inside the view: rolled back, and the message is hidden. */
  const InternalError: Response := ErrorResponse(500, "Internal server error")

  function Failed(): (r: Created)
    ensures r.response.status == 500 && r.row.None?
  {
    Created(InternalError, None)
  }

  /** A body that `field in data` accepts: an object, a list or a string. */
  predicate Container(data: Json) {
    data.JObj? || data.JArr? || data.JStr?
  }

  /** `for field in required: if field not in data: return 400`, from position `from`:
      the index of the first missing field. The membership test itself raises on a body
      that is not a container. */
  function FirstMissing(data: Json, fields: seq<string>, from: nat): (r: Result<Option<nat>>)
    ensures r.Err? <==> from < |fields| && !Container(data)
    ensures r.Ok? && r.value.Some? ==>
      && from <= r.value.value < |fields|
      && Member(data, fields[r.value.value]) == Ok(false)
      && forall j :: from <= j < r.value.value ==> Member(data, fields[j]) == Ok(true)
    ensures r == Ok(None) <==> forall j :: from <= j < |fields| ==> Member(data, fields[j]) == Ok(true)
    decreases |fields| - from
  {
    if from >= |fields| then Ok(None)
    else
      var present :- Member(data, fields[from]);
      if !present then Ok(Some(from)) else FirstMissing(data, fields, from + 1)
  }

  /** An object holding every required field passes the check. */
  lemma NoneMissing(m: map<string, Json>, fields: seq<string>)
    requires forall j :: 0 <= j < |fields| ==> fields[j] in m
    ensures FirstMissing(JObj(m), fields, 0) == Ok(None)
  {
  }

  function MissingField(field: string): (r: Response)
    ensures r.status == 400
  {
    ErrorResponse(400, "Missing required field: " + field)
  }

  // ---------------------------------------------------------------------------
  // POST /api/dealerships
  // ---------------------------------------------------------------------------

  const DealershipRequired: seq<string> := ["name", "whatsapp_number", "email", "cnpj"]
  const DealershipOptional: seq<string> := ["address", "city", "state", "phone", "website"]

  /** The text a `String` column is compared with, or stored as: the column's `TEXT`
      affinity turns a bound number into its decimal text, and sqlite3 binds a bool as
      the integer 1 or 0. `NULL` equals nothing, and a list or an object cannot be bound. */
  function ColumnText(v: Json): (r: Option<string>)
    ensures r.None? <==> v.JNull? || v.JArr? || v.JObj?
    ensures v.JStr? ==> r == Some(v.s)
    ensures v.JBool? ==> r == Some(if v.b then "1" else "0")
    ensures v.JNum? && v.n >= 0 ==> r.Some? && ParseNat(r.value) == Some(v.n)
  {
    match v
    case JStr(s) => Some(s)
    case JNum(n) =>
      if n < 0 then Some(IntToString(n))
      else NatToStringValue(n); Some(IntToString(n))
    case JBool(b) => Some(if b then "1" else "0")
    case _ => None
  }

  /** `Dealership.query.filter_by(cnpj=value).first()` finds a row. */
  predicate CnpjTaken(db: Db, value: Json) {
    exists i :: 0 <= i < |db.dealerships| && Some(db.dealerships[i].cnpj) == ColumnText(value)
  }

  /** The `unique` constraints on `whatsapp_number` and `email`: a stored dealership
      already holds the number or the address the request carries. */
  predicate ContactTaken(db: Db, m: map<string, Json>)
    requires "whatsapp_number" in m && "email" in m
  {
    exists i :: 0 <= i < |db.dealerships| &&
      (Some(db.dealerships[i].whatsappNumber) == ColumnText(m["whatsapp_number"])
       || Some(db.dealerships[i].email) == ColumnText(m["email"]))
  }

  /** The keyword arguments of the constructor call: the required fields as given and
      the optional ones as `data.get(...)`. */
  function DealershipKwargs(m: map<string, Json>): (r: map<string, Json>)
    requires "name" in m && "whatsapp_number" in m && "email" in m && "cnpj" in m
    ensures r.Keys == {"name", "whatsapp_number", "email", "cnpj", "address", "city", "state", "phone", "website"}
    ensures forall k :: k in r && k in m ==> r[k] == m[k]
    ensures forall k :: k in r && k !in m ==> r[k] == JNull
  {
    map["name" := m["name"], "whatsapp_number" := m["whatsapp_number"], "email" := m["email"], "cnpj" := m["cnpj"],
        "address" := Get(m, "address"), "city" := Get(m, "city"), "state" := Get(m, "state"),
        "phone" := Get(m, "phone"), "website" := Get(m, "website")]
  }

  /** The `NOT NULL` columns, checked when the session commits. */
  predicate NotNull(row: map<string, Json>, columns: seq<string>) {
    forall i :: 0 <= i < |columns| ==> columns[i] in row && row[columns[i]] != JNull
  }

  /** A value sqlite3 can bind as a statement parameter. A list or an object cannot be
      bound, so the commit raises. */
  predicate Bindable(v: Json) {
    !v.JArr? && !v.JObj?
  }

  /** Every column value of the row can be bound by the commit's `INSERT`. */
  predicate Storable(row: map<string, Json>) {
    forall k :: k in row ==> Bindable(row[k])
  }

  /** `create_dealership`. */
  function CreateDealership(db: Db, data: Json, newId: int): (r: Created)
    ensures r.response.status in {201, 400, 409, 500}
    ensures r.response.status == 201 <==> r.row.Some?
    ensures r.response.status == 400 ==>
      exists f :: f in DealershipRequired && r.response == MissingField(f) && Member(data, f) == Ok(false)
    ensures r.response.status == 409 ==> data.JObj? && "cnpj" in data.fields && CnpjTaken(db, data.fields["cnpj"])
    ensures r.row.Some? ==>
      && data.JObj? && "name" in data.fields && "whatsapp_number" in data.fields
      && "email" in data.fields && "cnpj" in data.fields
      && !CnpjTaken(db, data.fields["cnpj"])
      && !ContactTaken(db, data.fields)
      && r.row.value == DealershipKwargs(data.fields)
      && ValidateDealership(r.row.value).Ok?
      && NotNull(r.row.value, DealershipRequired)
      && Storable(r.row.value)
      && r.response == Response(201, JObj(map["message" := JStr("Dealership created successfully"), "dealership_id" := JNum(newId)]))
  {
    match FirstMissing(data, DealershipRequired, 0)
    case Err(_) => Failed()
    case Ok(Some(i)) => Created(MissingField(DealershipRequired[i]), None)
    case Ok(None) =>
      if !data.JObj? then Failed()
      else
        var m := data.fields;
        assert "name" in m && "whatsapp_number" in m && "email" in m && "cnpj" in m by {
          assert Member(data, DealershipRequired[0]) == Ok(true) && Member(data, DealershipRequired[1]) == Ok(true);
          assert Member(data, DealershipRequired[2]) == Ok(true) && Member(data, DealershipRequired[3]) == Ok(true);
        }
        Insert(db, m, newId)
  }

  /** The part of `create_dealership` after the required fields were found: the duplicate
      check, then the constructor's validators and the commit, which fails on a value
      sqlite3 cannot bind or on a number or address another dealership holds. */
  function Insert(db: Db, m: map<string, Json>, newId: int): (r: Created)
    requires "name" in m && "whatsapp_number" in m && "email" in m && "cnpj" in m
    ensures r.response.status in {201, 409, 500}
    ensures r.response.status == 201 <==> r.row.Some?
    ensures r.response.status == 409 <==> CnpjTaken(db, m["cnpj"])
    ensures r.row.Some? ==>
      && r.row.value == DealershipKwargs(m)
      && !ContactTaken(db, m)
      && ValidateDealership(r.row.value).Ok?
      && NotNull(r.row.value, DealershipRequired)
      && Storable(r.row.value)
      && r.response == Response(201, JObj(map["message" := JStr("Dealership created successfully"), "dealership_id" := JNum(newId)]))
    ensures (&& !CnpjTaken(db, m["cnpj"])
             && ValidateDealership(DealershipKwargs(m)).Ok? && NotNull(DealershipKwargs(m), DealershipRequired)
             && Storable(DealershipKwargs(m)) && !ContactTaken(db, m))
      ==> r.row.Some?
    ensures !CnpjTaken(db, m["cnpj"]) && ContactTaken(db, m) ==> r == Failed()
  {
    if CnpjTaken(db, m["cnpj"]) then Created(ErrorResponse(409, "CNPJ already registered"), None)
    else
      var kwargs := DealershipKwargs(m);
      if ValidateDealership(kwargs).Err? || !NotNull(kwargs, DealershipRequired) || !Storable(kwargs) then Failed()
      else if ContactTaken(db, m) then Failed()
      else
        Created(Response(201, JObj(map["message" := JStr("Dealership created successfully"), "dealership_id" := JNum(newId)])),
                Some(kwargs))
  }

  /** A well-formed request for a new CNPJ, number and address whose column values can
      all be bound is created; keys that are not columns do not matter. */
  lemma DealershipCreated(db: Db, m: map<string, Json>, newId: int)
    requires "name" in m && "whatsapp_number" in m && "email" in m && "cnpj" in m
    requires m["name"] != JNull && m["whatsapp_number"] != JNull && Phone("whatsapp_number", m["whatsapp_number"]).Ok?
    requires Email(m["email"]).Ok? && Cnpj(m["cnpj"]).Ok? && Phone("phone", Get(m, "phone")).Ok?
    requires !CnpjTaken(db, m["cnpj"]) && !ContactTaken(db, m)
    requires Storable(DealershipKwargs(m))
    ensures CreateDealership(db, JObj(m), newId).response.status == 201
  {
    KwargsValid(m);
    ValidKwargsCreated(db, m, newId);
  }

  /** Valid contacts make the constructor's keyword arguments valid and complete. */
  lemma KwargsValid(m: map<string, Json>)
    requires "name" in m && "whatsapp_number" in m && "email" in m && "cnpj" in m
    requires m["name"] != JNull && m["whatsapp_number"] != JNull && Phone("whatsapp_number", m["whatsapp_number"]).Ok?
    requires Email(m["email"]).Ok? && Cnpj(m["cnpj"]).Ok? && Phone("phone", Get(m, "phone")).Ok?
    ensures ValidateDealership(DealershipKwargs(m)).Ok? && NotNull(DealershipKwargs(m), DealershipRequired)
  {
    assert m["email"] != JNull && m["cnpj"] != JNull;
    KwargsNotNull(m);
    ContactsValid(DealershipKwargs(m));
  }

  lemma KwargsNotNull(m: map<string, Json>)
    requires "name" in m && "whatsapp_number" in m && "email" in m && "cnpj" in m
    requires m["name"] != JNull && m["whatsapp_number"] != JNull && m["email"] != JNull && m["cnpj"] != JNull
    ensures NotNull(DealershipKwargs(m), DealershipRequired)
  {
    var kwargs := DealershipKwargs(m);
    assert kwargs["name"] == m["name"] && kwargs["whatsapp_number"] == m["whatsapp_number"];
    assert kwargs["email"] == m["email"] && kwargs["cnpj"] == m["cnpj"];
  }

  lemma ValidKwargsCreated(db: Db, m: map<string, Json>, newId: int)
    requires "name" in m && "whatsapp_number" in m && "email" in m && "cnpj" in m
    requires !CnpjTaken(db, m["cnpj"]) && !ContactTaken(db, m)
    requires ValidateDealership(DealershipKwargs(m)).Ok? && NotNull(DealershipKwargs(m), DealershipRequired)
    requires Storable(DealershipKwargs(m))
    ensures CreateDealership(db, JObj(m), newId).response.status == 201
  {
    NoneMissing(m, DealershipRequired);
  }

  lemma ContactsValid(kwargs: map<string, Json>)
    requires "whatsapp_number" in kwargs && "email" in kwargs && "cnpj" in kwargs && "phone" in kwargs
    requires Phone("whatsapp_number", kwargs["whatsapp_number"]).Ok? && Email(kwargs["email"]).Ok?
    requires Cnpj(kwargs["cnpj"]).Ok? && Phone("phone", kwargs["phone"]).Ok?
    ensures ValidateDealership(kwargs).Ok?
  {
    assert forall k :: k in DealershipChecks <==> k in {"whatsapp_number", "email", "cnpj", "phone"};
  }

  /** A new CNPJ whose number or address another dealership holds passes the duplicate
      check and fails the commit: 500, however valid the request. */
  lemma TakenContactFails(db: Db, m: map<string, Json>, newId: int)
    requires "name" in m && "whatsapp_number" in m && "email" in m && "cnpj" in m
    requires !CnpjTaken(db, m["cnpj"]) && ContactTaken(db, m)
    ensures CreateDealership(db, JObj(m), newId) == Failed()
  {
    NoneMissing(m, DealershipRequired);
  }

  /** A CNPJ sent as a JSON number is compared as its decimal text, so it conflicts with
      the same digits stored as text. */
  lemma NumericCnpjConflicts(db: Db, m: map<string, Json>, newId: int, i: nat)
    requires "name" in m && "whatsapp_number" in m && "email" in m && "cnpj" in m
    requires m["cnpj"].JNum? && i < |db.dealerships| && db.dealerships[i].cnpj == IntToString(m["cnpj"].n)
    ensures CreateDealership(db, JObj(m), newId).response == ErrorResponse(409, "CNPJ already registered")
  {
    assert Some(db.dealerships[i].cnpj) == ColumnText(m["cnpj"]);
    NoneMissing(m, DealershipRequired);
  }

  /** The duplicate check precedes validation: a taken CNPJ is reported as a conflict even
      when other fields are invalid. */
  lemma DuplicateBeforeValidation(db: Db, m: map<string, Json>, newId: int)
    requires "name" in m && "whatsapp_number" in m && "email" in m && "cnpj" in m
    requires CnpjTaken(db, m["cnpj"])
    ensures CreateDealership(db, JObj(m), newId).response == ErrorResponse(409, "CNPJ already registered")
  {
    NoneMissing(m, DealershipRequired);
  }

  // ---------------------------------------------------------------------------
  // POST /api/vehicles
  // ---------------------------------------------------------------------------

  const VehicleRequired: seq<string> := ["dealership_id", "marca", "modelo"]

  /** The id one scalar identity value is compared with: a number as itself, a bool as
      the integer sqlite3 binds (1 or 0), a string of digits as the number the integer
      column's affinity makes of it. `null` and any other string find nothing. */
  function ScalarKey(v: Json): (r: Option<int>)
    requires Bindable(v)
    ensures r.None? <==> v.JNull? || (v.JStr? && ParseNat(v.s).None?)
    ensures r.Some? && v.JStr? ==> ParseNat(v.s) == Some(r.value)
  {
    match v
    case JNum(n) => Some(n)
    case JBool(b) => Some(if b then 1 else 0)
    case JStr(s) => (match ParseNat(s) case Some(n) => Some(n as int) case None => None)
    case JNull => None
  }

  const WrongCount := "Incorrect number of values in identifier formed from argument to Session.get()"
  const WrongNames := "Incorrect names of values in identifier formed from argument to Session.get()"
  const Unhashable := "unhashable type"

  /** The one-value identity `Session.get` forms from its argument: a dict must hold
      exactly the key `"id"` and a list exactly one value, which then stands for the
      whole; anything else is the value itself. A list or a dict as that value cannot
      be hashed into the identity map. */
  function Identity(key: Json): (r: Result<Json>)
    ensures r.Ok? ==> Bindable(r.value)
    ensures Bindable(key) ==> r == Ok(key)
    ensures key.JArr? ==> (r.Ok? <==> |key.items| == 1 && Bindable(key.items[0]))
    ensures key.JArr? && r.Ok? ==> r.value == key.items[0]
    ensures key.JObj? ==> (r.Ok? <==> |key.fields| == 1 && "id" in key.fields && Bindable(key.fields["id"]))
    ensures key.JObj? && r.Ok? ==> r.value == key.fields["id"]
  {
    match key
    case JArr(items) =>
      if |items| != 1 then Err(WrongCount)
      else if !Bindable(items[0]) then Err(Unhashable)
      else Ok(items[0])
    case JObj(fields) =>
      if |fields| != 1 then Err(WrongCount)
      else if "id" !in fields then Err(WrongNames)
      else if !Bindable(fields["id"]) then Err(Unhashable)
      else Ok(fields["id"])
    case _ => Ok(key)
  }

  /** `Dealership.query.get(key)`: the primary key the query looks for (`None` when it
      can find nothing), or the exception `Session.get` raises. */
  function LookupKey(key: Json): (r: Result<Option<int>>)
    ensures key.JNum? ==> r == Ok(Some(key.n))
    ensures key.JBool? ==> r == Ok(Some(if key.b then 1 else 0))
    ensures key.JNull? ==> r == Ok(None)
    ensures r.Err? <==> Identity(key).Err?
    ensures r.Ok? ==> r.value == ScalarKey(Identity(key).value)
  {
    var v :- Identity(key);
    Ok(ScalarKey(v))
  }

  /** A one-element list, or a dict holding only `"id"`, looks up its value exactly as
      the value itself would be looked up. */
  lemma WrappedKeyIsValue(v: Json)
    requires Bindable(v)
    ensures LookupKey(JArr([v])) == LookupKey(v)
    ensures LookupKey(JObj(map["id" := v])) == LookupKey(v)
  {
    assert |map["id" := v]| == 1;
  }

  /** The request's `dealership_id` names a stored dealership. */
  predicate KnownDealership(db: Db, key: Json) {
    LookupKey(key).Ok? && LookupKey(key).value.Some? && DealershipById(db, LookupKey(key).value.value).Some?
  }

  /** The lookup runs and finds no dealership: `if not dealership` answers 404. */
  predicate NoSuchDealership(db: Db, key: Json) {
    LookupKey(key).Ok? && (LookupKey(key).value.None? || DealershipById(db, LookupKey(key).value.value).None?)
  }

  /** `datetime.fromisoformat(data['destaque_ate']) if data.get('destaque_ate') else None`;
      `parseIso` is the date parser, giving a timestamp or failing. */
  function FeaturedUntil(m: map<string, Json>, parseIso: string -> Option<int>): (r: Result<Json>)
    ensures !Truthy(Get(m, "destaque_ate")) ==> r == Ok(JNull)
    ensures r.Ok? && r.value != JNull ==>
      r.value.JNum? && Get(m, "destaque_ate").JStr? && parseIso(Get(m, "destaque_ate").s) == Some(r.value.n)
    ensures Truthy(Get(m, "destaque_ate")) ==>
      (r.Ok? <==> Get(m, "destaque_ate").JStr? && parseIso(Get(m, "destaque_ate").s).Some?)
  {
    var v := Get(m, "destaque_ate");
    if !Truthy(v) then Ok(JNull)
    else if !v.JStr? then Err("fromisoformat: argument must be str")
    else match parseIso(v.s)
      case None => Err("Invalid isoformat string: '" + v.s + "'")
      case Some(t) => Ok(JNum(t))
  }

  /** The keyword arguments of the `Vehicle(...)` call. */
  function VehicleKwargs(m: map<string, Json>, until: Json): (r: map<string, Json>)
    requires "dealership_id" in m && "marca" in m && "modelo" in m
    ensures "dealership_id" in r && "marca" in r && "modelo" in r
    ensures r["dealership_id"] == m["dealership_id"] && r["marca"] == m["marca"] && r["modelo"] == m["modelo"]
    ensures "estado" in r && r["estado"] == Get(m, "estado") && "preco" in r && r["preco"] == Get(m, "preco")
    ensures "quilometragem" in r && r["quilometragem"] == (if "quilometragem" in m then m["quilometragem"] else JNum(0))
    ensures "destaque" in r && r["destaque"] == (if "destaque" in m then m["destaque"] else JBool(false))
    ensures "destaque_ate" in r && r["destaque_ate"] == until
  {
    Untouched(m)
      ["estado" := Get(m, "estado")]["preco" := Get(m, "preco")]
      ["quilometragem" := if "quilometragem" in m then m["quilometragem"] else JNum(0)]
      ["destaque" := if "destaque" in m then m["destaque"] else JBool(false)]
      ["destaque_ate" := until]
      ["dealership_id" := m["dealership_id"]]["marca" := m["marca"]]["modelo" := m["modelo"]]
  }

  /** The remaining keyword arguments, each `data.get(...)`. */
  function Untouched(m: map<string, Json>): map<string, Json> {
    map[
      "versao" := Get(m, "versao"), "ano_fabricacao" := Get(m, "ano_fabricacao"),
      "ano_modelo" := Get(m, "ano_modelo"), "cambio" := Get(m, "cambio"),
      "combustivel" := Get(m, "combustivel"), "motor" := Get(m, "motor"),
      "potencia" := Get(m, "potencia"), "final_placa" := Get(m, "final_placa"), "cor" := Get(m, "cor"),
      "preco_promocional" := Get(m, "preco_promocional"), "itens_opcionais" := Get(m, "itens_opcionais"),
      "link_fotos" := Get(m, "link_fotos"), "observacoes" := Get(m, "observacoes")]
  }

  /** `create_vehicle`. */
  function CreateVehicle(db: Db, data: Json, newId: int, currentYear: int, parseIso: string -> Option<int>): (r: Created)
    ensures r.response.status in {201, 400, 404, 500}
    ensures r.response.status == 201 <==> r.row.Some?
    ensures r.response.status == 400 ==>
      exists f :: f in VehicleRequired && r.response == MissingField(f) && Member(data, f) == Ok(false)
    ensures r.response.status == 404 ==>
      data.JObj? && "dealership_id" in data.fields && NoSuchDealership(db, data.fields["dealership_id"])
    ensures r.row.Some? ==>
      && data.JObj?
      && KnownDealership(db, Get(data.fields, "dealership_id"))
      && NotNull(r.row.value, VehicleRequired)
      && Storable(r.row.value)
      && ValidateVehicle(r.row.value, currentYear) == Ok(r.row.value)
      && r.response == Response(201, JObj(map["message" := JStr("Vehicle created successfully"), "vehicle_id" := JNum(newId)]))
    ensures r.row.Some? ==>
      && "dealership_id" in data.fields && "marca" in data.fields && "modelo" in data.fields
      && FeaturedUntil(data.fields, parseIso).Ok?
      && ValidateVehicle(VehicleKwargs(data.fields, FeaturedUntil(data.fields, parseIso).value), currentYear) == Ok(r.row.value)
  {
    match FirstMissing(data, VehicleRequired, 0)
    case Err(_) => Failed()
    case Ok(Some(i)) => Created(MissingField(VehicleRequired[i]), None)
    case Ok(None) =>
      if !data.JObj? then Failed()
      else
        var m := data.fields;
        assert "dealership_id" in m && "marca" in m && "modelo" in m by {
          assert Member(data, VehicleRequired[0]) == Ok(true) && Member(data, VehicleRequired[1]) == Ok(true);
          assert Member(data, VehicleRequired[2]) == Ok(true);
        }
        StoreVehicle(db, m, newId, currentYear, parseIso)
  }

  /** `create_vehicle` once the required fields are present: the dealership lookup,
      the constructor and the commit. */
  function StoreVehicle(db: Db, m: map<string, Json>, newId: int, currentYear: int, parseIso: string -> Option<int>): (r: Created)
    requires "dealership_id" in m && "marca" in m && "modelo" in m
    ensures r.response.status in {201, 404, 500}
    ensures r.response.status == 201 <==> r.row.Some?
    ensures r.response.status == 404 <==> NoSuchDealership(db, m["dealership_id"])
    ensures r.response.status == 404 ==> r.response == ErrorResponse(404, "Dealership not found")
    ensures LookupKey(m["dealership_id"]).Err? ==> r == Failed()
    ensures r.response.status == 500 ==> r == Failed()
    ensures r.row.Some? ==>
      && KnownDealership(db, m["dealership_id"])
      && "dealership_id" in r.row.value && r.row.value["dealership_id"] == m["dealership_id"]
      && NotNull(r.row.value, VehicleRequired)
      && Storable(r.row.value)
      && ValidateVehicle(r.row.value, currentYear) == Ok(r.row.value)
      && r.response == Response(201, JObj(map["message" := JStr("Vehicle created successfully"), "vehicle_id" := JNum(newId)]))
      && FeaturedUntil(m, parseIso).Ok?
      && ValidateVehicle(VehicleKwargs(m, FeaturedUntil(m, parseIso).value), currentYear) == Ok(r.row.value)
    ensures (&& KnownDealership(db, m["dealership_id"])
             && FeaturedUntil(m, parseIso).Ok?
             && ValidateVehicle(VehicleKwargs(m, FeaturedUntil(m, parseIso).value), currentYear).Ok?
             && NotNull(ValidateVehicle(VehicleKwargs(m, FeaturedUntil(m, parseIso).value), currentYear).value, VehicleRequired)
             && Storable(ValidateVehicle(VehicleKwargs(m, FeaturedUntil(m, parseIso).value), currentYear).value))
      ==> r.row.Some?
  {
    var key := LookupKey(m["dealership_id"]);
    if key.Err? then Failed()
    else if key.value.None? || DealershipById(db, key.value.value).None? then Created(ErrorResponse(404, "Dealership not found"), None)
    else match FeaturedUntil(m, parseIso)
      case Err(_) => Failed()
      case Ok(until) =>
        assert "dealership_id" !in VehicleChecks;
        Construct(VehicleKwargs(m, until), newId, currentYear)
  }

  /** `Vehicle(**kwargs)`, `db.session.add` and the commit: the validators, then the
      `NOT NULL` columns and the binding of every value. */
  function Construct(kwargs: map<string, Json>, newId: int, currentYear: int): (r: Created)
    ensures r.response.status in {201, 500}
    ensures r.response.status == 500 ==> r == Failed()
    ensures r.response.status == 201 <==> r.row.Some?
    ensures r.row.Some? ==>
      && ValidateVehicle(kwargs, currentYear) == Ok(r.row.value)
      && ValidateVehicle(r.row.value, currentYear) == Ok(r.row.value)
      && NotNull(r.row.value, VehicleRequired)
      && Storable(r.row.value)
      && r.response == Response(201, JObj(map["message" := JStr("Vehicle created successfully"), "vehicle_id" := JNum(newId)]))
    ensures (&& ValidateVehicle(kwargs, currentYear).Ok?
             && NotNull(ValidateVehicle(kwargs, currentYear).value, VehicleRequired)
             && Storable(ValidateVehicle(kwargs, currentYear).value))
      ==> r.row.Some?
  {
    match ValidateVehicle(kwargs, currentYear)
    case Err(_) => Failed()
    case Ok(row) =>
      if !NotNull(row, VehicleRequired) || !Storable(row) then Failed()
      else
        ValidateVehicleIdempotent(kwargs, currentYear);
        Created(Response(201, JObj(map["message" := JStr("Vehicle created successfully"), "vehicle_id" := JNum(newId)])),
                Some(row))
  }

  /** A complete request for a known dealership whose fields validate is stored, and
      the stored row is the validated keyword arguments. */
  lemma VehicleCreated(db: Db, m: map<string, Json>, newId: int, currentYear: int, parseIso: string -> Option<int>)
    requires "dealership_id" in m && "marca" in m && "modelo" in m
    requires KnownDealership(db, m["dealership_id"])
    requires FeaturedUntil(m, parseIso).Ok?
    requires ValidateVehicle(VehicleKwargs(m, FeaturedUntil(m, parseIso).value), currentYear).Ok?
    requires NotNull(ValidateVehicle(VehicleKwargs(m, FeaturedUntil(m, parseIso).value), currentYear).value, VehicleRequired)
    requires Storable(ValidateVehicle(VehicleKwargs(m, FeaturedUntil(m, parseIso).value), currentYear).value)
    ensures CreateVehicle(db, JObj(m), newId, currentYear, parseIso).response.status == 201
    ensures CreateVehicle(db, JObj(m), newId, currentYear, parseIso).row
      == Some(ValidateVehicle(VehicleKwargs(m, FeaturedUntil(m, parseIso).value), currentYear).value)
  {
    CompleteBodyStored(db, m, newId, currentYear, parseIso);
  }

  /** With the required fields present, the view goes straight to the store step. */
  lemma CompleteBodyStored(db: Db, m: map<string, Json>, newId: int, currentYear: int, parseIso: string -> Option<int>)
    requires "dealership_id" in m && "marca" in m && "modelo" in m
    ensures CreateVehicle(db, JObj(m), newId, currentYear, parseIso) == StoreVehicle(db, m, newId, currentYear, parseIso)
  {
    NoneMissing(m, VehicleRequired);
  }

  /** A list or an object in a column without a validator reaches the commit, which
      cannot bind it: the request answers 500 and nothing is stored. */
  lemma UnbindableDealershipFails(db: Db, m: map<string, Json>, newId: int)
    requires "name" in m && "whatsapp_number" in m && "email" in m && "cnpj" in m
    requires m["whatsapp_number"] != JNull && Phone("whatsapp_number", m["whatsapp_number"]).Ok?
    requires Email(m["email"]).Ok? && Cnpj(m["cnpj"]).Ok? && Phone("phone", Get(m, "phone")).Ok?
    requires !CnpjTaken(db, m["cnpj"])
    requires m["name"].JArr? || m["name"].JObj?
    ensures CreateDealership(db, JObj(m), newId) == Failed()
  {
    NoneMissing(m, DealershipRequired);
    assert !Bindable(DealershipKwargs(m)["name"]);
  }

  /** A vehicle whose colour is a list or an object is never stored. */
  lemma UnbindableVehicleNotStored(db: Db, m: map<string, Json>, newId: int, currentYear: int, parseIso: string -> Option<int>)
    requires "cor" in m && (m["cor"].JArr? || m["cor"].JObj?)
    ensures CreateVehicle(db, JObj(m), newId, currentYear, parseIso).row.None?
  {
    assert "cor" !in VehicleChecks;
    forall until | "dealership_id" in m && "marca" in m && "modelo" in m
      ensures VehicleKwargs(m, until)["cor"] == m["cor"]
    {
      KwargsKeepColour(m, until);
    }
  }

  lemma KwargsKeepColour(m: map<string, Json>, until: Json)
    requires "dealership_id" in m && "marca" in m && "modelo" in m && "cor" in m
    ensures "cor" in VehicleKwargs(m, until) && VehicleKwargs(m, until)["cor"] == m["cor"]
  {
    assert Untouched(m)["cor"] == m["cor"];
  }

  /** The fields are checked in order, so a body lacking the dealership is reported for
      it whatever else is missing. */
  lemma MissingDealershipFirst(db: Db, m: map<string, Json>, newId: int, currentYear: int, parseIso: string -> Option<int>)
    requires "dealership_id" !in m
    ensures CreateVehicle(db, JObj(m), newId, currentYear, parseIso).response == MissingField("dealership_id")
  {
    assert FirstMissing(JObj(m), VehicleRequired, 0) == Ok(Some(0));
  }

  /** A key that names no dealership is refused before any column is validated. */
  lemma UnknownDealership(db: Db, m: map<string, Json>, newId: int, currentYear: int, parseIso: string -> Option<int>)
    requires "dealership_id" in m && "marca" in m && "modelo" in m
    requires m["dealership_id"].JNum? && DealershipById(db, m["dealership_id"].n).None?
    ensures CreateVehicle(db, JObj(m), newId, currentYear, parseIso).response == ErrorResponse(404, "Dealership not found")
  {
    NoneMissing(m, VehicleRequired);
  }

  /** A list or a dict as `dealership_id` is never stored: either the lookup refuses it,
      or it names no dealership (404), or the dealership is found and the commit cannot
      bind the list or dict into the vehicle's `dealership_id` column (500). */
  lemma ContainerKeyNotStored(db: Db, m: map<string, Json>, newId: int, currentYear: int, parseIso: string -> Option<int>)
    requires "dealership_id" in m && "marca" in m && "modelo" in m
    requires !Bindable(m["dealership_id"])
    ensures CreateVehicle(db, JObj(m), newId, currentYear, parseIso)
      == if NoSuchDealership(db, m["dealership_id"]) then Created(ErrorResponse(404, "Dealership not found"), None) else Failed()
  {
    CompleteBodyStored(db, m, newId, currentYear, parseIso);
  }

  /** `true` is the dealership with id 1: a vehicle sent with `"dealership_id": true`
      is created when dealership 1 exists and the rest of the request is storable. */
  lemma TrueKeyIsFirstId(db: Db, key: Json)
    requires key == JBool(true)
    ensures KnownDealership(db, key) <==> DealershipById(db, 1).Some?
  {
  }

  /** Omitted mileage is stored as 0, omitted highlighting as off with no end date. */
  lemma VehicleDefaults(db: Db, m: map<string, Json>, newId: int, currentYear: int, parseIso: string -> Option<int>)
    requires "quilometragem" !in m && "destaque" !in m && "destaque_ate" !in m
    requires CreateVehicle(db, JObj(m), newId, currentYear, parseIso).row.Some?
    ensures var row := CreateVehicle(db, JObj(m), newId, currentYear, parseIso).row.value;
      && "quilometragem" in row && row["quilometragem"] == JNum(0)
      && "destaque" in row && row["destaque"] == JBool(false)
      && "destaque_ate" in row && row["destaque_ate"] == JNull
  {
    NoneMissing(m, VehicleRequired);
    assert FeaturedUntil(m, parseIso) == Ok(JNull);
    var kwargs := VehicleKwargs(m, JNull);
    DefaultsKept(kwargs, currentYear);
  }

  lemma DefaultsKept(kwargs: map<string, Json>, currentYear: int)
    requires "quilometragem" in kwargs && kwargs["quilometragem"] == JNum(0)
    requires "destaque" in kwargs && kwargs["destaque"] == JBool(false)
    requires "destaque_ate" in kwargs && kwargs["destaque_ate"] == JNull
    requires ValidateVehicle(kwargs, currentYear).Ok?
    ensures var row := ValidateVehicle(kwargs, currentYear).value;
      && "quilometragem" in row && row["quilometragem"] == JNum(0)
      && "destaque" in row && row["destaque"] == JBool(false)
      && "destaque_ate" in row && row["destaque_ate"] == JNull
  {
    var row := ValidateVehicle(kwargs, currentYear).value;
    assert "destaque" !in VehicleChecks && "destaque_ate" !in VehicleChecks;
    assert CheckColumn("quilometragem", JNum(0), currentYear) == Ok(row["quilometragem"]) by {
      VehicleChecksDistinct();
      CheckAllColumns(kwargs, VehicleChecks, currentYear);
      assert "quilometragem" in VehicleChecks;
    }
  }
}

=== FILE: formatter.dfy ===
/** `format_vehicles_for_whatsapp` (backend/src/ai_processor.py): one chat reply per found
    vehicle, or a fixed notice when nothing was found. */
module Formatter {
  import opened Wrappers
  import opened Text
  import opened Records

  /** A reply of the assistant: `{'text': ..., 'image': ...}`. */
  datatype Reply = Reply(text: string, image: Option<string>)

  /** The leading character of the no-match notice, which the webhook tests for. */
  const Sad := "😕"

  const NoMatchText := Sad + " Não encontrei veículos com essas características. Tente mudar algum filtro ou peça ajuda!"

  /** `f"{x}"` for a nullable text column. */
  function ShowText(o: Option<string>): (r: string)
    ensures o.Some? ==> r == o.value
    ensures o.None? ==> r == "None"
  {
    if o.Some? then o.value else "None"
  }

  /** `f"{x}"` for a nullable integer column. */
  function ShowInt(o: Option<int>): (r: string)
    ensures o.None? ==> r == "None"
  {
    if o.Some? then IntToString(o.value) else "None"
  }

  /** `f"{preco:,.2f}"` for a whole-real price. */
  function Price(p: int): (r: string)
    ensures EndsWith(r, ".00")
  {
    Grouped(p) + ".00"
  }

  /** The source formats `preco` and `quilometragem` with numeric format specs, which
      raise on `None`: only vehicles with both can be formatted. */
  predicate Formattable(v: Vehicle) {
    v.preco.Some? && v.quilometragem.Some?
  }

  /** The bold first line, `*{marca} {modelo} {ano_modelo}*`. */
  function Header(v: Vehicle): string {
    "*" + v.marca + " " + v.modelo + " " + ShowInt(v.anoModelo) + "*"
  }

  /** `Itens: ...`: the raw `itens_opcionais` text, or "Não informado" when it is empty. */
  function Items(itens: Option<string>): (r: string)
    ensures itens.None? || itens.value == "" ==> r == "Não informado"
    ensures itens.Some? && itens.value != "" ==> r == itens.value
  {
    if itens.Some? && itens.value != "" then itens.value else "Não informado"
  }

  /** The lines between the header and the items line. */
  function Details(v: Vehicle): string
    requires Formattable(v)
  {
    "Preço: R$ " + Price(v.preco.value) + "\n"
    + "Cor: " + ShowText(v.cor) + "\n"
    + "Quilometragem: " + Grouped(v.quilometragem.value) + " km\n"
    + "Câmbio: " + ShowText(v.cambio) + "\n"
    + "Combustível: " + ShowText(v.combustivel) + "\n"
  }

  /** The seven-line summary of a vehicle. */
  function VehicleText(v: Vehicle): (r: string)
    requires Formattable(v)
    ensures StartsWith(r, Header(v) + "\n")
    ensures EndsWith(r, "Itens: " + Items(v.itensOpcionais))
  {
    var head := Header(v) + "\n";
    var tail := "Itens: " + Items(v.itensOpcionais);
    var details := Details(v);
    Concat3Ends(head, details, tail);
    head + details + tail
  }

  /** `format_vehicles_for_whatsapp(vehicles)`. */
  function FormatVehicles(vs: seq<Vehicle>): (r: seq<Reply>)
    requires forall i :: 0 <= i < |vs| ==> Formattable(vs[i])
    ensures |vs| == 0 ==> r == [Reply(NoMatchText, None)]
    ensures |vs| > 0 ==> |r| == |vs|
    ensures |vs| > 0 ==> forall i :: 0 <= i < |vs| ==>
      StartsWith(r[i].text, Header(vs[i]) + "\n")
      && (r[i].image.None? <==> Photos(vs[i].linkFotos) == [])
      && (r[i].image.Some? ==> r[i].image.value == Photos(vs[i].linkFotos)[0])
  {
    if |vs| == 0 then [Reply(NoMatchText, None)]
    else seq(|vs|, i requires 0 <= i < |vs| => Reply(VehicleText(vs[i]), FirstPhoto(vs[i].linkFotos)))
  }

  /** A vehicle reply never looks like the no-match notice: it opens with `*`. */
  lemma VehicleTextNotSad(v: Vehicle)
    requires Formattable(v)
    ensures !StartsWith(VehicleText(v), Sad)
  {
    assert VehicleText(v)[0] == '*';
  }

  lemma NoMatchIsSad()
    ensures StartsWith(NoMatchText, Sad)
  {
    ConcatEnds(Sad, NoMatchText[|Sad|..]);
    assert NoMatchText == Sad + NoMatchText[|Sad|..];
  }

  /** When `marca` and `modelo` are single words, `text.split()[1]` of a vehicle reply is
      its `modelo`: the token the webhook puts into its button ids. */
  lemma ModeloIsSecondWord(v: Vehicle)
    requires Formattable(v)
    requires NoSpace(v.marca) && |v.modelo| > 0 && NoSpace(v.modelo)
    ensures |Words(VehicleText(v))| >= 2 && Words(VehicleText(v))[1] == v.modelo
  {
    var first := "*" + v.marca;
    HeaderOpens(v);
    assert NoSpace(first) by {
      assert forall k :: 1 <= k < |first| ==> first[k] == v.marca[k - 1];
    }
    SecondWordOf(VehicleText(v), first, v.modelo);
  }

  /** A vehicle reply opens with `*marca modelo `. */
  lemma HeaderOpens(v: Vehicle)
    requires Formattable(v)
    ensures StartsWith(VehicleText(v), "*" + v.marca + " " + v.modelo + " ")
  {
    var opening := "*" + v.marca + " " + v.modelo + " ";
    var head := Header(v) + "\n";
    assert head == opening + (ShowInt(v.anoModelo) + "*\n");
    ConcatEnds(opening, ShowInt(v.anoModelo) + "*\n");
    PrefixOfPrefix(VehicleText(v), head, opening);
  }

  /** Two space-separated words open the split of any text that starts with them. */
  lemma SecondWordOf(s: string, a: string, b: string)
    requires |a| > 0 && NoSpace(a) && |b| > 0 && NoSpace(b)
    requires StartsWith(s, a + " " + b + " ")
    ensures |Words(s)| >= 2 && Words(s)[1] == b
  {
    var n := |a| + |b| + 2;
    var rest := s[n..];
    assert s == s[..n] + rest;
    assert s[..n] == a + " " + b + " ";
    assert s == a + [' '] + (b + [' '] + rest);
    WordsCons(a, ' ', b + [' '] + rest);
    WordsCons(b, ' ', rest);
  }
}

=== FILE: http.dfy ===
/** What a Flask view returns: a status code and a JSON body. */
module Http {
  import opened Json

  datatype Response = Response(status: int, body: Json)

  /** `jsonify({'error': message}), status`. */
  function ErrorResponse(status: int, message: string): (r: Response)
    ensures r.status == status && r.body == Obj1("error", JStr(message))
  {
    Response(status, Obj1("error", JStr(message)))
  }
}

=== FILE: inbound.dfy ===
/** The envelope of a WhatsApp Business webhook call, as both webhook handlers unwrap it:
    `data['entry'][0].get('changes', [])[0].get('value', {}).get('messages', [])[0]`. */
module Inbound {
  import opened Wrappers
  import opened Json
  import opened Http

  /** Either the handler answers at once, or it goes on with the first message. */
  datatype Step = Stop(response: Response) | Continue(message: Json)

  const InvalidPayload := ErrorResponse(400, "Invalid webhook payload")
  const NoChanges := ErrorResponse(400, "No changes in webhook payload")

  /** Unwraps the first message. `noMessages` is what the handler answers when the change
      carries no messages (a delivery status, say); every access that Python would raise on
      is an `Err`. */
  function Unwrap(data: Json, noMessages: Response): (r: Result<Step>)
    ensures !Truthy(data) ==> r == Ok(Stop(InvalidPayload))
    ensures data.JObj? && data.fields != map[] && "entry" !in data.fields ==> r == Ok(Stop(InvalidPayload))
  {
    if !Truthy(data) then Ok(Stop(InvalidPayload))
    else
      var hasEntry :- Member(data, "entry");
      if !hasEntry then Ok(Stop(InvalidPayload))
      else
        var entries :- Index(data, "entry");
        var entry :- Head(entries);
        var changes :- GetOr(entry, "changes", JArr([]));
        if !Truthy(changes) then Ok(Stop(NoChanges))
        else
          var change :- Head(changes);
          var value :- GetOr(change, "value", JObj(map[]));
          var messages :- GetOr(value, "messages", JArr([]));
          if !Truthy(messages) then Ok(Stop(noMessages))
          else
            var message :- Head(messages);
            Ok(Continue(message))
  }

  /** The envelope Meta sends: one entry holding the given `changes`. */
  function Envelope(changes: Json): Json {
    Obj1("entry", JArr([Obj1("changes", changes)]))
  }

  /** A change carrying the given `messages`. */
  function Change(messages: Json): Json {
    Obj1("value", Obj1("messages", messages))
  }

  /** An entry whose `changes` list is empty: 400. */
  lemma UnwrapNoChanges(noMessages: Response)
    ensures Unwrap(Envelope(JArr([])), noMessages) == Ok(Stop(NoChanges))
  {
    assert Member(Envelope(JArr([])), "entry") == Ok(true);
  }

  /** A change without a `value`, or whose `messages` list is empty, gets the handler's
      own answer. */
  lemma {:induction false} UnwrapNoMessages(noMessages: Response)
    ensures Unwrap(Envelope(JArr([Obj1("value", JObj(map[]))])), noMessages) == Ok(Stop(noMessages))
    ensures Unwrap(Envelope(JArr([Change(JArr([]))])), noMessages) == Ok(Stop(noMessages))
  {
    assert Member(Envelope(JArr([Obj1("value", JObj(map[]))])), "entry") == Ok(true);
    assert Member(Envelope(JArr([Change(JArr([]))])), "entry") == Ok(true);
  }

  /** The first message of the first change is the one handled. */
  lemma {:induction false} UnwrapFirstMessage(noMessages: Response, message: Json, rest: seq<Json>)
    ensures Unwrap(Envelope(JArr([Change(JArr([message] + rest))])), noMessages) == Ok(Continue(message))
  {
    var data := Envelope(JArr([Change(JArr([message] + rest))]));
    assert Member(data, "entry") == Ok(true);
    assert Head(JArr([message] + rest)) == Ok(message);
  }
}

=== FILE: json.dfy ===
/** The values that cross the untrusted boundaries: what `json.loads` produces from the
    language model's reply, what a request body holds, and what a spreadsheet cell holds. */
module Json {
  import opened Wrappers
  import opened Text

  /** A JSON value as Python sees it after decoding. Numbers are integers: fractional
      values are not modelled. */
  datatype Json =
    | JNull
    | JBool(b: bool)
    | JNum(n: int)
    | JStr(s: string)
    | JArr(items: seq<Json>)
    | JObj(fields: map<string, Json>)

  /** Python truthiness of the decoded value (`if value:`). */
  predicate Truthy(j: Json) {
    match j
    case JNull => false
    case JBool(b) => b
    case JNum(n) => n != 0
    case JStr(s) => s != ""
    case JArr(a) => a != []
    case JObj(m) => m != map[]
  }

  /** `d.get(k)`: the value under `k`, or `None`. */
  function Get(m: map<string, Json>, k: string): (r: Json)
    ensures k !in m ==> r == JNull
    ensures k in m ==> r == m[k]
  {
    if k in m then m[k] else JNull
  }

  /** The Python type name, as it appears in an `AttributeError` or `TypeError`. */
  function TypeName(j: Json): string {
    match j
    case JNull => "NoneType"
    case JBool(_) => "bool"
    case JNum(_) => "int"
    case JStr(_) => "str"
    case JArr(_) => "list"
    case JObj(_) => "dict"
  }

  // ---------------------------------------------------------------------------
  // Python's access operators on decoded values: each one either yields a value or
  // raises, and the raise is an `Err` carrying the exception text.
  // ---------------------------------------------------------------------------

  /** `k in j`: key membership for a dict, element membership for a list, substring
      for a str; any other operand raises `TypeError`. */
  function Member(j: Json, k: string): (r: Result<bool>)
    ensures j.JObj? ==> r == Ok(k in j.fields)
    ensures j.JArr? ==> r == Ok(JStr(k) in j.items)
    ensures r.Err? <==> !(j.JObj? || j.JArr? || j.JStr?)
  {
    match j
    case JObj(m) => Ok(k in m)
    case JArr(a) => Ok(JStr(k) in a)
    case JStr(s) => Ok(Contains(s, k))
    case _ => Err("argument of type '" + TypeName(j) + "' is not iterable")
  }

  /** `j[k]` with a string key: only a dict holding `k` yields a value. */
  function Index(j: Json, k: string): (r: Result<Json>)
    ensures r.Ok? <==> j.JObj? && k in j.fields
    ensures r.Ok? ==> r.value == j.fields[k]
  {
    match j
    case JObj(m) => if k in m then Ok(m[k]) else Err("'" + k + "'")
    case JArr(_) => Err("list indices must be integers or slices, not str")
    case JStr(_) => Err("string indices must be integers, not 'str'")
    case _ => Err("'" + TypeName(j) + "' object is not subscriptable")
  }

  /** `j.get(k, default)`: only a dict has `get`. */
  function GetOr(j: Json, k: string, default: Json): (r: Result<Json>)
    ensures r.Ok? <==> j.JObj?
    ensures j.JObj? && k in j.fields ==> r == Ok(j.fields[k])
    ensures j.JObj? && k !in j.fields ==> r == Ok(default)
  {
    if j.JObj? then Ok(if k in j.fields then j.fields[k] else default)
    else Err("'" + TypeName(j) + "' object has no attribute 'get'")
  }

  /** `j[0]`: the first element of a list, the first character of a str. A dict with
      string keys has no key `0`. */
  function Head(j: Json): (r: Result<Json>)
    ensures j.JArr? && |j.items| > 0 ==> r == Ok(j.items[0])
    ensures r.Ok? <==> (j.JArr? && |j.items| > 0) || (j.JStr? && |j.s| > 0)
  {
    match j
    case JArr(a) => if |a| > 0 then Ok(a[0]) else Err("list index out of range")
    case JStr(s) => if |s| > 0 then Ok(JStr(s[..1])) else Err("string index out of range")
    case JObj(_) => Err("0")
    case _ => Err("'" + TypeName(j) + "' object is not subscriptable")
  }

  /** The receiver of a `str` method (`strip`, `lower`, `replace`, `startswith`). */
  function AsStr(j: Json, attr: string): (r: Result<string>)
    ensures r.Ok? <==> j.JStr?
    ensures r.Ok? ==> r.value == j.s
  {
    if j.JStr? then Ok(j.s) else Err("'" + TypeName(j) + "' object has no attribute '" + attr + "'")
  }

  /** A JSON object from key/value pairs (a Python dict display). */
  function Obj1(k: string, v: Json): (r: Json)
    ensures r.JObj? && r.fields.Keys == {k} && r.fields[k] == v
  {
    JObj(map[k := v])
  }

  /** `None` for an absent optional string, the string otherwise. */
  function OptStr(o: Option<string>): (r: Json)
    ensures o.None? <==> r == JNull
    ensures o.Some? ==> r == JStr(o.value)
  {
    if o.Some? then JStr(o.value) else JNull
  }

  /** A list of Python strings. */
  function JStrs(ss: seq<string>): (r: seq<Json>)
    ensures |r| == |ss| && forall i :: 0 <= i < |ss| ==> r[i] == JStr(ss[i])
  {
    seq(|ss|, i requires 0 <= i < |ss| => JStr(ss[i]))
  }
}

=== FILE: legacy_webhook.dfy ===
/** The older webhook, `whatsapp_webhook` in backend/src/routes/main.py, with its own
    `send_whatsapp_message`. It routes on the typed text only: a "quero saber mais ..."
    request names a model, four fixed phrases close the conversation, and anything else
    goes to the assistant. Every branch posts exactly one message and answers 204. */
module LegacyWebhook {
  import opened Wrappers
  import opened Text
  import opened Json
  import opened Like
  import opened Records
  import opened Formatter
  import opened Assistant
  import opened Http
  import opened Inbound
  import opened WhatsAppApi
  import opened WhatsAppService

  // ---------------------------------------------------------------------------
  // The module's own sender
  // ---------------------------------------------------------------------------

  /** The payload of the legacy sender. The recipient is posted as received; an image
      replaces the text, which is not sent as a caption. The sender catches every
      failure of the POST, so a send never raises. */
  function LegacyPayload(to: Json, body: Json, image: Option<string>): (r: map<string, Json>)
    ensures image.Some? && image.value != "" ==>
      && r.Keys == {"messaging_product", "to", "type", "image"}
      && r["type"] == JStr("image") && r["image"] == Obj1("link", JStr(image.value))
    ensures image.None? || image.value == "" ==>
      && r.Keys == {"messaging_product", "to", "type", "text"}
      && r["type"] == JStr("text") && r["text"] == Obj1("body", body)
    ensures "messaging_product" in r && r["messaging_product"] == JStr("whatsapp")
    ensures "to" in r && r["to"] == to
  {
    var base := map["messaging_product" := JStr("whatsapp"), "to" := to];
    if image.Some? && image.value != "" then
      base["type" := JStr("image")]["image" := Obj1("link", JStr(image.value))]
    else
      base["type" := JStr("text")]["text" := Obj1("body", body)]
  }

  /** An image message does not depend on the text it was sent with. */
  lemma ImageDropsText(to: Json, text: string, url: string)
    requires url != ""
    ensures LegacyPayload(to, JStr(text), Some(url)) == LegacyPayload(to, JStr(""), Some(url))
  {
  }

  // ---------------------------------------------------------------------------
  // The text routes
  // ---------------------------------------------------------------------------

  const Trigger := "quero saber mais"
  const ClosingPhrases: set<string> := {"não, obrigado", "nao, obrigado", "não obrigado", "nao obrigado"}
  const CourtesyPrompt := "Responda de forma simpática e cordial, agradecendo o interesse e se colocando à disposição para futuras dúvidas."
  const ApologyText := "Desculpe, não encontrei informações detalhadas sobre esse veículo. Posso te ajudar com outro modelo?"

  /** `' '.join(incoming.split()[3:]).strip()` when there are more than three words. */
  function RequestedModel(incoming: string): (r: Option<string>)
    ensures r.None? <==> |Words(incoming)| <= 3
    ensures r.Some? ==> r.value != "" && Words(r.value) == Words(incoming)[3..]
  {
    var ws := Words(incoming);
    if |ws| > 3 then
      var m := Join(ws[3..], ' ');
      WordsJoin(ws[3..]);
      JoinedWordsTrimmed(ws[3..]);
      StripNoop(m);
      Some(Strip(m))
    else None
  }

  /** Single-space-joined words have no surrounding whitespace and are not empty. */
  lemma {:induction false} JoinedWordsTrimmed(ws: seq<string>)
    requires |ws| >= 1
    requires forall i :: 0 <= i < |ws| ==> |ws[i]| > 0 && NoSpace(ws[i])
    ensures Trimmed(Join(ws, ' ')) && Join(ws, ' ') != ""
    ensures Join(ws, ' ')[0] == ws[0][0]
    decreases |ws|
  {
    if |ws| > 1 {
      JoinedWordsTrimmed(ws[1..]);
      var rest := Join(ws[1..], ' ');
      assert Join(ws, ' ') == ws[0] + [' '] + rest;
      assert rest[|rest| - 1] == Join(ws, ' ')[|Join(ws, ' ')| - 1];
    }
  }

  lemma {:induction false} TriggerJoin(ws: seq<string>)
    requires |ws| >= 1
    ensures Trigger + " " + Join(ws, ' ') == Join(["quero", "saber", "mais"] + ws, ' ')
  {
    var j := Join(ws, ' ');
    var a2 := ["mais"] + ws;
    var a1 := ["saber"] + a2;
    assert ["quero", "saber", "mais"] + ws == ["quero"] + a1;
    JoinCons("mais", ws, ' ');
    JoinCons("saber", a2, ' ');
    JoinCons("quero", a1, ' ');
    assert Trigger + " " + j == "quero" + [' '] + ("saber" + [' '] + ("mais" + [' '] + j));
  }

  /** "quero saber mais" followed by words asks about exactly those words. */
  lemma {:induction false} AskedModel(ws: seq<string>)
    requires |ws| >= 1
    requires forall i :: 0 <= i < |ws| ==> |ws[i]| > 0 && NoSpace(ws[i])
    ensures RequestedModel(Trigger + " " + Join(ws, ' ')) == Some(Join(ws, ' '))
  {
    var all := ["quero", "saber", "mais"] + ws;
    TriggerJoin(ws);
    assert forall i :: 0 <= i < |all| ==> |all[i]| > 0 && NoSpace(all[i]) by {
      forall i | 0 <= i < |all|
        ensures |all[i]| > 0 && NoSpace(all[i])
      {
        if i >= 3 {
          assert all[i] == ws[i - 3];
        }
      }
    }
    WordsJoin(all);
    assert all[3..] == ws;
    JoinedWordsTrimmed(ws);
    StripNoop(Join(ws, ' '));
  }

  /** What the branch posts: the text body (a string everywhere but in the closing
      branch) and, in the detail and default branches, an image. */
  datatype Outgoing = Outgoing(body: Json, image: Option<string>)

  /** The message posted in the closing branch, as written: the assistant's whole reply
      list becomes the text body. */
  function ClosingBodyAsWritten(replies: seq<Reply>): (r: Json)
    ensures r.JArr? && |r.items| == |replies|
  {
    JArr(seq(|replies|, i requires 0 <= i < |replies| => JObj(map["text" := JStr(replies[i].text), "image" := OptStr(replies[i].image)])))
  }

  /** The closing body as written is never a string, so the posted text message has no
      text in it: a text body must be a string. */
  lemma ClosingAsWrittenHasNoText(to: Json, replies: seq<Reply>)
    ensures !LegacyPayload(to, ClosingBodyAsWritten(replies), None)["text"].fields["body"].JStr?
    ensures Received(LegacyPayload(to, ClosingBodyAsWritten(replies), None)).None?
  {
  }

  /** The reading the branch intends: the text of the assistant's reply (its first one,
      as the default path sends). */
  function ClosingText(replies: seq<Reply>): (r: string)
    requires |replies| >= 1
    ensures r == replies[0].text
  {
    replies[0].text
  }

  /** The corrected closing message reaches the recipient as the assistant's text. */
  lemma ClosingDelivers(to: string, replies: seq<Reply>)
    requires |replies| >= 1
    ensures Received(LegacyPayload(JStr(to), JStr(ClosingText(replies)), None)) == Some(TextOnly(replies[0].text))
  {
  }

  /** The three routes, in source order, for the first active dealership. The closing
      branch posts what the code posts: the assistant's whole reply list. */
  function Respond(db: Db, dealershipId: int, incoming: string, o: Oracles): (r: Result<Outgoing>)
    ensures StartsWith(incoming, Trigger) && RequestedModel(incoming).None? ==> r == Ok(Outgoing(JStr(ApologyText), None))
    ensures StartsWith(incoming, Trigger) && RequestedModel(incoming).Some? ==>
      var found := FindModel(db, dealershipId, RequestedModel(incoming).value);
      && (found.None? ==> r == Ok(Outgoing(JStr(ApologyText), None)))
      && (found.Some? ==> (r.Ok? <==> Formattable(found.value)))
      && (found.Some? && r.Ok? ==> r.value == Outgoing(JStr(VehicleText(found.value)), FirstPhoto(found.value.linkFotos)))
    ensures !StartsWith(incoming, Trigger) && incoming in ClosingPhrases ==>
      r == Ok(Outgoing(ClosingBodyAsWritten(ProcessMessage(db, dealershipId, CourtesyPrompt, o)), None))
    ensures !StartsWith(incoming, Trigger) && incoming !in ClosingPhrases ==>
      var first := ProcessMessage(db, dealershipId, incoming, o)[0];
      r == Ok(Outgoing(JStr(first.text), first.image))
  {
    if StartsWith(incoming, Trigger) then
      match RequestedModel(incoming)
      case None => Ok(Outgoing(JStr(ApologyText), None))
      case Some(m) =>
        match FindModel(db, dealershipId, m)
        case None => Ok(Outgoing(JStr(ApologyText), None))
        case Some(v) =>
          if Formattable(v) then Ok(Outgoing(JStr(VehicleText(v)), FirstPhoto(v.linkFotos)))
          else Err(NoneFormatError)
    else if incoming in ClosingPhrases then
      Ok(Outgoing(ClosingBodyAsWritten(ProcessMessage(db, dealershipId, CourtesyPrompt, o)), None))
    else
      var first := ProcessMessage(db, dealershipId, incoming, o)[0];
      Ok(Outgoing(JStr(first.text), first.image))
  }

  /** The corrected closing branch: the text of the assistant's first reply. */
  function RespondCorrected(db: Db, dealershipId: int, incoming: string, o: Oracles): (r: Result<Outgoing>)
    ensures !StartsWith(incoming, Trigger) && incoming in ClosingPhrases ==>
      r == Ok(Outgoing(JStr(ProcessMessage(db, dealershipId, CourtesyPrompt, o)[0].text), None))
    ensures !(!StartsWith(incoming, Trigger) && incoming in ClosingPhrases) ==> r == Respond(db, dealershipId, incoming, o)
  {
    if !StartsWith(incoming, Trigger) && incoming in ClosingPhrases then
      Ok(Outgoing(JStr(ClosingText(ProcessMessage(db, dealershipId, CourtesyPrompt, o))), None))
    else Respond(db, dealershipId, incoming, o)
  }

  /** As written, a closing phrase posts a text message whose body is no string, so the
      customer receives no text; the corrected branch delivers the first reply's text. */
  lemma ClosingAsWrittenVsCorrected(db: Db, dealershipId: int, incoming: string, to: string, o: Oracles)
    requires !StartsWith(incoming, Trigger) && incoming in ClosingPhrases
    ensures var out := Respond(db, dealershipId, incoming, o).value;
      Received(LegacyPayload(JStr(to), out.body, out.image)).None?
    ensures var out := RespondCorrected(db, dealershipId, incoming, o).value;
      Received(LegacyPayload(JStr(to), out.body, out.image))
        == Some(TextOnly(ProcessMessage(db, dealershipId, CourtesyPrompt, o)[0].text))
  {
    var replies := ProcessMessage(db, dealershipId, CourtesyPrompt, o);
    ClosingAsWrittenHasNoText(JStr(to), replies);
    ClosingDelivers(to, replies);
  }

  /** A closing phrase is never a detail request, and the assistant never sees it: every
      closing phrase gets the same answer. */
  lemma ClosingIgnoresPhrase(db: Db, dealershipId: int, a: string, b: string, o: Oracles)
    requires a in ClosingPhrases && b in ClosingPhrases
    ensures Respond(db, dealershipId, a, o) == Respond(db, dealershipId, b, o)
  {
    assert !StartsWith(a, Trigger) && !StartsWith(b, Trigger);
  }

  /** The bare trigger, with no model after it, is answered with the apology and no lookup. */
  lemma BareTriggerApologises(db: Db, dealershipId: int, o: Oracles)
    ensures Respond(db, dealershipId, Trigger, o) == Ok(Outgoing(JStr(ApologyText), None))
  {
    var ws := ["quero", "saber", "mais"];
    JoinCons("saber", ["mais"], ' ');
    JoinCons("quero", ["saber", "mais"], ' ');
    assert ws == ["quero"] + ["saber", "mais"];
    assert Trigger == Join(ws, ' ');
    WordsJoin(ws);
    ConcatEnds(Trigger, "");
    assert Trigger + "" == Trigger;
  }

  // ---------------------------------------------------------------------------
  // The handler
  // ---------------------------------------------------------------------------

  const NoMessages := ErrorResponse(400, "No messages in webhook payload")
  const NoActiveDealership := ErrorResponse(404, "No active dealership found")

  /** `('', 204)`. */
  const NoContent := Response(204, JStr(""))

  /** `message.get('text', {}).get('body', '').strip().lower()`. */
  function ReadIncoming(message: Json): (r: Result<string>)
    ensures r.Ok? ==> message.JObj? && NoUpper(r.value) && Trimmed(r.value)
    ensures message.JObj? && "text" !in message.fields ==> r == Ok("")
    ensures message.JObj? && "text" in message.fields && message.fields["text"].JObj?
      && "body" in message.fields["text"].fields && message.fields["text"].fields["body"].JStr?
      ==> r == Ok(Lower(Strip(message.fields["text"].fields["body"].s)))
  {
    var text :- GetOr(message, "text", JObj(map[]));
    var body :- GetOr(text, "body", JStr(""));
    var s :- AsStr(body, "strip");
    LowerKeepsTrimmed(Strip(s));
    Ok(Lower(Strip(s)))
  }

  /** `whatsapp_webhook()`: the answer and the payloads posted. */
  function Handle(db: Db, data: Json, o: Oracles): (r: Outcome)
    ensures r.response.status in {204, 400, 404, 500}
    ensures r.response.status == 204 <==> |r.sent| == 1
    ensures r.sent == [] || |r.sent| == 1
    ensures r.response.status == 404 ==> r.response == NoActiveDealership
    ensures Unwrap(data, NoMessages).Ok? && Unwrap(data, NoMessages).value.Stop? ==>
      r == Outcome(Unwrap(data, NoMessages).value.response, [])
  {
    match Unwrap(data, NoMessages)
    case Err(e) => Outcome(ErrorResponse(500, e), [])
    case Ok(Stop(response)) => Outcome(response, [])
    case Ok(Continue(message)) => Answer(db, message, o)
  }

  /** The handler once a message was unwrapped: read its text, pick the dealership, route
      the text and post the one reply to the sender as received. */
  function Answer(db: Db, message: Json, o: Oracles): (r: Outcome)
    ensures r.response.status in {204, 404, 500}
    ensures r.response.status == 204 <==> |r.sent| == 1
    ensures r.sent == [] || |r.sent| == 1
    ensures r.response.status == 404 <==> ReadIncoming(message).Ok? && FirstActiveDealership(db).None?
    ensures r.response.status == 404 ==> r.response == NoActiveDealership
  {
    match ReadIncoming(message)
    case Err(e) => Outcome(ErrorResponse(500, e), [])
    case Ok(incoming) =>
      var sender := if "from" in message.fields then message.fields["from"] else JStr("");
      match FirstActiveDealership(db)
      case None => Outcome(NoActiveDealership, [])
      case Some(d) =>
        match Respond(db, d.id, incoming, o)
        case Err(e) => Outcome(ErrorResponse(500, e), [])
        case Ok(out) => Outcome(NoContent, [LegacyPayload(sender, out.body, out.image)])
  }

  /** Unlike the live webhook, a change without messages is an error here. */
  lemma StatusIsRejected(db: Db, o: Oracles)
    ensures Handle(db, Envelope(JArr([Change(JArr([]))])), o) == Outcome(NoMessages, [])
  {
    UnwrapNoMessages(NoMessages);
  }

  /** A typed message reaches the assistant stripped and lower-cased, and its first reply
      is posted to the sender as received. */
  lemma DefaultSendsFirstReply(db: Db, sender: string, body: string, o: Oracles)
    requires FirstActiveDealership(db).Some?
    requires !StartsWith(Lower(Strip(body)), Trigger) && Lower(Strip(body)) !in ClosingPhrases
    ensures
      var first := ProcessMessage(db, FirstActiveDealership(db).value.id, Lower(Strip(body)), o)[0];
      Handle(db, Envelope(JArr([Change(JArr([TextMessage(sender, body)]))])), o)
        == Outcome(NoContent, [LegacyPayload(JStr(sender), JStr(first.text), first.image)])
  {
    HandleTextMessage(db, sender, body, o);
    AnswerDefault(db, sender, body, o);
  }

  /** A payload holding one text message is answered as that message. */
  lemma HandleTextMessage(db: Db, sender: string, body: string, o: Oracles)
    ensures Handle(db, Envelope(JArr([Change(JArr([TextMessage(sender, body)]))])), o)
      == Answer(db, TextMessage(sender, body), o)
  {
    var message := TextMessage(sender, body);
    UnwrapFirstMessage(NoMessages, message, []);
    assert [message] + [] == [message];
  }

  lemma AnswerDefault(db: Db, sender: string, body: string, o: Oracles)
    requires FirstActiveDealership(db).Some?
    requires !StartsWith(Lower(Strip(body)), Trigger) && Lower(Strip(body)) !in ClosingPhrases
    ensures
      var first := ProcessMessage(db, FirstActiveDealership(db).value.id, Lower(Strip(body)), o)[0];
      Answer(db, TextMessage(sender, body), o) == Outcome(NoContent, [LegacyPayload(JStr(sender), JStr(first.text), first.image)])
  {
    AnswerPosts(db, sender, body, o);
  }

  /** As written, a typed closing phrase is answered 204 while the one payload posted
      carries the assistant's reply list as its text body. */
  lemma AnswerClosing(db: Db, sender: string, body: string, o: Oracles)
    requires FirstActiveDealership(db).Some?
    requires !StartsWith(Lower(Strip(body)), Trigger) && Lower(Strip(body)) in ClosingPhrases
    ensures
      var replies := ProcessMessage(db, FirstActiveDealership(db).value.id, CourtesyPrompt, o);
      Answer(db, TextMessage(sender, body), o) == Outcome(NoContent, [LegacyPayload(JStr(sender), ClosingBodyAsWritten(replies), None)])
  {
    AnswerPosts(db, sender, body, o);
  }

  /** A typed message that routes to an outgoing message is answered 204 with that
      message posted to the sender. */
  lemma AnswerPosts(db: Db, sender: string, body: string, o: Oracles)
    requires FirstActiveDealership(db).Some?
    requires Respond(db, FirstActiveDealership(db).value.id, Lower(Strip(body)), o).Ok?
    ensures var out := Respond(db, FirstActiveDealership(db).value.id, Lower(Strip(body)), o).value;
      Answer(db, TextMessage(sender, body), o) == Outcome(NoContent, [LegacyPayload(JStr(sender), out.body, out.image)])
  {
    assert ReadIncoming(TextMessage(sender, body)) == Ok(Lower(Strip(body)));
  }
}

=== FILE: like.dfy ===
/** SQL `LIKE` / `ILIKE` pattern matching, as the inventory queries use it. The
    patterns are built from user text, so `%` and `_` inside a term act as wildcards;
    the lemmas below say what the patterns mean when the term has none. */
module Like {
  import opened Text

  predicate NoWildcards(p: string) {
    '%' !in p && '_' !in p
  }

  /** `s LIKE p`: `%` matches any run of characters, `_` any single character, and
      every other pattern character itself. No escape character is modelled. */
  predicate Like(s: string, p: string)
    decreases |s| + |p|
  {
    if |p| == 0 then |s| == 0
    else if p[0] == '%' then Like(s, p[1..]) || (|s| > 0 && Like(s[1..], p))
    else |s| > 0 && (p[0] == '_' || p[0] == s[0]) && Like(s[1..], p[1..])
  }

  /** `s ILIKE p`: `LIKE` after lower-casing both sides. */
  predicate ILike(s: string, p: string) {
    Like(Lower(s), Lower(p))
  }

  /** A wildcard-free head of a pattern must match literally. */
  lemma {:induction false} LikeLiteralHead(s: string, q: string, r: string)
    requires NoWildcards(q)
    ensures Like(s, q + r) <==> StartsWith(s, q) && Like(s[|q|..], r)
    decreases |q|
  {
    if |q| == 0 {
      assert q + r == r;
      assert s[0..] == s;
    } else {
      var p := q + r;
      assert p[0] == q[0] && p[1..] == q[1..] + r;
      assert NoWildcards(q[1..]) by {
        assert forall c :: c in q[1..] ==> c in q;
      }
      if |s| > 0 {
        LikeLiteralHead(s[1..], q[1..], r);
        if |q| <= |s| {
          assert s[1..][|q| - 1..] == s[|q|..];
        }
        if StartsWith(s, q) {
          assert s[1..][..|q| - 1] == s[..|q|][1..];
        }
        if StartsWith(s[1..], q[1..]) && s[0] == q[0] {
          assert s[..|q|] == [s[0]] + s[1..][..|q| - 1];
        }
      }
    }
  }

  /** A leading `%` lets the rest of the pattern match any suffix. */
  lemma {:induction false} LikePercentHead(s: string, r: string)
    ensures Like(s, "%" + r) <==> exists k :: 0 <= k <= |s| && Like(s[k..], r)
    decreases |s|
  {
    var p := "%" + r;
    assert p[0] == '%' && p[1..] == r;
    assert s[0..] == s;
    if |s| > 0 {
      LikePercentHead(s[1..], r);
      if Like(s, p) && !Like(s, r) {
        var k :| 0 <= k <= |s[1..]| && Like(s[1..][k..], r);
        assert s[1..][k..] == s[k + 1..];
      }
      if exists k :: 0 <= k <= |s| && Like(s[k..], r) {
        var k :| 0 <= k <= |s| && Like(s[k..], r);
        if k > 0 {
          assert s[1..][k - 1..] == s[k..];
        }
      }
    }
  }

  lemma LikeEmpty(s: string)
    ensures Like(s, "") <==> s == ""
  {
  }

  /** A wildcard-free pattern matches exactly itself. */
  lemma LikeExact(s: string, q: string)
    requires NoWildcards(q)
    ensures Like(s, q) <==> s == q
  {
    LikeLiteralHead(s, q, "");
    assert q + "" == q;
  }

  /** `q%` matches the strings that start with `q`. */
  lemma LikePrefix(s: string, q: string)
    requires NoWildcards(q)
    ensures Like(s, q + "%") <==> StartsWith(s, q)
  {
    LikeLiteralHead(s, q, "%");
    if StartsWith(s, q) {
      LikePercentHead(s[|q|..], "");
      assert "%" + "" == "%";
      var t := s[|q|..];
      assert t[|t|..] == "";
    }
  }

  /** `%q` matches the strings that end with `q`. */
  lemma LikeSuffix(s: string, q: string)
    requires NoWildcards(q)
    ensures Like(s, "%" + q) <==> EndsWith(s, q)
  {
    LikePercentHead(s, q);
    if EndsWith(s, q) {
      LikeExact(s[|s| - |q|..], q);
    }
    if Like(s, "%" + q) {
      var k :| 0 <= k <= |s| && Like(s[k..], q);
      LikeExact(s[k..], q);
    }
  }

  /** `%q%` matches the strings that contain `q`. */
  lemma LikeInfix(s: string, q: string)
    requires NoWildcards(q)
    ensures Like(s, "%" + q + "%") <==> Contains(s, q)
  {
    assert "%" + q + "%" == "%" + (q + "%");
    LikePercentHead(s, q + "%");
    if Contains(s, q) {
      var k :| 0 <= k <= |s| && StartsWith(s[k..], q);
      LikePrefix(s[k..], q);
    }
    if Like(s, "%" + q + "%") {
      var k :| 0 <= k <= |s| && Like(s[k..], q + "%");
      LikePrefix(s[k..], q);
    }
  }

  lemma LowerKeepsNoWildcards(q: string)
    requires NoWildcards(q)
    ensures NoWildcards(Lower(q))
  {
    forall c | c in Lower(q)
      ensures c != '%' && c != '_'
    {
      var i :| 0 <= i < |q| && Lower(q)[i] == c;
    }
  }

  /** `ILIKE '%q%'` is case-insensitive containment. */
  lemma ILikeInfix(s: string, q: string)
    requires NoWildcards(q)
    ensures ILike(s, "%" + q + "%") <==> Contains(Lower(s), Lower(q))
  {
    LowerConcat("%" + q, "%");
    LowerConcat("%", q);
    LowerOfNoUpper("%");
    assert Lower("%" + q + "%") == "%" + Lower(q) + "%";
    LowerKeepsNoWildcards(q);
    LikeInfix(Lower(s), Lower(q));
  }

  lemma LowerSpacePercent()
    ensures Lower(" ") == " " && Lower("%") == "%"
  {
    LowerOfNoUpper(" ");
    LowerOfNoUpper("%");
  }

  /** `ILIKE 'q'` is case-insensitive equality. */
  lemma ILikeExact(s: string, q: string)
    requires NoWildcards(q)
    ensures ILike(s, q) <==> Lower(s) == Lower(q)
  {
    LowerKeepsNoWildcards(q);
    LikeExact(Lower(s), Lower(q));
  }

  /** `ILIKE 'q %'` is a case-insensitive prefix test for `q` followed by a space. */
  lemma ILikePrefixWord(s: string, q: string)
    requires NoWildcards(q)
    ensures ILike(s, q + " %") <==> StartsWith(Lower(s), Lower(q) + " ")
  {
    LowerSpacePercent();
    LowerConcat(q, " ");
    LowerConcat(q + " ", "%");
    assert q + " %" == q + " " + "%";
    assert Lower(q + " %") == Lower(q) + " " + "%";
    LowerKeepsNoWildcards(q);
    assert NoWildcards(Lower(q) + " ");
    LikePrefix(Lower(s), Lower(q) + " ");
  }

  /** `ILIKE '% q'` is a case-insensitive suffix test for a space followed by `q`. */
  lemma ILikeSuffixWord(s: string, q: string)
    requires NoWildcards(q)
    ensures ILike(s, "% " + q) <==> EndsWith(Lower(s), " " + Lower(q))
  {
    LowerSpacePercent();
    LowerConcat("% ", q);
    LowerConcat("%", " ");
    assert "% " + q == "%" + (" " + q);
    assert Lower("% ") == "% ";
    LowerKeepsNoWildcards(q);
    assert "% " + Lower(q) == "%" + (" " + Lower(q));
    LikeSuffix(Lower(s), " " + Lower(q));
  }

  /** `ILIKE '% q %'` is case-insensitive containment of `q` between two spaces. */
  lemma ILikeInfixWord(s: string, q: string)
    requires NoWildcards(q)
    ensures ILike(s, "% " + q + " %") <==> Contains(Lower(s), " " + Lower(q) + " ")
  {
    LowerSpacePercent();
    LowerConcat("%", " ");
    LowerConcat("% ", q);
    LowerConcat("% " + q, " ");
    LowerConcat("% " + q + " ", "%");
    assert Lower("% " + q + " %") == "% " + Lower(q) + " %";
    LowerKeepsNoWildcards(q);
    assert "% " + Lower(q) + " %" == "%" + (" " + Lower(q) + " ") + "%";
    LikeInfix(Lower(s), " " + Lower(q) + " ");
  }
}

=== FILE: listing.dfy ===
/** The inventory list endpoints: `VehicleList.get` (backend/src/routes/main.py), scoped to
    one dealership, and `get_vehicles` (backend/src/routes.py), over every dealership. Both
    build the same chain of optional filters; the query arguments arrive already
    converted by Flask (`type=int`, `type=float`), and the clock is a parameter. */
module Listing {
  import opened Wrappers
  import opened Text
  import opened Like
  import opened Seqs
  import opened Records
  import opened VehicleSearch
  import opened Http
  import opened Json

  /** The query arguments. A number that does not convert is absent; `destaque` keeps
      its raw text because `type=bool` converts it with Python's `bool(str)`. */
  datatype ListQuery = ListQuery(
    marca: Option<string>,
    modelo: Option<string>,
    minPrice: Option<int>,
    maxPrice: Option<int>,
    estado: Option<string>,
    cambio: Option<string>,
    combustivel: Option<string>,
    finalPlaca: Option<string>,
    destaque: Option<string>)

  const AnyVehicle := ListQuery(None, None, None, None, None, None, None, None, None)

  /** `if arg:` for a text argument. */
  predicate Given(arg: Option<string>) {
    arg.Some? && arg.value != ""
  }

  /** `ilike(f'%{arg}%')` when the argument is given. */
  predicate LikeArg(column: string, arg: Option<string>) {
    !Given(arg) || ILike(column, "%" + arg.value + "%")
  }

  /** `column == arg` when the argument is given; a `NULL` column never equals. */
  predicate EqualArg(column: Option<string>, arg: Option<string>) {
    !Given(arg) || column == Some(arg.value)
  }

  /** Featured now: the flag is set and the end date is unset or strictly later. */
  predicate Highlighted(v: Vehicle, now: int) {
    v.destaque && (v.destaqueAte.None? || v.destaqueAte.value > now)
  }

  /** The filter chain after `vendido=False`. Price bounds are applied whenever present,
      a bound of 0 included; the `destaque` filter is on for any non-empty text. */
  predicate Passes(v: Vehicle, q: ListQuery, now: int) {
    && !v.vendido
    && LikeArg(v.marca, q.marca) && LikeArg(v.modelo, q.modelo)
    && AtLeast(v.preco, q.minPrice) && AtMost(v.preco, q.maxPrice)
    && EqualArg(v.estado, q.estado) && EqualArg(v.cambio, q.cambio)
    && EqualArg(v.combustivel, q.combustivel) && EqualArg(v.finalPlaca, q.finalPlaca)
    && (!Given(q.destaque) || Highlighted(v, now))
  }

  /** `get_vehicles`: every unsold vehicle that passes, in store order. */
  function ListAll(db: Db, q: ListQuery, now: int): (r: seq<Vehicle>)
    ensures forall i :: 0 <= i < |r| ==> r[i] in db.vehicles && !r[i].vendido && Passes(r[i], q, now)
    ensures forall v :: v in db.vehicles && Passes(v, q, now) ==> v in r
    ensures IsSubseq(r, db.vehicles)
  {
    var r := Filter(db.vehicles, (v: Vehicle) => Passes(v, q, now));
    assert forall v :: v in db.vehicles ==> exists i :: 0 <= i < |db.vehicles| && db.vehicles[i] == v;
    r
  }

  /** The answer of `VehicleList.get`: the vehicles, or the error response. */
  datatype Listing = Listed(vehicles: seq<Vehicle>) | Rejected(response: Response)

  /** The fields of `vehicle_model`, the schema `marshal_list_with` applies to whatever
      `VehicleList.get` returns, error bodies included. */
  const VehicleModelFields: seq<string> := [
    "id", "dealership_id", "marca", "modelo", "versao", "ano_fabricacao", "ano_modelo",
    "quilometragem", "estado", "cambio", "combustivel", "motor", "potencia", "final_placa",
    "cor", "preco", "preco_promocional", "destaque", "vendido"]

  /** `marshal(body, vehicle_model)`: one entry per model field, read from the body, and
      `None` where the body has no such key. */
  function Marshal(body: Json): (r: Json)
    ensures r.JObj? && forall k :: k in r.fields <==> k in VehicleModelFields
    ensures forall k :: k in VehicleModelFields && body.JObj? && k in body.fields ==> r.fields[k] == body.fields[k]
    ensures forall k :: k in VehicleModelFields && !(body.JObj? && k in body.fields) ==> r.fields[k] == JNull
  {
    JObj(map k | k in VehicleModelFields :: if body.JObj? && k in body.fields then body.fields[k] else JNull)
  }

  /** `return {'error': 'dealership_id is required'}, 400` after marshalling: the status
      survives, the body does not. */
  const DealershipRequired := Response(400, Marshal(Obj1("error", JStr("dealership_id is required"))))

  /** The client of a refused listing receives a vehicle record whose every field is
      `null`; the "dealership_id is required" text is never sent. */
  lemma RefusalBodyIsNullRecord()
    ensures DealershipRequired.status == 400 && DealershipRequired.body.JObj?
    ensures "error" !in DealershipRequired.body.fields
    ensures forall k :: k in VehicleModelFields ==> k in DealershipRequired.body.fields && DealershipRequired.body.fields[k] == JNull
  {
    assert "error" !in VehicleModelFields;
  }

  /** `VehicleList.get`: `dealership_id` is required and must not be 0. */
  function ListScoped(db: Db, dealershipId: Option<int>, q: ListQuery, now: int): (r: Listing)
    ensures r.Rejected? <==> dealershipId.None? || dealershipId.value == 0
    ensures r.Rejected? ==> r.response == DealershipRequired
    ensures r.Listed? ==> forall i :: 0 <= i < |r.vehicles| ==>
      r.vehicles[i] in db.vehicles && r.vehicles[i].dealershipId == dealershipId.value && Passes(r.vehicles[i], q, now)
    ensures r.Listed? ==> IsSubseq(r.vehicles, db.vehicles)
  {
    if dealershipId.None? || dealershipId.value == 0 then Rejected(DealershipRequired)
    else Listed(Filter(db.vehicles, (v: Vehicle) => v.dealershipId == dealershipId.value && Passes(v, q, now)))
  }

  /** The scoped list is the unscoped list restricted to one dealership. */
  lemma ScopedIsRestrictedAll(db: Db, id: int, q: ListQuery, now: int)
    requires id != 0
    ensures ListScoped(db, Some(id), q, now) == Listed(Filter(ListAll(db, q, now), (v: Vehicle) => v.dealershipId == id))
  {
    FilterFilter(db.vehicles, (v: Vehicle) => Passes(v, q, now), (v: Vehicle) => v.dealershipId == id,
      (v: Vehicle) => v.dealershipId == id && Passes(v, q, now));
  }

  /** `?destaque=false` still turns the filter on: `bool('false')` is `True`. */
  lemma FalseMeansFeatured(v: Vehicle, now: int)
    ensures Passes(v, AnyVehicle.(destaque := Some("false")), now) <==> !v.vendido && Highlighted(v, now)
    ensures Passes(v, AnyVehicle.(destaque := Some("")), now) <==> !v.vendido
  {
  }

  /** A bound of 0 is applied (it is not `None`): only free vehicles pass `max_price=0`,
      and a vehicle without a price never passes a bound. */
  lemma ZeroBoundApplies(v: Vehicle, now: int)
    ensures Passes(v, AnyVehicle.(maxPrice := Some(0)), now) <==> !v.vendido && v.preco.Some? && v.preco.value <= 0
    ensures v.preco.None? ==> !Passes(v, AnyVehicle.(minPrice := Some(0)), now)
  {
  }

  /** Unlike the assistant's word match, the list's `modelo` filter is a plain substring
      test: "gol" lists a "Golf". */
  lemma ModeloIsSubstring(v: Vehicle, modelo: string, now: int)
    requires modelo != "" && NoWildcards(modelo)
    ensures Passes(v, AnyVehicle.(modelo := Some(modelo)), now) <==> !v.vendido && Contains(Lower(v.modelo), Lower(modelo))
  {
    ILikeInfix(v.modelo, modelo);
  }

  /** Featuring ends strictly after `destaque_ate`: at that instant the vehicle is no
      longer listed as featured. */
  lemma FeaturedUntilExclusive(v: Vehicle, until: int)
    requires v.destaque && v.destaqueAte == Some(until)
    ensures Highlighted(v, until - 1) && !Highlighted(v, until)
  {
  }
}

=== FILE: records.dfy ===
/** The stored entities (`Dealership`, `Vehicle` in backend/src/models.py) as read-only
    snapshots, the inventory store as a sequence in store order, and the derived lists
    of a vehicle's `;`-separated text columns. */
module Records {
  import opened Wrappers
  import opened Text
  import opened Seqs

  /** The dealership columns the model reads; `whatsappNumber`, `email` and `cnpj` are
      the three `unique` columns, held as the text SQLite stored. */
  datatype Dealership = Dealership(
    id: int,
    name: string,
    whatsappNumber: string,
    email: string,
    cnpj: string,
    active: bool)

  /** The columns of a vehicle row that the assistant and the list endpoints read.
      Nullable columns are `Option`s; prices are whole reais. */
  datatype Vehicle = Vehicle(
    id: int,
    dealershipId: int,
    marca: string,
    modelo: string,
    anoFabricacao: Option<int>,
    anoModelo: Option<int>,
    quilometragem: Option<int>,
    estado: Option<string>,
    cambio: Option<string>,
    combustivel: Option<string>,
    motor: Option<string>,
    finalPlaca: Option<string>,
    cor: Option<string>,
    preco: Option<int>,
    precoPromocional: Option<int>,
    destaque: bool,
    destaqueAte: Option<int>,
    vendido: bool,
    itensOpcionais: Option<string>,
    linkFotos: Option<string>)

  /** The database: both tables in store (insertion) order. */
  datatype Db = Db(dealerships: seq<Dealership>, vehicles: seq<Vehicle>)

  /** `Dealership.query.get(id)`. */
  function DealershipById(db: Db, id: int): (r: Option<Dealership>)
    ensures r.Some? ==> r.value.id == id && r.value in db.dealerships
    ensures r.None? <==> forall i :: 0 <= i < |db.dealerships| ==> db.dealerships[i].id != id
  {
    First(db.dealerships, (d: Dealership) => d.id == id)
  }

  /** `Dealership.query.first()`. */
  function FirstDealership(db: Db): (r: Option<Dealership>)
    ensures r.None? <==> |db.dealerships| == 0
    ensures r.Some? ==> r.value == db.dealerships[0]
  {
    if |db.dealerships| == 0 then None else Some(db.dealerships[0])
  }

  /** `Dealership.query.filter_by(active=True).first()`. */
  function FirstActiveDealership(db: Db): (r: Option<Dealership>)
    ensures r.Some? ==> r.value.active && r.value in db.dealerships
    ensures r.None? <==> forall i :: 0 <= i < |db.dealerships| ==> !db.dealerships[i].active
  {
    First(db.dealerships, (d: Dealership) => d.active)
  }

  /** Every entry stripped, position by position. */
  function StripAll(parts: seq<string>): (r: seq<string>)
    ensures |r| == |parts| && forall i :: 0 <= i < |parts| ==> r[i] == Strip(parts[i])
  {
    seq(|parts|, i requires 0 <= i < |parts| => Strip(parts[i]))
  }

  /** The stripped, non-blank entries of a `;`-separated list, in order: every stripped
      entry that is not empty is kept, as often as it occurs. */
  function NonBlank(parts: seq<string>): (r: seq<string>)
    ensures |r| <= |parts|
    ensures forall i :: 0 <= i < |r| ==> r[i] != "" && Trimmed(r[i])
    ensures IsSubseq(r, StripAll(parts))
    ensures forall x :: multiset(r)[x] == if x != "" then multiset(StripAll(parts))[x] else 0
  {
    if |parts| == 0 then []
    else
      var u := Strip(parts[0]);
      var rest := NonBlank(parts[1..]);
      assert StripAll(parts) == [u] + StripAll(parts[1..]);
      if u != "" then
        KeptStep(u, rest, StripAll(parts[1..]));
        [u] + rest
      else
        DroppedStep(rest, StripAll(parts[1..]));
        rest
  }

  /** A kept entry heads both the result and the stripped pieces. */
  lemma KeptStep(u: string, rest: seq<string>, tail: seq<string>)
    requires u != "" && IsSubseq(rest, tail)
    requires forall x :: multiset(rest)[x] == if x != "" then multiset(tail)[x] else 0
    ensures IsSubseq([u] + rest, [u] + tail)
    ensures forall x :: multiset([u] + rest)[x] == if x != "" then multiset([u] + tail)[x] else 0
  {
    assert ([u] + rest)[1..] == rest && ([u] + tail)[1..] == tail;
  }

  /** A blank piece is skipped: the result never holds "". */
  lemma DroppedStep(rest: seq<string>, tail: seq<string>)
    requires IsSubseq(rest, tail) && forall i :: 0 <= i < |rest| ==> rest[i] != ""
    requires forall x :: multiset(rest)[x] == if x != "" then multiset(tail)[x] else 0
    ensures IsSubseq(rest, [""] + tail)
    ensures forall x :: multiset(rest)[x] == if x != "" then multiset([""] + tail)[x] else 0
  {
    assert ([""] + tail)[1..] == tail;
  }

  /** `[url.strip() for url in (link_fotos or '').split(';') if url.strip()]`: the
      non-blank stripped pieces, in order and with their repetitions. */
  function Photos(linkFotos: Option<string>): (r: seq<string>)
    ensures forall i :: 0 <= i < |r| ==> r[i] != "" && Trimmed(r[i]) && ';' !in r[i]
    ensures IsSubseq(r, StripAll(Split(linkFotos.GetOr(""), ';')))
    ensures forall x :: multiset(r)[x] == if x != "" then multiset(StripAll(Split(linkFotos.GetOr(""), ';')))[x] else 0
  {
    var parts := Split(linkFotos.GetOr(""), ';');
    var r := NonBlank(parts);
    NonBlankKeepsSeparatorFree(parts, ';');
    r
  }

  lemma {:induction false} NonBlankKeepsSeparatorFree(parts: seq<string>, sep: char)
    requires forall i :: 0 <= i < |parts| ==> sep !in parts[i]
    ensures forall i :: 0 <= i < |NonBlank(parts)| ==> sep !in NonBlank(parts)[i]
  {
    if |parts| > 0 {
      var tail := parts[1..];
      assert forall i :: 0 <= i < |tail| ==> tail[i] == parts[i + 1];
      NonBlankKeepsSeparatorFree(tail, sep);
      var u := Strip(parts[0]);
      StripKeepsAbsent(parts[0], sep);
      if u != "" {
        assert NonBlank(parts) == [u] + NonBlank(tail);
      } else {
        assert NonBlank(parts) == NonBlank(tail);
      }
    }
  }

  /** The image attached to a vehicle reply: the first photo, if there is one. */
  function FirstPhoto(linkFotos: Option<string>): (r: Option<string>)
    ensures r.None? <==> |Photos(linkFotos)| == 0
    ensures r.Some? ==> r.value == Photos(linkFotos)[0]
  {
    var ps := Photos(linkFotos);
    if |ps| == 0 then None else Some(ps[0])
  }

  /** Photo URLs stored as a `;`-joined list come back unchanged and in order. */
  lemma PhotosOfJoined(urls: seq<string>)
    requires |urls| >= 1
    requires forall i :: 0 <= i < |urls| ==> urls[i] != "" && Trimmed(urls[i]) && ';' !in urls[i]
    ensures Photos(Some(Join(urls, ';'))) == urls
  {
    SplitJoin(urls, ';');
    NonBlankOfClean(urls);
  }

  lemma {:induction false} NonBlankOfClean(parts: seq<string>)
    requires forall i :: 0 <= i < |parts| ==> parts[i] != "" && Trimmed(parts[i])
    ensures NonBlank(parts) == parts
  {
    if |parts| > 0 {
      var tail := parts[1..];
      assert forall i :: 0 <= i < |tail| ==> tail[i] == parts[i + 1];
      NonBlankOfClean(tail);
      StripNoop(parts[0]);
      assert NonBlank(parts) == [parts[0]] + NonBlank(tail);
    }
  }

  /** `Vehicle.to_dict()` for `itens_opcionais` and `link_fotos`: `value.split(';')` when the
      column is non-empty, otherwise `[]`. Entries are neither trimmed nor filtered. */
  function ListField(value: Option<string>): (r: seq<string>)
    ensures value.None? || value.value == "" ==> r == []
    ensures value.Some? && value.value != "" ==> Join(r, ';') == value.value
    ensures value.Some? && value.value != "" ==> |r| >= 1 && forall i :: 0 <= i < |r| ==> ';' !in r[i]
  {
    if value.None? || value.value == "" then []
    else (JoinSplit(value.value, ';'); Split(value.value, ';'))
  }

  /** The pieces are the only separator-free list that joins back to the column: any
      such list is what `to_dict` returns. */
  lemma ListFieldUnique(value: string, parts: seq<string>)
    requires value != "" && |parts| >= 1 && forall i :: 0 <= i < |parts| ==> ';' !in parts[i]
    requires Join(parts, ';') == value
    ensures ListField(Some(value)) == parts
  {
    SplitJoin(parts, ';');
  }

  /** `to_dict` keeps blank and untrimmed entries: only the separator is consumed. */
  lemma ListFieldKeepsBlanks()
    ensures ListField(Some("a; ;b")) == ["a", " ", "b"]
    ensures ListField(Some(";")) == ["", ""]
  {
    BlankPieceSplits();
    LoneSeparatorSplits();
  }

  lemma BlankPieceSplits()
    ensures Split("a; ;b", ';') == ["a", " ", "b"]
  {
    SplitJoin(["a", " ", "b"], ';');
    assert Join(["a", " ", "b"], ';') == "a; ;b";
  }

  lemma LoneSeparatorSplits()
    ensures Split(";", ';') == ["", ""]
  {
    SplitJoin(["", ""], ';');
    assert Join(["", ""], ';') == ";";
  }
}

=== FILE: search.dfy ===
/** `search_vehicles_in_db` (backend/src/ai_processor.py): the inventory query built from
    the parameters the language model extracted. */
module VehicleSearch {
  import opened Wrappers
  import opened Text
  import opened Like
  import opened Json
  import opened Seqs
  import opened Records

  /** The active filters. A filter is `None` when its parameter is falsy; string terms are
      held after `strip().lower()`. */
  datatype Criteria = Criteria(
    modelo: Option<string>,
    marca: Option<string>,
    precoMax: Option<int>,
    precoMin: Option<int>,
    anoMin: Option<int>,
    anoMax: Option<int>,
    cor: Option<string>,
    kmMax: Option<int>)

  const NoFilter := Criteria(None, None, None, None, None, None, None, None)

  /** `.limit(5)`. */
  const Limit: nat := 5

  /** A string filter: `params.get(key)` when truthy, then `.strip().lower()`, which raises
      on anything but a string. */
  function Term(params: map<string, Json>, key: string): (r: Result<Option<string>>)
    ensures !Truthy(Get(params, key)) ==> r == Ok(None)
    ensures r.Err? <==> Truthy(Get(params, key)) && !Get(params, key).JStr?
    ensures r.Ok? && r.value.Some? ==>
      Get(params, key).JStr? && r.value.value == Lower(Strip(Get(params, key).s))
    ensures r.Ok? && r.value.Some? ==> Trimmed(r.value.value) && NoUpper(r.value.value)
  {
    var v := Get(params, key);
    if !Truthy(v) then Ok(None)
    else if v.JStr? then
      LowerKeepsTrimmed(Strip(v.s));
      Ok(Some(Lower(Strip(v.s))))
    else Err("'" + TypeName(v) + "' object has no attribute 'strip'")
  }

  /** A numeric bound: `params.get(key)` when truthy, compared with the column. The value
      is bound to the query as a number when it runs: `True` is 1, a string must read as
      a number (surrounding whitespace allowed; only whole numbers are modelled), and a
      list or an object cannot be bound at all. */
  function Bound(params: map<string, Json>, key: string): (r: Result<Option<int>>)
    ensures !Truthy(Get(params, key)) ==> r == Ok(None)
    ensures Get(params, key).JNum? ==> r == Ok(if Get(params, key).n == 0 then None else Some(Get(params, key).n))
    ensures Get(params, key).JStr? && Truthy(Get(params, key)) ==>
      (r.Ok? <==> ParseNat(Strip(Get(params, key).s)).Some?)
      && (r.Ok? ==> r == Ok(Some(ParseNat(Strip(Get(params, key).s)).value)))
    ensures r.Err? ==> Get(params, key).JStr? || Get(params, key).JArr? || Get(params, key).JObj?
  {
    var v := Get(params, key);
    if !Truthy(v) then Ok(None)
    else match v
      case JNum(n) => Ok(Some(n))
      case JBool(_) => Ok(Some(1))
      case JStr(t) =>
        (match ParseNat(Strip(t))
         case Some(n) => Ok(Some(n))
         case None => Err("could not convert string to float: '" + t + "'"))
      case _ => Err("float() argument must be a string or a real number, not '" + TypeName(v) + "'")
  }

  /** The filters of `search_vehicles_in_db`. The `.strip()` of a text term raises while
      the query is built, so a term error is reported before any bound error, which only
      surfaces when the query runs. */
  function ParseFilter(params: map<string, Json>): (r: Result<Criteria>)
    ensures r.Ok? ==> Term(params, "modelo") == Ok(r.value.modelo)
    ensures r.Ok? ==> Term(params, "marca") == Ok(r.value.marca)
    ensures r.Ok? ==> Term(params, "cor") == Ok(r.value.cor)
    ensures r.Ok? ==> Bound(params, "preco_max") == Ok(r.value.precoMax)
    ensures r.Ok? ==> Bound(params, "preco_min") == Ok(r.value.precoMin)
    ensures r.Ok? ==> Bound(params, "ano_min") == Ok(r.value.anoMin)
    ensures r.Ok? ==> Bound(params, "ano_max") == Ok(r.value.anoMax)
    ensures r.Ok? ==> Bound(params, "quilometragem_max") == Ok(r.value.kmMax)
    ensures r.Err? <==> (Term(params, "modelo").Err? || Term(params, "marca").Err?
                         || Bound(params, "preco_max").Err? || Bound(params, "preco_min").Err?
                         || Bound(params, "ano_min").Err? || Bound(params, "ano_max").Err?
                         || Term(params, "cor").Err? || Bound(params, "quilometragem_max").Err?)
    ensures Term(params, "modelo").Err? ==> r == Err(Term(params, "modelo").error)
    ensures Term(params, "modelo").Ok? && Term(params, "marca").Err? ==> r == Err(Term(params, "marca").error)
    ensures Term(params, "modelo").Ok? && Term(params, "marca").Ok? && Term(params, "cor").Err? ==>
      r == Err(Term(params, "cor").error)
  {
    var modelo := Term(params, "modelo");
    var marca := Term(params, "marca");
    var precoMax := Bound(params, "preco_max");
    var precoMin := Bound(params, "preco_min");
    var anoMin := Bound(params, "ano_min");
    var anoMax := Bound(params, "ano_max");
    var cor := Term(params, "cor");
    var kmMax := Bound(params, "quilometragem_max");
    if modelo.Err? then Err(modelo.error)
    else if marca.Err? then Err(marca.error)
    else if cor.Err? then Err(cor.error)
    else if precoMax.Err? then Err(precoMax.error)
    else if precoMin.Err? then Err(precoMin.error)
    else if anoMin.Err? then Err(anoMin.error)
    else if anoMax.Err? then Err(anoMax.error)
    else if kmMax.Err? then Err(kmMax.error)
    else Ok(Criteria(modelo.value, marca.value, precoMax.value, precoMin.value,
                   anoMin.value, anoMax.value, cor.value, kmMax.value))
  }

  /** A bound the language model wrote as text filters like the number it spells. */
  lemma StringBoundFilters()
    ensures Bound(map["preco_max" := JStr("50000")], "preco_max") == Ok(Some(50000))
    ensures Bound(map["preco_max" := JStr(" 0 ")], "preco_max") == Ok(Some(0))
    ensures Bound(map["preco_max" := JStr("barato")], "preco_max").Err?
  {
    FiftyThousandParses();
    assert Strip(" 0 ") == "0";
  }

  lemma FiftyThousandParses()
    ensures Strip("50000") == "50000" && ParseNat("50000") == Some(50000)
  {
    assert Strip("50000") == "50000";
    assert "50000"[..4] == "5000" && "5000"[..3] == "500" && "500"[..2] == "50" && "50"[..1] == "5";
    assert DigitsValue("5000") == 5000;
  }

  /** The four `ILIKE` patterns of the `modelo`/`marca` filter, OR-ed. */
  predicate TokenLike(field: string, term: string) {
    ILike(field, term) || ILike(field, term + " %") || ILike(field, "% " + term)
    || ILike(field, "% " + term + " %")
  }

  /** What the four patterns are meant to say: the term is a whole space-delimited word
      (or run of words) of the lower-cased field. */
  predicate WordMatch(field: string, term: string) {
    var f, t := Lower(field), Lower(term);
    f == t || StartsWith(f, t + " ") || EndsWith(f, " " + t) || Contains(f, " " + t + " ")
  }

  /** The patterns mean word matching whenever the term carries no `%` or `_`. */
  lemma TokenLikeIsWordMatch(field: string, term: string)
    requires NoWildcards(term)
    ensures TokenLike(field, term) <==> WordMatch(field, term)
  {
    ILikeExact(field, term);
    ILikePrefixWord(field, term);
    ILikeSuffixWord(field, term);
    ILikeInfixWord(field, term);
  }

  /** "gol" finds "Gol G5" but not "Golf". */
  lemma GolIsNotGolf()
    ensures !TokenLike("Golf", "gol")
    ensures TokenLike("Gol G5", "gol")
  {
    GolfRefused();
    GolG5Found();
  }

  lemma GolfRefused()
    ensures !TokenLike("Golf", "gol")
  {
    GolfNotWord();
    TokenLikeIsWordMatch("Golf", "gol");
  }

  lemma GolfNotWord()
    ensures !WordMatch("Golf", "gol")
  {
    assert Lower("gol") == "gol" by { LowerOfNoUpper("gol"); }
    assert Lower("Golf") == "golf";
    assert !StartsWith("golf", "gol ") by {
      assert "golf"[..4][3] == 'f';
    }
    assert !EndsWith("golf", " gol") by {
      assert "golf"[0..][0] == 'g';
    }
    assert !Contains("golf", " gol ") by {
      forall k | 0 <= k <= 4
        ensures !StartsWith("golf"[k..], " gol ")
      {
        assert |"golf"[k..]| < 5;
      }
    }
  }

  lemma GolG5Found()
    ensures TokenLike("Gol G5", "gol")
  {
    GolG5Word();
    TokenLikeIsWordMatch("Gol G5", "gol");
  }

  lemma GolG5Word()
    ensures WordMatch("Gol G5", "gol")
  {
    assert Lower("gol") == "gol" by { LowerOfNoUpper("gol"); }
    assert Lower("Gol G5") == "gol g5";
    assert StartsWith("gol g5", "gol ");
  }

  /** A nullable column under `column <= bound`: SQL `NULL` never passes. */
  predicate AtMost(column: Option<int>, bound: Option<int>) {
    bound.None? || (column.Some? && column.value <= bound.value)
  }

  predicate AtLeast(column: Option<int>, bound: Option<int>) {
    bound.None? || (column.Some? && column.value >= bound.value)
  }

  /** The whole `WHERE` clause of the search. */
  predicate Matches(v: Vehicle, dealershipId: int, f: Criteria) {
    v.dealershipId == dealershipId && !v.vendido
    && (f.modelo.None? || TokenLike(v.modelo, f.modelo.value))
    && (f.marca.None? || TokenLike(v.marca, f.marca.value))
    && AtMost(v.preco, f.precoMax) && AtLeast(v.preco, f.precoMin)
    && AtLeast(v.anoModelo, f.anoMin) && AtMost(v.anoModelo, f.anoMax)
    && (f.cor.None? || (v.cor.Some? && ILike(v.cor.value, "%" + f.cor.value + "%")))
    && AtMost(v.quilometragem, f.kmMax)
  }

  function Matcher(dealershipId: int, f: Criteria): Vehicle -> bool {
    v => Matches(v, dealershipId, f)
  }

  /** `search_vehicles_in_db`: the first five matching vehicles in store order. */
  function Search(db: Db, dealershipId: int, f: Criteria): (r: seq<Vehicle>)
    ensures |r| == Min(Limit, Count(db.vehicles, Matcher(dealershipId, f)))
    ensures forall i :: 0 <= i < |r| ==>
      r[i].dealershipId == dealershipId && !r[i].vendido && Matches(r[i], dealershipId, f)
    ensures IsSubseq(r, db.vehicles)
  {
    TakeFilterSubseq(db.vehicles, Matcher(dealershipId, f), Limit);
    Take(Filter(db.vehicles, Matcher(dealershipId, f)), Limit)
  }

  /** When at most five vehicles match, the search returns every one of them. */
  lemma SearchComplete(db: Db, dealershipId: int, f: Criteria, v: Vehicle)
    requires Count(db.vehicles, Matcher(dealershipId, f)) <= Limit
    requires v in db.vehicles && Matches(v, dealershipId, f)
    ensures v in Search(db, dealershipId, f)
  {
    var all := Filter(db.vehicles, Matcher(dealershipId, f));
    var i :| 0 <= i < |db.vehicles| && db.vehicles[i] == v;
    assert Matcher(dealershipId, f)(db.vehicles[i]);
    assert v in all;
    assert Take(all, Limit) == all;
  }

  /** The term filters are matched as written: `cor` as a substring, bounds inclusively. */
  lemma CorIsSubstring(v: Vehicle, dealershipId: int, cor: string)
    requires NoWildcards(cor)
    requires v.dealershipId == dealershipId && !v.vendido
    ensures Matches(v, dealershipId, NoFilter.(cor := Some(cor)))
      <==> v.cor.Some? && Contains(Lower(v.cor.value), Lower(cor))
  {
    ILikeInfix(v.cor.GetOr(""), cor);
  }

  /** The bounds are inclusive: a vehicle priced exactly at `preco_max` and `preco_min` passes. */
  lemma BoundsInclusive(v: Vehicle, dealershipId: int, price: int)
    requires v.dealershipId == dealershipId && !v.vendido && v.preco == Some(price)
    ensures Matches(v, dealershipId, NoFilter.(precoMax := Some(price), precoMin := Some(price)))
  {
  }

  /** With no filter, the search is the first five unsold vehicles of the dealership. */
  lemma NoFilterMatches(v: Vehicle, dealershipId: int)
    ensures Matches(v, dealershipId, NoFilter) <==> v.dealershipId == dealershipId && !v.vendido
  {
  }

  /** `opcionais` is extracted and normalised but never read by the search. */
  lemma OpcionaisIgnored(params: map<string, Json>, x: Json)
    ensures ParseFilter(params["opcionais" := x]) == ParseFilter(params)
  {
    TermIgnores(params, x, "modelo");
    TermIgnores(params, x, "marca");
    TermIgnores(params, x, "cor");
    BoundIgnores(params, x, "preco_max");
    BoundIgnores(params, x, "preco_min");
    BoundIgnores(params, x, "ano_min");
    BoundIgnores(params, x, "ano_max");
    BoundIgnores(params, x, "quilometragem_max");
  }

  lemma TermIgnores(params: map<string, Json>, x: Json, key: string)
    requires key != "opcionais"
    ensures Term(params["opcionais" := x], key) == Term(params, key)
  {
    assert Get(params["opcionais" := x], key) == Get(params, key);
  }

  lemma BoundIgnores(params: map<string, Json>, x: Json, key: string)
    requires key != "opcionais"
    ensures Bound(params["opcionais" := x], key) == Bound(params, key)
  {
    assert Get(params["opcionais" := x], key) == Get(params, key);
  }
}

=== FILE: seqs.dfy ===
/** Sequence queries standing in for the ORM: `filter(...)`, `.first()`, `.limit(n)`. */
module Seqs {
  import opened Wrappers

  function Min(a: int, b: int): int {
    if a <= b then a else b
  }

  /** Number of elements of `s` that satisfy `p`. */
  function Count<T>(s: seq<T>, p: T -> bool): nat {
    if |s| == 0 then 0 else (if p(s[0]) then 1 else 0) + Count(s[1..], p)
  }

  /** `a` can be obtained from `b` by deleting elements: `a` keeps `b`'s order. */
  predicate IsSubseq<T(==)>(a: seq<T>, b: seq<T>)
    decreases |b|
  {
    if |a| == 0 then true
    else if |b| == 0 then false
    else if a[0] == b[0] then IsSubseq(a[1..], b[1..])
    else IsSubseq(a, b[1..])
  }

  /** The elements of `s` that satisfy `p`, in store order (an ORM `filter`). */
  function Filter<T(==)>(s: seq<T>, p: T -> bool): (r: seq<T>)
    ensures |r| == Count(s, p)
    ensures forall i :: 0 <= i < |r| ==> p(r[i]) && r[i] in s
    ensures forall i :: 0 <= i < |s| && p(s[i]) ==> s[i] in r
    ensures IsSubseq(r, s)
  {
    if |s| == 0 then []
    else if p(s[0]) then [s[0]] + Filter(s[1..], p)
    else Filter(s[1..], p)
  }

  /** Filtering keeps every copy of a satisfying value and no copy of any other. */
  lemma {:induction false} FilterCounts<T>(s: seq<T>, p: T -> bool, x: T)
    ensures multiset(Filter(s, p))[x] == if p(x) then multiset(s)[x] else 0
    decreases |s|
  {
    if |s| > 0 {
      FilterCounts(s[1..], p, x);
      assert s == [s[0]] + s[1..];
    }
  }

  /** The first `n` elements (`.limit(n)`). */
  function Take<T>(s: seq<T>, n: nat): (r: seq<T>)
    ensures |r| == Min(n, |s|)
    ensures r == s[..|r|]
  {
    if |s| <= n then s else s[..n]
  }

  /** The first element of `s` that satisfies `p` (`.filter(...).first()`). */
  function First<T>(s: seq<T>, p: T -> bool): (r: Option<T>)
    ensures r.None? <==> forall i :: 0 <= i < |s| ==> !p(s[i])
    ensures r.Some? ==> p(r.value) && exists i :: 0 <= i < |s| && s[i] == r.value
  {
    if |s| == 0 then None
    else if p(s[0]) then Some(s[0])
    else
      var r := First(s[1..], p);
      assert forall i :: 0 < i < |s| ==> s[i] == s[1..][i - 1];
      r
  }

  /** `.first()` after a filter is the head of the filtered sequence. */
  lemma {:induction false} FirstIsFilterHead<T>(s: seq<T>, p: T -> bool)
    ensures First(s, p) == (if |Filter(s, p)| == 0 then None else Some(Filter(s, p)[0]))
  {
    if |s| > 0 && !p(s[0]) {
      FirstIsFilterHead(s[1..], p);
    }
  }

  /** The first `n` elements of a filter keep the store order of `s`. */
  lemma {:induction false} TakeFilterSubseq<T>(s: seq<T>, p: T -> bool, n: nat)
    ensures IsSubseq(Take(Filter(s, p), n), s)
    decreases |s|
  {
    if |s| > 0 {
      var rest := Filter(s[1..], p);
      TakeFilterSubseq(s[1..], p, if p(s[0]) && n > 0 then n - 1 else n);
      if p(s[0]) && n > 0 {
        assert Take(Filter(s, p), n) == [s[0]] + Take(rest, n - 1);
      }
    }
  }

  /** Filtering by a predicate every element satisfies changes nothing. */
  lemma {:induction false} FilterAll<T>(s: seq<T>, p: T -> bool)
    requires forall i :: 0 <= i < |s| ==> p(s[i])
    ensures Filter(s, p) == s
  {
    if |s| > 0 {
      FilterAll(s[1..], p);
      assert s == [s[0]] + s[1..];
    }
  }

  /** Two filters in a row are one filter by the conjunction. */
  lemma {:induction false} FilterFilter<T>(s: seq<T>, p: T -> bool, q: T -> bool, both: T -> bool)
    requires forall x :: both(x) == (p(x) && q(x))
    ensures Filter(Filter(s, p), q) == Filter(s, both)
  {
    if |s| > 0 {
      FilterFilter(s[1..], p, q, both);
      if p(s[0]) {
        assert Filter(s, p) == [s[0]] + Filter(s[1..], p);
        assert Filter(s, p)[1..] == Filter(s[1..], p);
      }
    }
  }
}

=== FILE: text.dfy ===
/** The Python `str` operations the assistant relies on, over `seq<char>`:
    `strip`, `lower`, `startswith`/`endswith`/`in`, `find`/`rfind`, `replace(p, '')`,
    `split(sep)`, `split()`, `join`, `re.sub(r'\D', '', s)` and integer rendering. */
module Text {
  import opened Wrappers

  // ---------------------------------------------------------------------------
  // Characters
  // ---------------------------------------------------------------------------

  /** Whitespace as `str.strip()` and `str.split()` see it: the ASCII and Latin-1
      separators (the remaining Unicode spaces are not modelled). */
  predicate IsSpace(c: char) {
    c == ' ' || c == '\t' || c == '\n' || c == '\r' || c == '\U{B}' || c == '\U{C}'
    || ('\U{1C}' <= c <= '\U{1F}') || c == '\U{85}' || c == '\U{A0}'
  }

  /** Upper-case letters that `str.lower()` maps to another single character within
      ASCII and Latin-1 (U+00D7, the multiplication sign, is not a letter). */
  predicate IsUpper(c: char) {
    ('A' <= c <= 'Z') || ('\U{C0}' <= c <= '\U{DE}' && c != '\U{D7}')
  }

  predicate IsDigit(c: char) {
    '0' <= c <= '9'
  }

  function LowerChar(c: char): (r: char)
    ensures !IsUpper(r)
    ensures IsSpace(r) <==> IsSpace(c)
    ensures IsDigit(r) <==> IsDigit(c)
    ensures !IsUpper(c) ==> r == c
  {
    if IsUpper(c) then (c as int + 32) as char else c
  }

  predicate NoSpace(s: string) {
    forall k :: 0 <= k < |s| ==> !IsSpace(s[k])
  }

  predicate AllSpace(s: string) {
    forall k :: 0 <= k < |s| ==> IsSpace(s[k])
  }

  /** Neither starts nor ends with whitespace: the strings `strip()` returns. */
  predicate Trimmed(s: string) {
    |s| == 0 || (!IsSpace(s[0]) && !IsSpace(s[|s| - 1]))
  }

  predicate NoUpper(s: string) {
    forall k :: 0 <= k < |s| ==> !IsUpper(s[k])
  }

  predicate AllDigits(s: string) {
    forall k :: 0 <= k < |s| ==> IsDigit(s[k])
  }

  // ---------------------------------------------------------------------------
  // lower()
  // ---------------------------------------------------------------------------

  /** `s.lower()`, character by character. */
  function Lower(s: string): (r: string)
    ensures |r| == |s|
    ensures forall i :: 0 <= i < |s| ==> r[i] == LowerChar(s[i])
    ensures NoUpper(r)
  {
    seq(|s|, i requires 0 <= i < |s| => LowerChar(s[i]))
  }

  lemma LowerConcat(a: string, b: string)
    ensures Lower(a + b) == Lower(a) + Lower(b)
  {
    assert forall i :: 0 <= i < |a + b| ==> Lower(a + b)[i] == (Lower(a) + Lower(b))[i];
  }

  /** A string without upper-case letters is its own lower-case form. */
  lemma LowerOfNoUpper(s: string)
    requires NoUpper(s)
    ensures Lower(s) == s
  {
  }

  /** Lower-casing only produces characters from `a` upwards that were not there before. */
  lemma LowerKeepsAbsent(s: string, c: char)
    requires c !in s && c < 'a'
    ensures c !in Lower(s)
  {
  }

  lemma LowerIdempotent(s: string)
    ensures Lower(Lower(s)) == Lower(s)
  {
    LowerOfNoUpper(Lower(s));
  }

  /** Lower-casing maps spaces to spaces and nothing else to a space. */
  lemma LowerKeepsTrimmed(s: string)
    requires Trimmed(s)
    ensures Trimmed(Lower(s))
  {
  }

  lemma LowerNoSpace(s: string)
    ensures NoSpace(Lower(s)) <==> NoSpace(s)
  {
    assert forall k :: 0 <= k < |s| ==> (IsSpace(Lower(s)[k]) <==> IsSpace(s[k]));
  }

  // ---------------------------------------------------------------------------
  // Prefix, suffix, infix
  // ---------------------------------------------------------------------------

  predicate StartsWith(s: string, p: string) {
    |p| <= |s| && s[..|p|] == p
  }

  predicate EndsWith(s: string, p: string) {
    |p| <= |s| && s[|s| - |p|..] == p
  }

  lemma ConcatEnds(a: string, b: string)
    ensures StartsWith(a + b, a) && EndsWith(a + b, b)
  {
    assert (a + b)[..|a|] == a;
    assert (a + b)[|a + b| - |b|..] == b;
  }

  /** A three-part concatenation starts with its first part and ends with its last. */
  lemma Concat3Ends(a: string, m: string, b: string)
    ensures StartsWith(a + m + b, a) && EndsWith(a + m + b, b)
  {
    assert a + m + b == a + (m + b);
    ConcatEnds(a, m + b);
    ConcatEnds(a + m, b);
  }

  lemma PrefixOfPrefix(s: string, h: string, p: string)
    requires StartsWith(s, h) && StartsWith(h, p)
    ensures StartsWith(s, p)
  {
    assert s[..|p|] == s[..|h|][..|p|];
  }

  /** Python's `p in s` for strings. */
  predicate Contains(s: string, p: string) {
    exists k :: 0 <= k <= |s| && StartsWith(s[k..], p)
  }

  /** `p in s` needs every character of `p` in `s`. */
  lemma LacksChar(s: string, p: string, c: char)
    requires c in p && c !in s
    ensures !Contains(s, p)
  {
    var j :| 0 <= j < |p| && p[j] == c;
    forall k | 0 <= k <= |s|
      ensures !StartsWith(s[k..], p)
    {
      if k + |p| <= |s| {
        assert s[k..][j] == s[k + j];
      }
    }
  }

  /** A message template with one slot: `f"{pre}{x}{post}"`. */
  function Framed(pre: string, x: string, post: string): (r: string)
    ensures |r| == |pre| + |x| + |post| && Contains(r, x)
  {
    var r := pre + x + post;
    assert r[|pre|..][..|x|] == x;
    ContainsAt(r, x, |pre|);
    r
  }

  lemma ContainsAt(s: string, p: string, k: nat)
    requires k <= |s| && StartsWith(s[k..], p)
    ensures Contains(s, p)
  {
  }

  lemma ContainsTail(s: string, p: string)
    requires |s| > 0 && Contains(s[1..], p)
    ensures Contains(s, p)
  {
    var k :| 0 <= k <= |s[1..]| && StartsWith(s[1..][k..], p);
    assert s[1..][k..] == s[k + 1..];
    ContainsAt(s, p, k + 1);
  }

  lemma ContainsSelf(s: string)
    ensures Contains(s, s)
  {
    assert s[0..] == s;
    ContainsAt(s, s, 0);
  }

  lemma NotContainsTail(s: string, p: string)
    requires |s| > 0 && !Contains(s, p)
    ensures !Contains(s[1..], p) && !StartsWith(s, p)
  {
    assert s[0..] == s;
    if Contains(s[1..], p) {
      ContainsTail(s, p);
    }
  }

  // ---------------------------------------------------------------------------
  // strip()
  // ---------------------------------------------------------------------------

  /** `s.lstrip()`: what is left of `s` after dropping its leading whitespace. */
  function StripLeft(s: string): (r: string)
    ensures |r| <= |s|
    ensures |r| > 0 ==> !IsSpace(r[0]) && r[|r| - 1] == s[|s| - 1]
    decreases |s|
  {
    if |s| > 0 && IsSpace(s[0]) then StripLeft(s[1..]) else s
  }

  /** `s.rstrip()`: what is left of `s` after dropping its trailing whitespace. */
  function StripRight(s: string): (r: string)
    ensures |r| <= |s|
    ensures |r| > 0 ==> !IsSpace(r[|r| - 1]) && r[0] == s[0]
    decreases |s|
  {
    if |s| > 0 && IsSpace(s[|s| - 1]) then StripRight(s[..|s| - 1]) else s
  }

  /** `s.strip()`. */
  function Strip(s: string): (r: string)
    ensures |r| <= |s|
    ensures Trimmed(r)
  {
    StripRight(StripLeft(s))
  }

  /** A string that neither starts nor ends with whitespace is left alone by `strip()`. */
  lemma StripNoop(s: string)
    requires Trimmed(s)
    ensures Strip(s) == s
  {
  }

  lemma StripIdempotent(s: string)
    ensures Strip(Strip(s)) == Strip(s)
  {
    StripNoop(Strip(s));
  }

  lemma {:induction false} StripLeftKeeps(s: string, c: char)
    requires c !in s
    ensures c !in StripLeft(s)
    decreases |s|
  {
    if |s| > 0 && IsSpace(s[0]) {
      assert forall x :: x in s[1..] ==> x in s;
      StripLeftKeeps(s[1..], c);
    }
  }

  lemma {:induction false} StripRightKeeps(s: string, c: char)
    requires c !in s
    ensures c !in StripRight(s)
    decreases |s|
  {
    if |s| > 0 && IsSpace(s[|s| - 1]) {
      assert forall x :: x in s[..|s| - 1] ==> x in s;
      StripRightKeeps(s[..|s| - 1], c);
    }
  }

  /** `strip()` only removes characters: one absent from `s` is absent from the result. */
  lemma StripKeepsAbsent(s: string, c: char)
    requires c !in s
    ensures c !in Strip(s)
  {
    StripLeftKeeps(s, c);
    StripRightKeeps(StripLeft(s), c);
  }

  lemma StripLeftSpaces(a: string, s: string)
    requires AllSpace(a)
    ensures StripLeft(a + s) == StripLeft(s)
    decreases |a|
  {
    if |a| > 0 {
      assert (a + s)[1..] == a[1..] + s;
      StripLeftSpaces(a[1..], s);
    } else {
      assert a + s == s;
    }
  }

  lemma StripRightSpaces(s: string, b: string)
    requires AllSpace(b)
    ensures StripRight(s + b) == StripRight(s)
    decreases |b|
  {
    if |b| > 0 {
      assert (s + b)[..|s + b| - 1] == s + b[..|b| - 1];
      StripRightSpaces(s, b[..|b| - 1]);
    } else {
      assert s + b == s;
    }
  }

  /** `strip()` removes whitespace padding around a string that has no whitespace at its ends. */
  lemma StripPadded(a: string, s: string, b: string)
    requires AllSpace(a) && AllSpace(b)
    requires |s| > 0 && !IsSpace(s[0]) && !IsSpace(s[|s| - 1])
    ensures Strip(a + s + b) == s
  {
    assert a + s + b == a + (s + b);
    StripLeftSpaces(a, s + b);
    assert StripLeft(s + b) == s + b;
    StripRightSpaces(s, b);
  }

  // ---------------------------------------------------------------------------
  // find / rfind
  // ---------------------------------------------------------------------------

  /** `s.find(c)`: the first index of `c`, or -1. */
  function FindChar(s: string, c: char): (r: int)
    ensures -1 <= r < |s|
    ensures r == -1 <==> c !in s
    ensures r >= 0 ==> s[r] == c && forall k :: 0 <= k < r ==> s[k] != c
  {
    if |s| == 0 then -1
    else if s[0] == c then 0
    else
      var k := FindChar(s[1..], c);
      assert s == [s[0]] + s[1..];
      if k < 0 then -1 else k + 1
  }

  /** `s.rfind(c)`: the last index of `c`, or -1. */
  function RFindChar(s: string, c: char): (r: int)
    ensures -1 <= r < |s|
    ensures r == -1 <==> c !in s
    ensures r >= 0 ==> s[r] == c && forall k :: r < k < |s| ==> s[k] != c
  {
    if |s| == 0 then -1
    else if s[|s| - 1] == c then |s| - 1
    else
      assert s == s[..|s| - 1] + [s[|s| - 1]];
      RFindChar(s[..|s| - 1], c)
  }

  // ---------------------------------------------------------------------------
  // replace(p, '')
  // ---------------------------------------------------------------------------

  /** `s.replace(c, '')` for a one-character `c`. */
  function RemoveChar(s: string, c: char): (r: string)
    ensures c !in r
    ensures |r| <= |s|
    ensures forall x :: x != c ==> (x in r <==> x in s)
  {
    if |s| == 0 then ""
    else
      assert s == [s[0]] + s[1..];
      (if s[0] == c then "" else [s[0]]) + RemoveChar(s[1..], c)
  }

  lemma RemoveCharAbsent(s: string, c: char)
    requires c !in s
    ensures RemoveChar(s, c) == s
  {
    if |s| > 0 {
      assert s == [s[0]] + s[1..];
      RemoveCharAbsent(s[1..], c);
    }
  }

  lemma RemoveCharAround(a: string, m: string, b: string, c: char)
    requires c !in m
    ensures RemoveChar(a + m + b, c) == RemoveChar(a, c) + m + RemoveChar(b, c)
  {
    RemoveCharConcat(a + m, b, c);
    RemoveCharConcat(a, m, c);
    RemoveCharAbsent(m, c);
  }

  lemma {:induction false} RemoveCharOnly(s: string, c: char)
    requires forall k :: 0 <= k < |s| ==> s[k] == c
    ensures RemoveChar(s, c) == ""
  {
    if |s| > 0 {
      RemoveCharOnly(s[1..], c);
    }
  }

  lemma RemoveCharConcat(a: string, b: string, c: char)
    ensures RemoveChar(a + b, c) == RemoveChar(a, c) + RemoveChar(b, c)
  {
    if |a| == 0 {
      assert a + b == b;
    } else {
      assert (a + b)[1..] == a[1..] + b;
      RemoveCharConcat(a[1..], b, c);
    }
  }

  /** `s.replace(p, '')` for a non-empty `p`: occurrences are removed left to right,
      without overlap, exactly as CPython's `str.replace` scans. */
  function RemoveAll(s: string, p: string): (r: string)
    requires |p| > 0
    ensures |r| <= |s|
    decreases |s|
  {
    if |s| == 0 then ""
    else if StartsWith(s, p) then RemoveAll(s[|p|..], p)
    else [s[0]] + RemoveAll(s[1..], p)
  }

  lemma RemoveAllAbsent(s: string, p: string)
    requires |p| > 0 && !Contains(s, p)
    ensures RemoveAll(s, p) == s
    decreases |s|
  {
    if |s| > 0 {
      NotContainsTail(s, p);
      RemoveAllAbsent(s[1..], p);
      assert s == [s[0]] + s[1..];
    }
  }

  /** Removing a prefix-pattern from `p + t`, where `t` does not contain `p`, gives back `t`. */
  lemma RemoveAllPrefix(p: string, t: string)
    requires |p| > 0 && !Contains(t, p)
    ensures RemoveAll(p + t, p) == t
  {
    assert (p + t)[..|p|] == p;
    assert (p + t)[|p|..] == t;
    RemoveAllAbsent(t, p);
  }

  /** `s.replace(c, repl)` for a one-character `c`. */
  function ReplaceChar(s: string, c: char, repl: string): (r: string)
    ensures c !in repl ==> c !in r
    ensures c !in s ==> r == s
    decreases |s|
  {
    if |s| == 0 then ""
    else
      assert s == [s[0]] + s[1..];
      (if s[0] == c then repl else [s[0]]) + ReplaceChar(s[1..], c, repl)
  }

  // ---------------------------------------------------------------------------
  // split(sep) and join
  // ---------------------------------------------------------------------------

  /** `s.split(sep)` for a one-character separator: empty pieces are kept. */
  function Split(s: string, sep: char): (r: seq<string>)
    ensures |r| >= 1
    ensures forall i :: 0 <= i < |r| ==> sep !in r[i]
    decreases |s|
  {
    var i := FindChar(s, sep);
    if i < 0 then [s]
    else
      assert sep !in s[..i];
      [s[..i]] + Split(s[i + 1..], sep)
  }

  /** `sep.join(parts)`. */
  function Join(parts: seq<string>, sep: char): string {
    if |parts| == 0 then ""
    else if |parts| == 1 then parts[0]
    else parts[0] + [sep] + Join(parts[1..], sep)
  }

  lemma JoinCons(a: string, rest: seq<string>, sep: char)
    requires |rest| >= 1
    ensures Join([a] + rest, sep) == a + [sep] + Join(rest, sep)
  {
    assert ([a] + rest)[1..] == rest;
  }

  /** Splitting and re-joining on the same separator gives back the string. */
  lemma {:induction false} JoinSplit(s: string, sep: char)
    ensures Join(Split(s, sep), sep) == s
    decreases |s|
  {
    var i := FindChar(s, sep);
    if i >= 0 {
      var head, tail := s[..i], s[i + 1..];
      var rest := Split(tail, sep);
      assert Split(s, sep) == [head] + rest;
      JoinSplit(tail, sep);
      JoinCons(head, rest, sep);
      SliceAround(s, i);
    }
  }

  lemma SliceAround(s: string, i: nat)
    requires i < |s|
    ensures s == s[..i] + [s[i]] + s[i + 1..]
  {
    assert s[i..] == [s[i]] + s[i + 1..];
    assert s == s[..i] + s[i..];
  }

  /** Joining separator-free pieces and splitting again gives back the pieces. */
  lemma {:induction false} SplitJoin(parts: seq<string>, sep: char)
    requires |parts| >= 1
    requires forall i :: 0 <= i < |parts| ==> sep !in parts[i]
    ensures Split(Join(parts, sep), sep) == parts
    decreases |parts|
  {
    if |parts| == 1 {
      assert FindChar(parts[0], sep) == -1;
    } else {
      var s := Join(parts, sep);
      var p := parts[0];
      assert s == p + [sep] + Join(parts[1..], sep);
      assert s[|p|] == sep && s[..|p|] == p;
      assert FindChar(s, sep) == |p|;
      assert s[|p| + 1..] == Join(parts[1..], sep);
      SplitJoin(parts[1..], sep);
    }
  }

  // ---------------------------------------------------------------------------
  // split() on whitespace
  // ---------------------------------------------------------------------------

  /** Length of the leading run of non-whitespace characters. */
  function TokenLen(s: string): (n: nat)
    ensures n <= |s|
    ensures NoSpace(s[..n])
    ensures n < |s| ==> IsSpace(s[n])
    ensures |s| > 0 && !IsSpace(s[0]) ==> n > 0
  {
    if |s| == 0 || IsSpace(s[0]) then 0 else 1 + TokenLen(s[1..])
  }

  /** `s.split()`: the maximal runs of non-whitespace characters, in order. */
  function Words(s: string): (r: seq<string>)
    ensures forall i :: 0 <= i < |r| ==> |r[i]| > 0 && NoSpace(r[i])
    decreases |s|
  {
    var t := StripLeft(s);
    if |t| == 0 then []
    else
      var n := TokenLen(t);
      assert 0 < n <= |t| <= |s|;
      var w := t[..n];
      assert |w| > 0 && NoSpace(w);
      [w] + Words(t[n..])
  }

  lemma {:induction false} TokenLenWord(a: string, rest: string)
    requires NoSpace(a)
    requires |rest| == 0 || IsSpace(rest[0])
    ensures TokenLen(a + rest) == |a|
    decreases |a|
  {
    var s := a + rest;
    if |a| > 0 {
      assert s[0] == a[0] && !IsSpace(a[0]);
      assert s[1..] == a[1..] + rest;
      assert NoSpace(a[1..]) by {
        forall k | 0 <= k < |a| - 1 ensures !IsSpace(a[1..][k]) {
          assert a[1..][k] == a[k + 1];
        }
      }
      TokenLenWord(a[1..], rest);
      assert TokenLen(s) == 1 + TokenLen(s[1..]);
    } else {
      assert s == rest;
    }
  }

  /** A non-empty word followed by whitespace is the first element of `split()`. */
  lemma WordsCons(a: string, c: char, rest: string)
    requires |a| > 0 && NoSpace(a) && IsSpace(c)
    ensures Words(a + [c] + rest) == [a] + Words(rest)
  {
    var s := a + [c] + rest;
    assert s == a + ([c] + rest);
    assert StripLeft(s) == s;
    TokenLenWord(a, [c] + rest);
    assert s[..|a|] == a;
    assert s[|a|..] == [c] + rest;
    StripLeftSpaces([c], rest);
  }

  lemma WordsSingle(a: string)
    requires |a| > 0 && NoSpace(a)
    ensures Words(a) == [a]
  {
    assert StripLeft(a) == a;
    TokenLenWord(a, "");
    assert a + "" == a;
    assert a[..|a|] == a;
  }

  /** Joining non-empty words with single spaces and splitting again gives back the words. */
  lemma {:induction false} WordsJoin(ws: seq<string>)
    requires forall i :: 0 <= i < |ws| ==> |ws[i]| > 0 && NoSpace(ws[i])
    ensures Words(Join(ws, ' ')) == ws
    decreases |ws|
  {
    if |ws| == 0 {
    } else if |ws| == 1 {
      WordsSingle(ws[0]);
    } else {
      WordsCons(ws[0], ' ', Join(ws[1..], ' '));
      WordsJoin(ws[1..]);
    }
  }

  // ---------------------------------------------------------------------------
  // Digits and integer rendering
  // ---------------------------------------------------------------------------

  /** `re.sub(r'\D', '', s)` with ASCII digits. */
  function Digits(s: string): (r: string)
    ensures AllDigits(r)
    ensures |r| <= |s|
    ensures AllDigits(s) ==> r == s
  {
    if |s| == 0 then ""
    else
      assert s == [s[0]] + s[1..];
      (if IsDigit(s[0]) then [s[0]] else "") + Digits(s[1..])
  }

  function DigitChar(d: nat): (c: char)
    requires d < 10
    ensures IsDigit(c) && DigitValue(c) == d
  {
    ('0' as int + d) as char
  }

  function DigitValue(c: char): nat
    requires IsDigit(c)
  {
    c as int - '0' as int
  }

  /** Decimal rendering of a natural number, most significant digit first. */
  function NatToString(n: nat): (r: string)
    ensures |r| >= 1 && AllDigits(r)
  {
    if n < 10 then [DigitChar(n)] else NatToString(n / 10) + [DigitChar(n % 10)]
  }

  /** `str(n)`. */
  function IntToString(n: int): string {
    if n < 0 then "-" + NatToString(-n) else NatToString(n)
  }

  /** The value of a string of decimal digits (0 for the empty string). */
  function DigitsValue(s: string): nat
    requires AllDigits(s)
  {
    if |s| == 0 then 0 else DigitsValue(s[..|s| - 1]) * 10 + DigitValue(s[|s| - 1])
  }

  /** `int(s)` restricted to non-empty strings of ASCII digits. */
  function ParseNat(s: string): Option<nat> {
    if |s| > 0 && AllDigits(s) then Some(DigitsValue(s)) else None
  }

  lemma {:induction false} NatToStringValue(n: nat)
    ensures DigitsValue(NatToString(n)) == n
  {
    if n >= 10 {
      NatToStringValue(n / 10);
      var s := NatToString(n);
      assert s[..|s| - 1] == NatToString(n / 10);
    }
  }

  function Pow10(k: nat): nat {
    if k == 0 then 1 else 10 * Pow10(k - 1)
  }

  lemma {:induction false} DigitsValueConcat(a: string, b: string)
    requires AllDigits(a) && AllDigits(b)
    ensures AllDigits(a + b)
    ensures DigitsValue(a + b) == DigitsValue(a) * Pow10(|b|) + DigitsValue(b)
    decreases |b|
  {
    if |b| == 0 {
      assert a + b == a;
    } else {
      var b' := b[..|b| - 1];
      assert (a + b)[..|a + b| - 1] == a + b';
      DigitsValueConcat(a, b');
    }
  }

  /** Three digits, zero-padded, as `{:03d}` renders them. */
  function Pad3(n: nat): (r: string)
    requires n < 1000
    ensures |r| == 3 && AllDigits(r)
  {
    [DigitChar(n / 100), DigitChar(n / 10 % 10), DigitChar(n % 10)]
  }

  lemma Pad3Value(n: nat)
    requires n < 1000
    ensures DigitsValue(Pad3(n)) == n
  {
    var s := Pad3(n);
    var d0, d1, d2 := n / 100, n / 10 % 10, n % 10;
    assert s[..1] == [DigitChar(d0)];
    assert s[..2] == [DigitChar(d0), DigitChar(d1)];
    assert s[..2][..1] == s[..1];
    assert s[..1][..0] == "";
    assert DigitsValue(s[..1]) == d0;
    assert DigitsValue(s[..2]) == d0 * 10 + d1;
    assert DigitsValue(s) == (d0 * 10 + d1) * 10 + d2;
    DivModDigits(n);
  }

  lemma DivModDigits(n: nat)
    requires n < 1000
    ensures n == (n / 100 * 10 + n / 10 % 10) * 10 + n % 10
  {
    var q := n / 10;
    assert n == q * 10 + n % 10;
    assert q == q / 10 * 10 + q % 10;
    assert q / 10 == n / 100;
  }

  /** `f"{n:,}"` for a natural number: groups of three digits separated by commas. */
  function GroupedNat(n: nat): (r: string)
    ensures |r| >= 1
  {
    if n < 1000 then NatToString(n) else GroupedNat(n / 1000) + "," + Pad3(n % 1000)
  }

  /** `f"{n:,}"`. */
  function Grouped(n: int): string {
    if n < 0 then "-" + GroupedNat(-n) else GroupedNat(n)
  }

  /** Dropping the thousands separators from `f"{n:,}"` leaves the digits of `n`. */
  lemma {:induction false} GroupedNatValue(n: nat)
    ensures AllDigits(RemoveChar(GroupedNat(n), ','))
    ensures DigitsValue(RemoveChar(GroupedNat(n), ',')) == n
  {
    if n < 1000 {
      RemoveCharAbsent(NatToString(n), ',');
      NatToStringValue(n);
    } else {
      GroupedNatValue(n / 1000);
      var head := GroupedNat(n / 1000);
      RemoveCharConcat(head + ",", Pad3(n % 1000), ',');
      RemoveCharConcat(head, ",", ',');
      assert RemoveChar(",", ',') == "";
      RemoveCharAbsent(Pad3(n % 1000), ',');
      var digits := RemoveChar(head, ',');
      assert RemoveChar(GroupedNat(n), ',') == digits + Pad3(n % 1000);
      DigitsValueConcat(digits, Pad3(n % 1000));
      Pad3Value(n % 1000);
      assert Pow10(3) == 1000 by {
        assert Pow10(1) == 10;
        assert Pow10(2) == 100;
      }
      assert DigitsValue(digits) == n / 1000;
      assert n == n / 1000 * 1000 + n % 1000;
    }
  }
}

=== FILE: upload.dfy ===
/** `upload_vehicles` (backend/src/routes.py, repeated in backend/src/routes/main.py): a
    spreadsheet of vehicles for one dealership. The request checks run in order; each
    row's cells are mapped to columns through a table of accepted headers, the vehicle
    validators run on the mapped row, and a failing row is reported and skipped. The
    session is committed only when some row was accepted, and the commit enforces the
    `NOT NULL` columns for all of them at once. Reading the file is left to pandas: the
    parsed table is part of the request, each row holding its non-empty cells by header. */
module Upload {
  import opened Wrappers
  import opened Text
  import opened Json
  import opened Seqs
  import opened Records
  import opened Http
  import opened Validators
  import opened Crud

  /** One spreadsheet row: header to cell. An empty cell (`NaN`) is `JNull` or absent. */
  type Row = map<string, Json>

  /** `name in df.columns and pd.notna(row[name])`. */
  predicate Present(row: Row, name: string) {
    name in row && row[name] != JNull
  }

  /** Columns with the headers accepted for each, in the order they are tried. */
  type Mapping = seq<(string, seq<string>)>

  /** `column_mapping` of the view. The row functions below take the mapping as a
      parameter; the view passes this one. */
  const ColumnMapping: Mapping := [
    ("marca", ["Marca", "MARCA", "marca"]),
    ("modelo", ["Modelo", "MODELO", "modelo"]),
    ("versao", ["Versão", "Versao", "VERSÃO", "VERSAO"]),
    ("ano_fabricacao", ["Ano Fabricação", "Ano Fabricacao", "ANO FABRICAÇÃO", "ANO FABRICACAO"]),
    ("ano_modelo", ["Ano Modelo", "ANO MODELO"]),
    ("quilometragem", ["Quilometragem", "QUILOMETRAGEM"]),
    ("estado", ["Estado", "ESTADO"]),
    ("cambio", ["Câmbio", "Cambio", "CÂMBIO", "CAMBIO"]),
    ("combustivel", ["Combustível", "Combustivel", "COMBUSTÍVEL", "COMBUSTIVEL"]),
    ("motor", ["Motor", "MOTOR"]),
    ("potencia", ["Potência", "Potencia", "POTÊNCIA", "POTENCIA"]),
    ("final_placa", ["Final Placa", "FINAL PLACA"]),
    ("cor", ["Cor", "COR"]),
    ("preco", ["Preço", "Preco", "PREÇO", "PRECO"]),
    ("preco_promocional", ["Preço Promocional", "Preco Promocional", "PREÇO PROMOCIONAL", "PRECO PROMOCIONAL"]),
    ("itens_opcionais", ["Itens Opcionais", "ITENS OPCIONAIS"]),
    ("link_fotos", ["Link Fotos", "LINK FOTOS"]),
    ("observacoes", ["Observações", "Observacoes", "OBSERVAÇÕES", "OBSERVACOES"])]

  // ---------------------------------------------------------------------------
  // Mapping one row
  // ---------------------------------------------------------------------------

  /** The cell under the first accepted header that is present and non-empty. */
  function FirstPresent(row: Row, names: seq<string>): (r: Option<Json>)
    ensures r.None? <==> forall i :: 0 <= i < |names| ==> !Present(row, names[i])
    ensures r.Some? ==> exists i :: 0 <= i < |names| && Present(row, names[i]) && row[names[i]] == r.value &&
                                  forall j :: 0 <= j < i ==> !Present(row, names[j])
    decreases |names|
  {
    if |names| == 0 then None
    else if Present(row, names[0]) then Some(row[names[0]])
    else
      var r := FirstPresent(row, names[1..]);
      if r.Some? then
        var i :| 0 <= i < |names[1..]| && Present(row, names[1..][i]) && row[names[1..][i]] == r.value &&
          forall j :: 0 <= j < i ==> !Present(row, names[1..][j]);
        assert names[i + 1] == names[1..][i];
        assert forall j :: 0 <= j < i + 1 ==> !Present(row, names[j]) by {
          forall j | 0 <= j < i + 1
            ensures !Present(row, names[j])
          {
            if j > 0 {
              assert names[j] == names[1..][j - 1];
            }
          }
        }
        r
      else
        assert forall i :: 1 <= i < |names| ==> names[i] == names[1..][i - 1];
        r
  }

  /** Whether some entry of `mapping` names `column` and finds a cell for it. */
  predicate Mapped(row: Row, mapping: Mapping, column: string) {
    exists i :: 0 <= i < |mapping| && mapping[i].0 == column && FirstPresent(row, mapping[i].1).Some?
  }

  /** `for field, possible_names in column_mapping.items(): ...` over `acc`. */
  function Fill(row: Row, mapping: Mapping, acc: map<string, Json>): (r: map<string, Json>)
    ensures forall k :: k in r <==> k in acc || Mapped(row, mapping, k)
    decreases |mapping|
  {
    if |mapping| == 0 then acc
    else
      var (field, names) := mapping[0];
      var next := match FirstPresent(row, names) case Some(v) => acc[field := v] case None => acc;
      MappedCons(row, mapping);
      Fill(row, mapping[1..], next)
  }

  /** A key that no entry of the mapping names keeps its value. */
  lemma {:induction false} FillKeeps(row: Row, mapping: Mapping, acc: map<string, Json>, k: string)
    requires k in acc && forall i :: 0 <= i < |mapping| ==> mapping[i].0 != k
    ensures k in Fill(row, mapping, acc) && Fill(row, mapping, acc)[k] == acc[k]
    decreases |mapping|
  {
    if |mapping| > 0 {
      var (field, names) := mapping[0];
      var next := match FirstPresent(row, names) case Some(v) => acc[field := v] case None => acc;
      assert forall i :: 0 <= i < |mapping[1..]| ==> mapping[1..][i].0 == mapping[i + 1].0;
      FillKeeps(row, mapping[1..], next, k);
    }
  }

  /** An entry that no later entry overrides sets its column to the first present cell. */
  lemma {:induction false} FillTakes(row: Row, mapping: Mapping, acc: map<string, Json>, i: nat)
    requires i < |mapping| && FirstPresent(row, mapping[i].1).Some?
    requires forall j :: i < j < |mapping| ==> mapping[j].0 != mapping[i].0
    ensures mapping[i].0 in Fill(row, mapping, acc)
    ensures Fill(row, mapping, acc)[mapping[i].0] == FirstPresent(row, mapping[i].1).value
    decreases |mapping|
  {
    var (field, names) := mapping[0];
    var next := match FirstPresent(row, names) case Some(v) => acc[field := v] case None => acc;
    var tail := mapping[1..];
    if i == 0 {
      assert forall j :: 0 <= j < |tail| ==> tail[j].0 == mapping[j + 1].0;
      FillKeeps(row, tail, next, field);
    } else {
      assert tail[i - 1] == mapping[i];
      assert forall j :: i - 1 < j < |tail| ==> tail[j].0 == mapping[j + 1].0;
      FillTakes(row, tail, next, i - 1);
    }
  }

  /** A column is mapped by a mapping when its first entry or one of the rest maps it. */
  lemma MappedCons(row: Row, mapping: Mapping)
    requires |mapping| > 0
    ensures forall k :: Mapped(row, mapping, k) <==>
      (k == mapping[0].0 && FirstPresent(row, mapping[0].1).Some?) || Mapped(row, mapping[1..], k)
  {
    forall k
      ensures Mapped(row, mapping, k) <==>
        (k == mapping[0].0 && FirstPresent(row, mapping[0].1).Some?) || Mapped(row, mapping[1..], k)
    {
      if Mapped(row, mapping[1..], k) {
        var i :| 0 <= i < |mapping[1..]| && mapping[1..][i].0 == k && FirstPresent(row, mapping[1..][i].1).Some?;
        assert mapping[i + 1] == mapping[1..][i];
      }
      if Mapped(row, mapping, k) {
        var i :| 0 <= i < |mapping| && mapping[i].0 == k && FirstPresent(row, mapping[i].1).Some?;
        if i > 0 {
          assert mapping[1..][i - 1] == mapping[i];
        }
      }
    }
  }

  /** `vehicle_data`: the dealership id from the form, then the mapped cells. */
  function MapRow(row: Row, mapping: Mapping, dealershipId: string): (r: map<string, Json>)
    ensures forall k :: k in r <==> k == "dealership_id" || Mapped(row, mapping, k)
  {
    Fill(row, mapping, map["dealership_id" := JStr(dealershipId)])
  }

  /** No column of the view's mapping is called `dealership_id`. */
  lemma NoDealershipColumn()
    ensures forall i :: 0 <= i < |ColumnMapping| ==> ColumnMapping[i].0 != "dealership_id"
  {
  }

  /** The form's dealership id is part of every row, as a string, when no column of the
      mapping overwrites it. */
  lemma DealershipIdKept(row: Row, mapping: Mapping, dealershipId: string)
    requires forall i :: 0 <= i < |mapping| ==> mapping[i].0 != "dealership_id"
    ensures "dealership_id" in MapRow(row, mapping, dealershipId)
    ensures MapRow(row, mapping, dealershipId)["dealership_id"] == JStr(dealershipId)
  {
    FillKeeps(row, mapping, map["dealership_id" := JStr(dealershipId)], "dealership_id");
  }

  /** Only the listed headers are read: for the mileage, a header spelt like the column
      itself finds nothing, while for the make it is the last accepted spelling and the
      first one wins over it. */
  lemma HeaderSpellings(v: Json, w: Json)
    requires v != JNull && w != JNull
    ensures ColumnMapping[5].0 == "quilometragem" && FirstPresent(map["quilometragem" := v], ColumnMapping[5].1).None?
    ensures ColumnMapping[0].0 == "marca" && FirstPresent(map["marca" := v], ColumnMapping[0].1) == Some(v)
    ensures FirstPresent(map["Marca" := w, "marca" := v], ColumnMapping[0].1) == Some(w)
  {
    assert ColumnMapping[5].1 == ["Quilometragem", "QUILOMETRAGEM"];
    assert ColumnMapping[0].1 == ["Marca", "MARCA", "marca"];
  }

  /** A column whose entry is the only one of its name gets the first present cell. */
  lemma {:induction false} ColumnTakesFirstPresent(row: Row, mapping: Mapping, dealershipId: string, i: nat)
    requires i < |mapping| && FirstPresent(row, mapping[i].1).Some?
    requires forall j :: 0 <= j < |mapping| && j != i ==> mapping[j].0 != mapping[i].0
    ensures mapping[i].0 in MapRow(row, mapping, dealershipId)
    ensures MapRow(row, mapping, dealershipId)[mapping[i].0] == FirstPresent(row, mapping[i].1).value
  {
    FillTakes(row, mapping, map["dealership_id" := JStr(dealershipId)], i);
  }

  // ---------------------------------------------------------------------------
  // The rows
  // ---------------------------------------------------------------------------

  /** `Vehicle(**vehicle_data)` for one row. */
  function RowVehicle(row: Row, mapping: Mapping, dealershipId: string, currentYear: int): (r: Result<map<string, Json>>)
    ensures r.Ok? ==> ValidateVehicle(r.value, currentYear) == r
    ensures r.Ok? ==> r.value.Keys == MapRow(row, mapping, dealershipId).Keys
  {
    var kwargs := MapRow(row, mapping, dealershipId);
    match ValidateVehicle(kwargs, currentYear)
    case Err(e) => Err(e)
    case Ok(v) =>
      ValidateVehicleIdempotent(kwargs, currentYear);
      Ok(v)
  }

  /** The constructor's outcome for every row, in sheet order. */
  function Outcomes(rows: seq<Row>, mapping: Mapping, dealershipId: string, currentYear: int): (r: seq<Result<map<string, Json>>>)
    ensures |r| == |rows|
    ensures forall j :: 0 <= j < |rows| ==> r[j] == RowVehicle(rows[j], mapping, dealershipId, currentYear)
  {
    seq(|rows|, j requires 0 <= j < |rows| => RowVehicle(rows[j], mapping, dealershipId, currentYear))
  }

  predicate Accepted(x: Result<map<string, Json>>) {
    x.Ok?
  }

  /** `f"Error in row {index + 2}: {str(e)}"`: the header is line 1 and `index` counts
      from 0. */
  function RowError(index: nat, message: string): (r: string)
    ensures StartsWith(r, "Error in row " + NatToString(index + 2) + ": ")
    ensures EndsWith(r, message)
  {
    ConcatEnds("Error in row " + NatToString(index + 2) + ": ", message);
    "Error in row " + NatToString(index + 2) + ": " + message
  }

  datatype Processed = Processed(added: seq<map<string, Json>>, errors: seq<string>)

  /** The loop over `df.iterrows()` from row `first`, given each row's outcome: an
      accepted row is added, a refused one reported under its line number. */
  function Process(outcomes: seq<Result<map<string, Json>>>, first: nat): (r: Processed)
    ensures |r.added| + |r.errors| == |outcomes|
    ensures |r.added| == Count(outcomes, Accepted)
    decreases |outcomes|
  {
    if |outcomes| == 0 then Processed([], [])
    else
      var rest := Process(outcomes[1..], first + 1);
      match outcomes[0]
      case Ok(v) => Processed([v] + rest.added, rest.errors)
      case Err(e) => Processed(rest.added, [RowError(first, e)] + rest.errors)
  }

  /** Only accepted rows are added. */
  lemma {:induction false} AddedAreAccepted(outcomes: seq<Result<map<string, Json>>>, first: nat)
    ensures forall k :: 0 <= k < |Process(outcomes, first).added| ==> Ok(Process(outcomes, first).added[k]) in outcomes
    decreases |outcomes|
  {
    if |outcomes| > 0 {
      AddedAreAccepted(outcomes[1..], first + 1);
      var rest := Process(outcomes[1..], first + 1);
      var added := Process(outcomes, first).added;
      forall k | 0 <= k < |added|
        ensures Ok(added[k]) in outcomes
      {
        if outcomes[0].Ok? && k == 0 {
        } else {
          var k' := if outcomes[0].Ok? then k - 1 else k;
          assert added[k] == rest.added[k'];
          assert Ok(rest.added[k']) in outcomes[1..];
        }
      }
    }
  }

  /** Every reported error names a refused row by its line number and carries the
      constructor's message. */
  lemma {:induction false} ErrorsNameRows(outcomes: seq<Result<map<string, Json>>>, first: nat)
    ensures forall k :: 0 <= k < |Process(outcomes, first).errors| ==>
              exists j :: 0 <= j < |outcomes| && outcomes[j].Err? &&
                          Process(outcomes, first).errors[k] == RowError(first + j, outcomes[j].error)
    decreases |outcomes|
  {
    if |outcomes| > 0 {
      ErrorsNameRows(outcomes[1..], first + 1);
      var rest := Process(outcomes[1..], first + 1).errors;
      var errors := Process(outcomes, first).errors;
      forall k | 0 <= k < |errors|
        ensures exists j :: 0 <= j < |outcomes| && outcomes[j].Err? && errors[k] == RowError(first + j, outcomes[j].error)
      {
        if outcomes[0].Err? && k == 0 {
          assert errors[0] == RowError(first + 0, outcomes[0].error);
        } else {
          var k' := if outcomes[0].Err? then k - 1 else k;
          assert errors[k] == rest[k'] && 0 <= k' < |rest|;
          var j :| 0 <= j < |outcomes[1..]| && outcomes[1..][j].Err? && rest[k'] == RowError(first + 1 + j, outcomes[1..][j].error);
          assert outcomes[j + 1] == outcomes[1..][j];
        }
      }
    } else {
      assert Process(outcomes, first).errors == [];
    }
  }

  /** Every accepted row is added, and a refused row is never added. */
  lemma {:induction false} AcceptedRowAdded(outcomes: seq<Result<map<string, Json>>>, first: nat, j: nat)
    requires j < |outcomes| && outcomes[j].Ok?
    ensures outcomes[j].value in Process(outcomes, first).added
    decreases |outcomes|
  {
    if j > 0 {
      assert outcomes[j] == outcomes[1..][j - 1];
      AcceptedRowAdded(outcomes[1..], first + 1, j - 1);
    }
  }

  /** Rows drawn from the outcomes fill the `NOT NULL` columns when every accepted
      outcome does. */
  lemma AddedKeepNotNull(outcomes: seq<Result<map<string, Json>>>, added: seq<map<string, Json>>)
    requires forall k :: 0 <= k < |added| ==> Ok(added[k]) in outcomes
    ensures (forall j :: 0 <= j < |outcomes| && outcomes[j].Ok? ==> NotNull(outcomes[j].value, VehicleNotNull))
            ==> forall k :: 0 <= k < |added| ==> NotNull(added[k], VehicleNotNull)
  {
    if forall j :: 0 <= j < |outcomes| && outcomes[j].Ok? ==> NotNull(outcomes[j].value, VehicleNotNull) {
      forall k | 0 <= k < |added| ensures NotNull(added[k], VehicleNotNull) {
        var j :| 0 <= j < |outcomes| && outcomes[j] == Ok(added[k]);
      }
    }
  }

  /** The loop keeps the sheet's order: processing two runs of rows one after the other
      adds, and reports, exactly what processing each run does, the first run's rows first. */
  lemma {:induction false} ProcessSplits(a: seq<Result<map<string, Json>>>, b: seq<Result<map<string, Json>>>, first: nat)
    ensures Process(a + b, first).added == Process(a, first).added + Process(b, first + |a|).added
    ensures Process(a + b, first).errors == Process(a, first).errors + Process(b, first + |a|).errors
    decreases |a|
  {
    if |a| == 0 {
      assert a + b == b;
    } else {
      var ab := a + b;
      assert ab[0] == a[0] && ab[1..] == a[1..] + b;
      ProcessSplits(a[1..], b, first + 1);
      var tail, head := Process(ab[1..], first + 1), Process(a[1..], first + 1);
      assert Process(ab, first) == match a[0]
        case Ok(v) => Processed([v] + tail.added, tail.errors)
        case Err(e) => Processed(tail.added, [RowError(first, e)] + tail.errors);
      assert Process(a, first) == match a[0]
        case Ok(v) => Processed([v] + head.added, head.errors)
        case Err(e) => Processed(head.added, [RowError(first, e)] + head.errors);
    }
  }

  /** When no row is accepted every row is reported. */
  lemma {:induction false} NoneAcceptedAllReported(outcomes: seq<Result<map<string, Json>>>, first: nat)
    requires forall j :: 0 <= j < |outcomes| ==> outcomes[j].Err?
    ensures Process(outcomes, first).added == []
    ensures |Process(outcomes, first).errors| == |outcomes|
    decreases |outcomes|
  {
    if |outcomes| > 0 {
      assert forall j :: 1 <= j < |outcomes| ==> outcomes[j] == outcomes[1..][j - 1];
      NoneAcceptedAllReported(outcomes[1..], first + 1);
    }
  }

  // ---------------------------------------------------------------------------
  // The request
  // ---------------------------------------------------------------------------

  /** The uploaded file: its name and the table pandas reads from it (`None` when
      reading raises). */
  datatype SheetFile = SheetFile(filename: string, table: Option<seq<Row>>)

  /** `request.files.get('file')` and `request.form.get('dealership_id')`. */
  datatype UploadRequest = UploadRequest(file: Option<SheetFile>, dealershipId: Option<string>)

  /** The answer and the rows the commit stored. */
  datatype Uploaded = Uploaded(response: Response, stored: seq<map<string, Json>>)

  predicate Spreadsheet(filename: string) {
    EndsWith(filename, ".csv") || EndsWith(filename, ".xlsx")
  }

  /** `Dealership.query.get(dealership_id)` with the form's string. */
  function FormDealership(db: Db, dealershipId: string): (r: Option<Dealership>)
    ensures r.Some? ==> ParseNat(dealershipId).Some? && r == DealershipById(db, ParseNat(dealershipId).value)
  {
    match ParseNat(dealershipId)
    case None => None
    case Some(n) => DealershipById(db, n)
  }

  const VehicleNotNull: seq<string> := ["dealership_id", "marca", "modelo"]

  function Refused(status: int, message: string): (r: Uploaded)
    ensures r.stored == [] && r.response == ErrorResponse(status, message)
  {
    Uploaded(ErrorResponse(status, message), [])
  }

  /** After the loop: commit the accepted rows if there are any. The commit fails as a
      whole when one of them leaves a `NOT NULL` column empty. */
  function Commit(outcomes: seq<Result<map<string, Json>>>): (r: Uploaded)
    ensures r.response.status in {201, 400, 500}
    ensures r.response.status == 201 <==> |r.stored| > 0
    ensures Count(outcomes, Accepted) == 0 ==> r.response.status == 400
    ensures r.response.status == 201 ==>
      && |r.stored| == Count(outcomes, Accepted)
      && forall k :: 0 <= k < |r.stored| ==> NotNull(r.stored[k], VehicleNotNull) && Ok(r.stored[k]) in outcomes
    ensures r.response.status == 201 ==> r.stored == Process(outcomes, 0).added
    ensures Count(outcomes, Accepted) > 0 && (forall j :: 0 <= j < |outcomes| && outcomes[j].Ok? ==> NotNull(outcomes[j].value, VehicleNotNull))
            ==> r.response.status == 201
  {
    var p := Process(outcomes, 0);
    AddedAreAccepted(outcomes, 0);
    AddedKeepNotNull(outcomes, p.added);
    if |p.added| == 0 then
      Uploaded(Response(400, JObj(map["error" := JStr("No vehicles were processed"), "errors" := JArr(JStrs(p.errors))])), [])
    else if !(forall k :: 0 <= k < |p.added| ==> NotNull(p.added[k], VehicleNotNull)) then
      Uploaded(InternalError, [])
    else
      Uploaded(Response(201, JObj(map[
        "message" := JStr(NatToString(|p.added|) + " vehicles processed successfully"),
        "errors" := if |p.errors| > 0 then JArr(JStrs(p.errors)) else JNull])), p.added)
  }

  /** The request passes every check before the file is read. */
  predicate Admitted(db: Db, req: UploadRequest) {
    && req.file.Some? && req.file.value.filename != "" && Spreadsheet(req.file.value.filename)
    && req.dealershipId.Some? && req.dealershipId.value != "" && FormDealership(db, req.dealershipId.value).Some?
  }

  /** `upload_vehicles`, with the header table as a parameter: the view passes
      `ColumnMapping`. */
  function UploadVehicles(db: Db, req: UploadRequest, mapping: Mapping, currentYear: int): (r: Uploaded)
    ensures r.response.status in {201, 400, 404, 500}
    ensures req.file.None? ==> r == Refused(400, "No file uploaded")
    ensures req.file.Some? && req.file.value.filename == "" ==> r == Refused(400, "Empty filename")
    ensures req.file.Some? && req.file.value.filename != "" && !Spreadsheet(req.file.value.filename) ==>
      r == Refused(400, "Invalid file format. Use CSV or XLSX.")
    ensures req.file.Some? && req.file.value.filename != "" && Spreadsheet(req.file.value.filename) &&
            (req.dealershipId.None? || req.dealershipId.value == "") ==>
      r == Refused(400, "Dealership ID is required")
    ensures !Admitted(db, req) ==> r.stored == [] && r.response.status in {400, 404}
    ensures r.response.status == 404 <==> !Admitted(db, req) && r == Refused(404, "Dealership not found")
    ensures Admitted(db, req) && req.file.value.table.None? ==> r == Uploaded(InternalError, [])
    ensures Admitted(db, req) && req.file.value.table.Some? ==>
      r == Commit(Outcomes(req.file.value.table.value, mapping, req.dealershipId.value, currentYear))
  {
    if req.file.None? then Refused(400, "No file uploaded")
    else
      var file := req.file.value;
      if file.filename == "" then Refused(400, "Empty filename")
      else if !Spreadsheet(file.filename) then Refused(400, "Invalid file format. Use CSV or XLSX.")
      else if req.dealershipId.None? || req.dealershipId.value == "" then Refused(400, "Dealership ID is required")
      else
        var did := req.dealershipId.value;
        if FormDealership(db, did).None? then Refused(404, "Dealership not found")
        else if file.table.None? then Uploaded(InternalError, [])
        else Commit(Outcomes(file.table.value, mapping, did, currentYear))
  }

  /** What a committed upload stores: one validated row per accepted sheet row, each with
      a make and a model. */
  lemma StoredRows(rows: seq<Row>, mapping: Mapping, dealershipId: string, currentYear: int)
    ensures var c := Commit(Outcomes(rows, mapping, dealershipId, currentYear));
      c.response.status == 201 ==>
        forall k :: 0 <= k < |c.stored| ==>
          && ValidateVehicle(c.stored[k], currentYear) == Ok(c.stored[k])
          && NotNull(c.stored[k], VehicleNotNull)
          && exists j :: 0 <= j < |rows| && RowVehicle(rows[j], mapping, dealershipId, currentYear) == Ok(c.stored[k])
  {
    var outcomes := Outcomes(rows, mapping, dealershipId, currentYear);
    var c := Commit(outcomes);
    if c.response.status == 201 {
      forall k | 0 <= k < |c.stored|
        ensures ValidateVehicle(c.stored[k], currentYear) == Ok(c.stored[k])
        ensures exists j :: 0 <= j < |rows| && RowVehicle(rows[j], mapping, dealershipId, currentYear) == Ok(c.stored[k])
      {
        FromSomeRow(rows, mapping, dealershipId, currentYear, c.stored[k]);
      }
    }
  }

  /** An accepted outcome is the validated vehicle of some sheet row. */
  lemma FromSomeRow(rows: seq<Row>, mapping: Mapping, dealershipId: string, currentYear: int, x: map<string, Json>)
    requires Ok(x) in Outcomes(rows, mapping, dealershipId, currentYear)
    ensures ValidateVehicle(x, currentYear) == Ok(x)
    ensures exists j :: 0 <= j < |rows| && RowVehicle(rows[j], mapping, dealershipId, currentYear) == Ok(x)
  {
    var outcomes := Outcomes(rows, mapping, dealershipId, currentYear);
    var j :| 0 <= j < |outcomes| && outcomes[j] == Ok(x);
    assert RowVehicle(rows[j], mapping, dealershipId, currentYear) == Ok(x);
  }

  /** The commit is all or nothing: one accepted row without a make fails the whole upload,
      and no row is stored. */
  lemma MissingMakeFailsAll(outcomes: seq<Result<map<string, Json>>>, j: nat)
    requires j < |outcomes| && outcomes[j].Ok? && "marca" !in outcomes[j].value
    ensures Commit(outcomes) == Uploaded(InternalError, [])
  {
    AcceptedRowAdded(outcomes, 0, j);
    var p := Process(outcomes, 0);
    var k :| 0 <= k < |p.added| && p.added[k] == outcomes[j].value;
    assert VehicleNotNull[1] == "marca";
    assert !NotNull(p.added[k], VehicleNotNull);
  }

  /** A sheet row with no make cell is accepted by the validators but cannot be stored. */
  lemma RowWithoutMake(row: Row, mapping: Mapping, dealershipId: string, currentYear: int)
    requires !Mapped(row, mapping, "marca")
    requires RowVehicle(row, mapping, dealershipId, currentYear).Ok?
    ensures "marca" !in RowVehicle(row, mapping, dealershipId, currentYear).value
  {
  }

  /** When no row is accepted the answer is a 400 listing one error per row. */
  lemma NothingAccepted(outcomes: seq<Result<map<string, Json>>>)
    requires forall j :: 0 <= j < |outcomes| ==> outcomes[j].Err?
    ensures Commit(outcomes).response.status == 400
    ensures var body := Commit(outcomes).response.body;
      body.JObj? && "errors" in body.fields && body.fields["errors"].JArr? &&
      |body.fields["errors"].items| == |outcomes|
  {
    NoneAcceptedAllReported(outcomes, 0);
  }
}

=== FILE: validators.dfy ===
/** The `@validates` rules of backend/src/models.py. SQLAlchemy runs a validator when its
    column is assigned, so a constructor call runs the validators of the keyword
    arguments it is given, in argument order, and the first one that raises aborts it.
    Values are JSON values because the callers pass request bodies and spreadsheet
    cells; the current year is a parameter. */
module Validators {
  import opened Wrappers
  import opened Text
  import opened Json

  // ---------------------------------------------------------------------------
  // Contact fields of a dealership
  // ---------------------------------------------------------------------------

  /** The message `re.sub` raises on a non-string subject. */
  function NotAString(j: Json): string {
    "expected string or bytes-like object, got '" + TypeName(j) + "'"
  }

  /** `validate_phone_number`: a falsy value passes as it is; otherwise its digits must
      number 10 or 11. The value is returned unchanged, punctuation and all. */
  function Phone(key: string, value: Json): (r: Result<Json>)
    ensures r.Ok? ==> r.value == value
    ensures !Truthy(value) ==> r.Ok?
    ensures Truthy(value) ==> (r.Ok? <==> value.JStr? && 10 <= |Digits(value.s)| <= 11)
  {
    if !Truthy(value) then Ok(value)
    else if !value.JStr? then Err(NotAString(value))
    else
      var n := |Digits(value.s)|;
      if n < 10 || n > 11 then Err("Invalid " + key + " number format") else Ok(value)
  }

  lemma {:induction false} DigitsConcat(a: string, b: string)
    ensures Digits(a + b) == Digits(a) + Digits(b)
    decreases |a|
  {
    if |a| > 0 {
      assert (a + b)[1..] == a[1..] + b;
      DigitsConcat(a[1..], b);
    } else {
      assert a + b == b;
    }
  }

  lemma DigitsOfNonDigits(s: string)
    requires forall k :: 0 <= k < |s| ==> !IsDigit(s[k])
    ensures Digits(s) == ""
  {
  }

  /** A number written as `(DD) NNNNN-NNNN` counts only its digits: with eight or nine
      digits after the area code it is accepted. */
  lemma FormattedPhoneAccepted(key: string, area: string, first: string, last: string)
    requires |area| == 2 && AllDigits(area) && AllDigits(first) && AllDigits(last)
    requires 8 <= |first| + |last| <= 9
    ensures Phone(key, JStr("(" + area + ") " + first + "-" + last)).Ok?
  {
    var z := "(" + area;
    var y := z + ") ";
    var x := y + first;
    var w := x + "-";
    DigitsConcat("(", area);
    DigitsOfNonDigits("(");
    assert Digits(z) == area;
    DigitsConcat(z, ") ");
    DigitsOfNonDigits(") ");
    assert Digits(y) == area;
    DigitsConcat(y, first);
    DigitsConcat(x, "-");
    DigitsOfNonDigits("-");
    assert Digits(w) == area + first;
    DigitsConcat(w, last);
    assert Digits(w + last) == area + first + last;
  }

  /** A thirteen-digit number (country code, area code and a nine-digit line) is refused. */
  lemma ThirteenDigitsRefused(key: string)
    ensures Phone(key, JStr("5511999999999")).Err?
  {
    assert AllDigits("5511999999999");
  }

  // ---------------------------------------------------------------------------
  // E-mail
  // ---------------------------------------------------------------------------

  predicate IsLetter(c: char) {
    'a' <= c <= 'z' || 'A' <= c <= 'Z'
  }

  /** `[a-zA-Z0-9._%+-]`. */
  predicate LocalChar(c: char) {
    IsLetter(c) || IsDigit(c) || c in "._%+-"
  }

  /** `[a-zA-Z0-9.-]`. */
  predicate DomainChar(c: char) {
    IsLetter(c) || IsDigit(c) || c == '.' || c == '-'
  }

  predicate AllLocal(s: string) {
    forall k :: 0 <= k < |s| ==> LocalChar(s[k])
  }

  predicate AllDomain(s: string) {
    forall k :: 0 <= k < |s| ==> DomainChar(s[k])
  }

  predicate AllLetters(s: string) {
    forall k :: 0 <= k < |s| ==> IsLetter(s[k])
  }

  /** The three parts `local@domain.tld` of `^[a-zA-Z0-9._%+-]+@[a-zA-Z0-9.-]+\.[a-zA-Z]{2,}`. */
  predicate EmailParts(local: string, domain: string, tld: string) {
    |local| > 0 && AllLocal(local) && |domain| > 0 && AllDomain(domain) && |tld| >= 2 && AllLetters(tld)
  }

  /** What the pattern describes, read as a grammar. */
  ghost predicate EmailSpec(s: string) {
    exists local, domain, tld :: EmailParts(local, domain, tld) && s == local + "@" + domain + "." + tld
  }

  /** The pattern decided directly: no class holds `@`, so the part before the first `@`
      is the local part; the top-level domain holds only letters, so it follows the last
      `.`. */
  predicate EmailShape(s: string) {
    var at := FindChar(s, '@');
    at > 0 && AllLocal(s[..at]) &&
    var rest := s[at + 1..];
    var dot := RFindChar(rest, '.');
    dot > 0 && AllDomain(rest[..dot]) && |rest| - dot - 1 >= 2 && AllLetters(rest[dot + 1..])
  }

  /** The direct decision and the grammar agree on every string. */
  lemma EmailShapeIff(s: string)
    ensures EmailShape(s) <==> EmailSpec(s)
  {
    if EmailShape(s) {
      var at := FindChar(s, '@');
      var rest := s[at + 1..];
      var dot := RFindChar(rest, '.');
      var local, domain, tld := s[..at], rest[..dot], rest[dot + 1..];
      assert rest == domain + "." + tld by {
        SliceAround(rest, dot);
      }
      assert s == local + "@" + rest by {
        SliceAround(s, at);
      }
      assert EmailParts(local, domain, tld);
    }
    if EmailSpec(s) {
      var local, domain, tld :| EmailParts(local, domain, tld) && s == local + "@" + domain + "." + tld;
      EmailPartsShape(local, domain, tld);
    }
  }

  lemma {:induction false} EmailPartsShape(local: string, domain: string, tld: string)
    requires EmailParts(local, domain, tld)
    ensures EmailShape(local + "@" + domain + "." + tld)
  {
    var rest := domain + "." + tld;
    var s := local + "@" + rest;
    assert s == local + "@" + domain + "." + tld;
    assert forall k :: 0 <= k < |local| ==> local[k] != '@';
    assert forall k :: 0 <= k < |tld| ==> tld[k] != '.';
    FirstAt(local, rest);
    LastDot(domain, tld);
  }

  /** The first `@` of `local@rest` ends `local` when `local` has none. */
  lemma FirstAt(local: string, rest: string)
    requires '@' !in local
    ensures var s := local + "@" + rest;
      FindChar(s, '@') == |local| && s[..|local|] == local && s[|local| + 1..] == rest
  {
    var s := local + "@" + rest;
    assert s[|local|] == '@';
    assert forall k :: 0 <= k < |local| ==> s[k] == local[k];
    assert s[..|local|] == local;
    assert s[|local| + 1..] == rest;
  }

  /** The last `.` of `domain.tld` starts `tld` when `tld` has none. */
  lemma LastDot(domain: string, tld: string)
    requires '.' !in tld
    ensures var rest := domain + "." + tld;
      RFindChar(rest, '.') == |domain| && rest[..|domain|] == domain && rest[|domain| + 1..] == tld
  {
    var rest := domain + "." + tld;
    assert rest[|domain|] == '.';
    assert forall k :: |domain| < k < |rest| ==> rest[k] == tld[k - |domain| - 1];
    assert rest[..|domain|] == domain;
    assert rest[|domain| + 1..] == tld;
  }

  /** `re.match` with `$`: the pattern may also end just before a final newline. */
  predicate EmailMatches(s: string) {
    EmailShape(s) || (|s| > 0 && s[|s| - 1] == '\n' && EmailShape(s[..|s| - 1]))
  }

  /** `validate_email`. */
  function Email(value: Json): (r: Result<Json>)
    ensures r.Ok? ==> r.value == value
    ensures r.Ok? <==> value.JStr? && value.s != "" && EmailMatches(value.s)
    ensures !Truthy(value) ==> r == Err("Email is required")
  {
    if !Truthy(value) then Err("Email is required")
    else if !value.JStr? then Err(NotAString(value))
    else if !EmailMatches(value.s) then Err("Invalid email format")
    else Ok(value)
  }

  /** An address followed by a newline is accepted too, newline included. */
  lemma TrailingNewlineAccepted(local: string, domain: string, tld: string)
    requires EmailParts(local, domain, tld)
    ensures Email(JStr(local + "@" + domain + "." + tld + "\n")) == Ok(JStr(local + "@" + domain + "." + tld + "\n"))
  {
    var s := local + "@" + domain + "." + tld;
    EmailPartsShape(local, domain, tld);
    assert (s + "\n")[..|s + "\n"| - 1] == s;
  }

  // ---------------------------------------------------------------------------
  // CNPJ
  // ---------------------------------------------------------------------------

  /** `validate_cnpj`: required, and exactly 14 digits once punctuation is dropped. */
  function Cnpj(value: Json): (r: Result<Json>)
    ensures r.Ok? ==> r.value == value
    ensures r.Ok? <==> value.JStr? && |Digits(value.s)| == 14
    ensures !Truthy(value) ==> r == Err("CNPJ is required")
  {
    if !Truthy(value) then Err("CNPJ is required")
    else if !value.JStr? then Err(NotAString(value))
    else if |Digits(value.s)| != 14 then Err("CNPJ must have 14 digits")
    else Ok(value)
  }

  /** The usual `NN.NNN.NNN/NNNN-NN` spelling is accepted. */
  lemma PunctuatedCnpjAccepted(a: string, b: string, c: string, d: string, e: string)
    requires AllDigits(a) && AllDigits(b) && AllDigits(c) && AllDigits(d) && AllDigits(e)
    requires |a| == 2 && |b| == 3 && |c| == 3 && |d| == 4 && |e| == 2
    ensures Cnpj(JStr(a + "." + b + "." + c + "/" + d + "-" + e)).Ok?
  {
    DigitsConcat(a + "." + b + "." + c + "/" + d + "-", e);
    DigitsConcat(a + "." + b + "." + c + "/" + d, "-");
    DigitsConcat(a + "." + b + "." + c + "/", d);
    DigitsConcat(a + "." + b + "." + c, "/");
    DigitsConcat(a + "." + b + ".", c);
    DigitsConcat(a + "." + b, ".");
    DigitsConcat(a + ".", b);
    DigitsConcat(a, ".");
    DigitsOfNonDigits(".");
    DigitsOfNonDigits("/");
    DigitsOfNonDigits("-");
  }

  // ---------------------------------------------------------------------------
  // Vehicle columns
  // ---------------------------------------------------------------------------

  /** The message of a `TypeError` from comparing a non-number with an `int`. */
  function NotComparable(op: string, left: string, right: string): string {
    "'" + op + "' not supported between instances of '" + left + "' and '" + right + "'"
  }

  /** A Python number: `bool` compares as 0 or 1. */
  function AsNumber(j: Json): Option<int> {
    match j
    case JNum(n) => Some(n)
    case JBool(b) => Some(if b then 1 else 0)
    case _ => None
  }

  /** `validate_year`: `None`, or a year from 1900 to next year. */
  function Year(key: string, value: Json, currentYear: int): (r: Result<Json>)
    ensures r.Ok? ==> r.value == value
    ensures r.Ok? <==> value == JNull || (AsNumber(value).Some? && 1900 <= AsNumber(value).value <= currentYear + 1)
  {
    if value == JNull then Ok(value)
    else match AsNumber(value)
      case None => Err(NotComparable("<=", "int", TypeName(value)))
      case Some(y) =>
        if 1900 <= y <= currentYear + 1 then Ok(value)
        else Err("Invalid " + key + ": must be between 1900 and " + IntToString(currentYear + 1))
  }

  /** `validate_quilometragem`: `None` becomes 0 and a negative number raises. */
  function Km(value: Json): (r: Result<Json>)
    ensures value == JNull ==> r == Ok(JNum(0))
    ensures value != JNull ==> (r.Ok? <==> AsNumber(value).Some? && AsNumber(value).value >= 0)
    ensures value != JNull && r.Ok? ==> r.value == value
  {
    if value == JNull then Ok(JNum(0))
    else match AsNumber(value)
      case None => Err(NotComparable("<", TypeName(value), "int"))
      case Some(n) => if n < 0 then Err("Quilometragem cannot be negative") else Ok(value)
  }

  /** `validate_price`: `None` or a non-negative number. */
  function Price(key: string, value: Json): (r: Result<Json>)
    ensures r.Ok? ==> r.value == value
    ensures r.Ok? <==> value == JNull || (AsNumber(value).Some? && AsNumber(value).value >= 0)
  {
    if value == JNull then Ok(value)
    else match AsNumber(value)
      case None => Err(NotComparable("<", TypeName(value), "int"))
      case Some(n) => if n < 0 then Err(key + " cannot be negative") else Ok(value)
  }

  const Estados: seq<Json> := [JStr("Novo"), JStr("Usado"), JNull]
  const Cambios: seq<Json> := [JStr("Manual"), JStr("Automático"), JNull]
  const Combustiveis: seq<Json> := [JStr("Flex"), JStr("Gasolina"), JStr("Diesel"), JStr("Elétrico"), JStr("Híbrido"), JNull]

  /** `if value not in valid_values: raise ValueError(message)`. */
  function OneOf(value: Json, valid: seq<Json>, message: string): (r: Result<Json>)
    ensures r.Ok? <==> value in valid
    ensures r.Ok? ==> r.value == value
  {
    if value in valid then Ok(value) else Err(message)
  }

  /** The validated vehicle columns, in the order both callers pass them. */
  const VehicleChecks: seq<string> := [
    "ano_fabricacao", "ano_modelo", "quilometragem", "estado", "cambio", "combustivel",
    "preco", "preco_promocional"]

  /** The validator of one vehicle column; other columns are stored as given. */
  function CheckColumn(key: string, value: Json, currentYear: int): (r: Result<Json>)
    ensures key !in VehicleChecks ==> r == Ok(value)
    ensures key == "quilometragem" ==> r == Km(value)
    ensures key in {"ano_fabricacao", "ano_modelo"} ==> r == Year(key, value, currentYear)
    ensures key in {"preco", "preco_promocional"} ==> r == Price(key, value)
  {
    if key == "ano_fabricacao" || key == "ano_modelo" then Year(key, value, currentYear)
    else if key == "quilometragem" then Km(value)
    else if key == "estado" then OneOf(value, Estados, "Estado must be either \"Novo\" or \"Usado\"")
    else if key == "cambio" then OneOf(value, Cambios, "Câmbio must be either \"Manual\" or \"Automático\"")
    else if key == "combustivel" then OneOf(value, Combustiveis, "Invalid combustível value")
    else if key == "preco" || key == "preco_promocional" then Price(key, value)
    else Ok(value)
  }

  /** A validated value passes its validator again unchanged. */
  lemma CheckColumnIdempotent(key: string, value: Json, currentYear: int)
    requires CheckColumn(key, value, currentYear).Ok?
    ensures CheckColumn(key, CheckColumn(key, value, currentYear).value, currentYear) == CheckColumn(key, value, currentYear)
  {
  }

  /** Runs the validators of the given columns that are present, in order; the first
      failure is the constructor's exception. */
  function CheckAll(kwargs: map<string, Json>, keys: seq<string>, currentYear: int): (r: Result<map<string, Json>>)
    ensures r.Ok? ==> r.value.Keys == kwargs.Keys
    ensures r.Ok? ==> forall k :: k in kwargs && k !in keys ==> r.value[k] == kwargs[k]
    decreases |keys|
  {
    if |keys| == 0 then Ok(kwargs)
    else if keys[0] in kwargs then
      var v :- CheckColumn(keys[0], kwargs[keys[0]], currentYear);
      CheckAll(kwargs[keys[0] := v], keys[1..], currentYear)
    else CheckAll(kwargs, keys[1..], currentYear)
  }

  /** After a successful run each checked column holds what its validator returned for
      the given value, and no validator failed. */
  lemma {:induction false} CheckAllColumns(kwargs: map<string, Json>, keys: seq<string>, currentYear: int)
    requires forall i, j :: 0 <= i < j < |keys| ==> keys[i] != keys[j]
    requires CheckAll(kwargs, keys, currentYear).Ok?
    ensures var r := CheckAll(kwargs, keys, currentYear).value;
      forall k :: k in keys && k in kwargs ==> CheckColumn(k, kwargs[k], currentYear) == Ok(r[k])
    decreases |keys|
  {
    if |keys| > 0 {
      var k0 := keys[0];
      var tail := keys[1..];
      Distinct(keys);
      if k0 in kwargs {
        var v := CheckColumn(k0, kwargs[k0], currentYear).value;
        CheckAllColumns(kwargs[k0 := v], tail, currentYear);
      } else {
        CheckAllColumns(kwargs, tail, currentYear);
      }
    }
  }

  lemma Distinct(keys: seq<string>)
    requires |keys| > 0
    requires forall i, j :: 0 <= i < j < |keys| ==> keys[i] != keys[j]
    ensures forall i, j :: 0 <= i < j < |keys[1..]| ==> keys[1..][i] != keys[1..][j]
    ensures keys[0] !in keys[1..]
    ensures forall k :: k in keys <==> k == keys[0] || k in keys[1..]
  {
    var tail := keys[1..];
    forall i, j | 0 <= i < j < |tail|
      ensures tail[i] != tail[j]
    {
      assert tail[i] == keys[i + 1] && tail[j] == keys[j + 1];
    }
    forall i | 0 <= i < |tail|
      ensures tail[i] != keys[0]
    {
      assert tail[i] == keys[i + 1];
    }
    assert keys == [keys[0]] + tail;
  }

  /** Running the validators over their own output changes nothing. */
  lemma {:induction false} CheckAllIdempotent(kwargs: map<string, Json>, keys: seq<string>, currentYear: int)
    requires forall i, j :: 0 <= i < j < |keys| ==> keys[i] != keys[j]
    requires CheckAll(kwargs, keys, currentYear).Ok?
    ensures CheckAll(CheckAll(kwargs, keys, currentYear).value, keys, currentYear) == CheckAll(kwargs, keys, currentYear)
    decreases |keys|
  {
    if |keys| > 0 {
      var k0 := keys[0];
      Distinct(keys);
      var r := CheckAll(kwargs, keys, currentYear).value;
      if k0 in kwargs {
        var v := CheckColumn(k0, kwargs[k0], currentYear).value;
        CheckAllIdempotent(kwargs[k0 := v], keys[1..], currentYear);
        CheckColumnIdempotent(k0, kwargs[k0], currentYear);
        assert r[k0] == v;
        assert r[k0 := v] == r;
      } else {
        CheckAllIdempotent(kwargs, keys[1..], currentYear);
      }
    }
  }

  /** The validators a vehicle constructor runs. */
  function ValidateVehicle(kwargs: map<string, Json>, currentYear: int): (r: Result<map<string, Json>>)
    ensures r.Ok? ==> r.value.Keys == kwargs.Keys
    ensures r.Ok? ==> forall k :: k in kwargs && k !in VehicleChecks ==> r.value[k] == kwargs[k]
  {
    CheckAll(kwargs, VehicleChecks, currentYear)
  }

  lemma VehicleChecksDistinct()
    ensures forall i, j :: 0 <= i < j < |VehicleChecks| ==> VehicleChecks[i] != VehicleChecks[j]
  {
  }

  /** Validating a validated vehicle changes nothing. */
  lemma ValidateVehicleIdempotent(kwargs: map<string, Json>, currentYear: int)
    requires ValidateVehicle(kwargs, currentYear).Ok?
    ensures ValidateVehicle(ValidateVehicle(kwargs, currentYear).value, currentYear) == ValidateVehicle(kwargs, currentYear)
  {
    VehicleChecksDistinct();
    CheckAllIdempotent(kwargs, VehicleChecks, currentYear);
  }

  /** What validation accepts obeys the column rules: mileage is a non-negative number
      (a missing one becomes 0), the state is one of the listed values and the price is
      absent or non-negative. */
  lemma ValidatedVehicleRules(kwargs: map<string, Json>, currentYear: int)
    requires ValidateVehicle(kwargs, currentYear).Ok?
    ensures var r := ValidateVehicle(kwargs, currentYear).value;
      && ("quilometragem" in r ==> AsNumber(r["quilometragem"]).Some? && AsNumber(r["quilometragem"]).value >= 0)
      && ("quilometragem" in r && kwargs["quilometragem"] == JNull ==> r["quilometragem"] == JNum(0))
      && ("estado" in r ==> r["estado"] in Estados)
      && ("preco" in r ==> r["preco"] == JNull || (AsNumber(r["preco"]).Some? && AsNumber(r["preco"]).value >= 0))
  {
    VehicleChecksDistinct();
    CheckAllColumns(kwargs, VehicleChecks, currentYear);
    var r := ValidateVehicle(kwargs, currentYear).value;
    assert "quilometragem" in VehicleChecks && "estado" in VehicleChecks && "preco" in VehicleChecks;
    KmRule(kwargs, r, currentYear);
    EstadoRule(kwargs, r, currentYear);
    PrecoRule(kwargs, r, currentYear);
  }

  lemma KmRule(kwargs: map<string, Json>, r: map<string, Json>, currentYear: int)
    requires r.Keys == kwargs.Keys
    requires "quilometragem" in kwargs ==>
      CheckColumn("quilometragem", kwargs["quilometragem"], currentYear) == Ok(r["quilometragem"])
    ensures "quilometragem" in r ==> AsNumber(r["quilometragem"]).Some? && AsNumber(r["quilometragem"]).value >= 0
    ensures "quilometragem" in r && kwargs["quilometragem"] == JNull ==> r["quilometragem"] == JNum(0)
  {
  }

  lemma EstadoRule(kwargs: map<string, Json>, r: map<string, Json>, currentYear: int)
    requires r.Keys == kwargs.Keys
    requires "estado" in kwargs ==> CheckColumn("estado", kwargs["estado"], currentYear) == Ok(r["estado"])
    ensures "estado" in r ==> r["estado"] in Estados
  {
  }

  lemma PrecoRule(kwargs: map<string, Json>, r: map<string, Json>, currentYear: int)
    requires r.Keys == kwargs.Keys
    requires "preco" in kwargs ==> CheckColumn("preco", kwargs["preco"], currentYear) == Ok(r["preco"])
    ensures "preco" in r ==> r["preco"] == JNull || (AsNumber(r["preco"]).Some? && AsNumber(r["preco"]).value >= 0)
  {
  }

  /** The contact validators a dealership constructor runs, in argument order. */
  const DealershipChecks: seq<string> := ["whatsapp_number", "email", "cnpj", "phone"]

  function CheckContact(key: string, value: Json): (r: Result<Json>)
    ensures r.Ok? ==> r.value == value
  {
    if key == "whatsapp_number" || key == "phone" then Phone(key, value)
    else if key == "email" then Email(value)
    else if key == "cnpj" then Cnpj(value)
    else Ok(value)
  }

  /** `Dealership(...)`: the validated columns present, in order; values are unchanged. */
  function ValidateDealership(kwargs: map<string, Json>): (r: Result<map<string, Json>>)
    ensures r.Ok? ==> r.value == kwargs
    ensures r.Ok? ==> forall k :: k in kwargs && k in DealershipChecks ==> CheckContact(k, kwargs[k]).Ok?
    ensures (forall k :: k in kwargs && k in DealershipChecks ==> CheckContact(k, kwargs[k]).Ok?) ==> r.Ok?
  {
    ContactsFrom(kwargs, DealershipChecks)
  }

  function ContactsFrom(kwargs: map<string, Json>, keys: seq<string>): (r: Result<map<string, Json>>)
    ensures r.Ok? <==> forall k :: k in kwargs && k in keys ==> CheckContact(k, kwargs[k]).Ok?
    ensures r.Ok? ==> r.value == kwargs
    decreases |keys|
  {
    if |keys| == 0 then Ok(kwargs)
    else
      var rest := ContactsFrom(kwargs, keys[1..]);
      assert forall k :: k in keys <==> k == keys[0] || k in keys[1..];
      if keys[0] in kwargs then
        var v :- CheckContact(keys[0], kwargs[keys[0]]);
        rest
      else rest
  }
}

=== FILE: webhook_route.dfy ===
/** The `/webhook` route of backend/src/routes/whatsapp.py: the GET verification handshake
    Meta performs when the webhook is registered, and the POST that hands the payload to
    the live handler. The configured token is a parameter (it comes from the environment). */
module WebhookRoute {
  import opened Wrappers
  import opened Json
  import opened Records
  import opened Assistant
  import opened WhatsAppService

  /** The query arguments of the handshake; each may be missing. */
  datatype Handshake = Handshake(mode: Option<string>, token: Option<string>, challenge: Option<string>)

  datatype Request = Get(args: Handshake) | Post(data: Json)

  /** A plain-text answer, or the live handler's outcome. */
  datatype Answer = Text(status: int, body: string) | Handled(outcome: Outcome)

  const Mismatch := Text(403, "Verification token mismatch")

  /** `mode == 'subscribe' and token == verify_token`. Two missing values compare equal. */
  predicate Verified(h: Handshake, configured: Option<string>) {
    h.mode == Some("subscribe") && h.token == configured
  }

  /** `webhook()`. A verified handshake echoes the challenge with 200; with no challenge
      the view returns `None` as its body, which Flask refuses with a 500. */
  function Webhook(db: Db, req: Request, configured: Option<string>, o: Oracles): (r: Answer)
    ensures req.Post? ==> r == Handled(Handle(db, req.data, o))
    ensures req.Get? ==> r.Text?
    ensures req.Get? && !Verified(req.args, configured) ==> r == Mismatch
    ensures req.Get? ==> (r.status == 200 <==> Verified(req.args, configured) && req.args.challenge.Some?)
    ensures req.Get? && r.status == 200 ==> r.body == req.args.challenge.value
  {
    match req
    case Post(data) => Handled(Handle(db, data, o))
    case Get(h) =>
      if Verified(h, configured) then
        if h.challenge.Some? then Text(200, h.challenge.value) else Text(500, "Internal Server Error")
      else Mismatch
  }

  /** With no token configured, a handshake that sends no token passes. */
  lemma UnsetTokenAccepted(db: Db, challenge: string, o: Oracles)
    ensures Webhook(db, Get(Handshake(Some("subscribe"), None, Some(challenge))), None, o) == Text(200, challenge)
  {
  }

  /** A wrong mode is refused even with the right token. */
  lemma ModeMustBeSubscribe(db: Db, mode: string, token: string, challenge: string, o: Oracles)
    requires mode != "subscribe"
    ensures Webhook(db, Get(Handshake(Some(mode), Some(token), Some(challenge))), Some(token), o) == Mismatch
  {
  }
}

=== FILE: whatsapp_api.dfy ===
/** `send_whatsapp_message` (backend/src/integrations/whatsapp_api.py) up to the HTTP call:
    the recipient number is normalised and one of three payload shapes is chosen. */
module WhatsAppApi {
  import opened Wrappers
  import opened Text
  import opened Json

  /** The arguments of a send: the text, an optional image URL and optional buttons. */
  datatype Message = Message(text: string, image: Option<string>, buttons: seq<Json>)

  function TextOnly(text: string): Message {
    Message(text, None, [])
  }

  /** `to_number.replace('whatsapp:', '').replace('+', '').strip()`. */
  function NormaliseNumber(n: string): (r: string)
    ensures '+' !in r && Trimmed(r)
  {
    var r := RemoveChar(RemoveAll(n, "whatsapp:"), '+');
    StripKeepsAbsent(r, '+');
    Strip(r)
  }

  /** A string without the first character of `p` does not contain `p`. */
  lemma LacksHead(s: string, p: string)
    requires |p| > 0 && p[0] !in s
    ensures !Contains(s, p)
  {
    forall k | 0 <= k <= |s|
      ensures !StartsWith(s[k..], p)
    {
      if k < |s| {
        assert s[k..][0] == s[k];
      }
    }
  }

  lemma DigitsLackPrefix(d: string)
    requires AllDigits(d)
    ensures 'w' !in d && '+' !in d
  {
  }

  /** A bare digit string is already normalised. */
  lemma NormaliseDigits(d: string)
    requires AllDigits(d)
    ensures NormaliseNumber(d) == d
  {
    DigitsLackPrefix(d);
    LacksHead(d, "whatsapp:");
    RemoveAllAbsent(d, "whatsapp:");
    RemoveCharAbsent(d, '+');
    StripNoop(d);
  }

  /** A `whatsapp:+<digits>` sender address normalises to its digits. */
  lemma NormalisePrefixed(d: string)
    requires AllDigits(d)
    ensures NormaliseNumber("whatsapp:+" + d) == d
  {
    var t := "+" + d;
    assert "whatsapp:+" + d == "whatsapp:" + t;
    DigitsLackPrefix(d);
    assert 'w' !in t;
    LacksHead(t, "whatsapp:");
    RemoveAllPrefix("whatsapp:", t);
    RemoveCharConcat("+", d, '+');
    RemoveCharAbsent(d, '+');
    assert RemoveChar("+", '+') == "";
    NormaliseDigits(d);
  }

  /** Python truthiness of `image_url`. */
  predicate HasImage(m: Message) {
    m.image.Some? && m.image.value != ""
  }

  /** The payload shape: buttons over an image over plain text. */
  function Kind(m: Message): (r: string)
    ensures r in {"interactive", "image", "text"}
    ensures r == "interactive" <==> |m.buttons| > 0
    ensures r == "image" <==> |m.buttons| == 0 && HasImage(m)
  {
    if |m.buttons| > 0 then "interactive" else if HasImage(m) then "image" else "text"
  }

  /** The JSON body posted to the Graph API for a normalised recipient. */
  function Payload(to: string, m: Message): (r: map<string, Json>)
    ensures r.Keys == {"messaging_product", "recipient_type", "to", "type", Kind(m)}
    ensures r["messaging_product"] == JStr("whatsapp")
    ensures r["recipient_type"] == JStr("individual")
    ensures r["to"] == JStr(to)
    ensures r["type"] == JStr(Kind(m))
  {
    var base := map["messaging_product" := JStr("whatsapp"), "recipient_type" := JStr("individual"), "to" := JStr(to)];
    if |m.buttons| > 0 then
      base["type" := JStr("interactive")]["interactive" := JObj(map[
        "type" := JStr("button"),
        "body" := Obj1("text", JStr(m.text)),
        "action" := Obj1("buttons", JArr(m.buttons))])]
    else if HasImage(m) then
      base["type" := JStr("image")]["image" := JObj(map["link" := JStr(m.image.value), "caption" := JStr(m.text)])]
    else
      base["type" := JStr("text")]["text" := Obj1("body", JStr(m.text))]
  }

  /** `send_whatsapp_message(to_number, ...)` up to the POST: raises when the number is not
      a string. */
  function Send(to: Json, m: Message): (r: Result<map<string, Json>>)
    ensures r.Ok? <==> to.JStr?
    ensures r.Ok? ==> r.value == Payload(NormaliseNumber(to.s), m)
  {
    match AsStr(to, "replace")
    case Ok(n) => Ok(Payload(NormaliseNumber(n), m))
    case Err(e) => Err(e)
  }

  // ---------------------------------------------------------------------------
  // Reading a payload back
  // ---------------------------------------------------------------------------

  function Field(j: Json, k: string): Option<Json> {
    if j.JObj? && k in j.fields then Some(j.fields[k]) else None
  }

  function StrField(j: Json, k: string): Option<string> {
    var f := Field(j, k);
    if f.Some? && f.value.JStr? then Some(f.value.s) else None
  }

  /** What a recipient receives from a payload: the text, the image, the buttons. */
  function Received(p: map<string, Json>): Option<Message> {
    if "type" !in p then None
    else if p["type"] == JStr("interactive") && "interactive" in p then
      var body := Field(p["interactive"], "body");
      var action := Field(p["interactive"], "action");
      if body.None? || action.None? then None
      else
        var text := StrField(body.value, "text");
        var buttons := Field(action.value, "buttons");
        if text.Some? && buttons.Some? && buttons.value.JArr? then Some(Message(text.value, None, buttons.value.items))
        else None
    else if p["type"] == JStr("image") && "image" in p then
      var link := StrField(p["image"], "link");
      var caption := StrField(p["image"], "caption");
      if link.Some? && caption.Some? then Some(Message(caption.value, Some(link.value), [])) else None
    else if p["type"] == JStr("text") && "text" in p then
      var body := StrField(p["text"], "body");
      if body.Some? then Some(TextOnly(body.value)) else None
    else None
  }

  /** What survives the shape selection: buttons win over an image, and a falsy image is dropped. */
  function Effective(m: Message): (r: Message)
    ensures r.text == m.text && r.buttons == m.buttons
    ensures r.image.Some? <==> |m.buttons| == 0 && HasImage(m)
  {
    if |m.buttons| == 0 && HasImage(m) then m else m.(image := None)
  }

  /** The payload carries the message: reading it back gives the text, the buttons, and
      the image unless buttons were sent. */
  lemma ReceivedPayload(to: string, m: Message)
    ensures Received(Payload(to, m)) == Some(Effective(m))
  {
  }
}

=== FILE: whatsapp_service.dfy ===
/** `handle_whatsapp_webhook` (backend/src/services/whatsapp_service.py): the live webhook.
    An inbound event becomes a command; button ids carry the vehicle model in their text,
    so the conversation needs no session store. The database is a snapshot, the
    assistant's collaborators are parameters, and the outcome is the HTTP answer together
    with the payloads posted to WhatsApp, in order. */
module WhatsAppService {
  import opened Wrappers
  import opened Text
  import opened Json
  import opened Like
  import opened Seqs
  import opened Records
  import opened Formatter
  import opened Assistant
  import opened WhatsAppApi
  import opened Http
  import opened Inbound

  // ---------------------------------------------------------------------------
  // Button ids
  // ---------------------------------------------------------------------------

  const DetailPrefix := "quero_saber_mais_"
  const GalleryPrefix := "ver_mais_fotos_"
  const DeclineId := "nao_obrigado"

  /** What the user asked for: a button with a model in its id, the decline button, or
      a free text (a typed message, a list choice or an unknown button's title). */
  datatype Command = Detail(modelo: string) | Gallery(modelo: string) | Decline | Ask(text: string)

  /** `button_id.replace(prefix, '').replace('*', '').strip()`. */
  function DecodeModel(id: string, prefix: string): (r: string)
    requires |prefix| > 0
    ensures '*' !in r && Trimmed(r)
  {
    var s := RemoveChar(RemoveAll(id, prefix), '*');
    StripKeepsAbsent(s, '*');
    Strip(s)
  }

  /** The three `if`/`elif` tests on a button id, in source order. */
  function ClassifyButton(id: string, title: string): (r: Command)
    ensures r.Detail? <==> StartsWith(id, DetailPrefix)
    ensures r.Gallery? <==> !StartsWith(id, DetailPrefix) && StartsWith(id, GalleryPrefix)
    ensures r.Decline? <==> id == DeclineId
    ensures r.Ask? ==> r.text == title
  {
    if StartsWith(id, DetailPrefix) then Detail(DecodeModel(id, DetailPrefix))
    else if StartsWith(id, GalleryPrefix) then Gallery(DecodeModel(id, GalleryPrefix))
    else if id == DeclineId then Decline
    else Ask(title)
  }

  /** A quick-reply button, `{"type": "reply", "reply": {"id": id, "title": title}}`. */
  function ReplyButton(id: string, title: string): (r: Json)
    ensures r.JObj? && Get(r.fields, "reply").JObj?
    ensures Get(Get(r.fields, "reply").fields, "id") == JStr(id)
  {
    JObj(map["type" := JStr("reply"), "reply" := JObj(map["id" := JStr(id), "title" := JStr(title)])])
  }

  /** The id a recipient's click sends back. */
  function ClickedId(button: Json): Option<string> {
    var reply := Field(button, "reply");
    if reply.Some? then StrField(reply.value, "id") else None
  }

  /** The buttons under a search result, built from the lower-cased second word of its text. */
  function SearchButtons(token: string): (r: seq<Json>)
    ensures |r| == 3
    ensures ClickedId(r[0]) == Some(DetailPrefix + token)
    ensures ClickedId(r[1]) == Some(GalleryPrefix + token)
    ensures ClickedId(r[2]) == Some(DeclineId)
  {
    [ReplyButton(DetailPrefix + token, "Quero saber mais"),
     ReplyButton(GalleryPrefix + token, "Ver mais fotos"),
     ReplyButton(DeclineId, "Não, obrigado")]
  }

  /** The buttons under a vehicle's details. */
  function FollowUpButtons(token: string): (r: seq<Json>)
    ensures |r| == 2
    ensures ClickedId(r[0]) == Some(GalleryPrefix + token)
    ensures ClickedId(r[1]) == Some(DeclineId)
  {
    [ReplyButton(GalleryPrefix + token, "Ver mais fotos"),
     ReplyButton(DeclineId, "Não, obrigado")]
  }

  /** An id built from a single word that does not contain the prefix decodes back to
      that word without its `*` characters. */
  lemma DecodeEncoded(prefix: string, token: string)
    requires |prefix| > 0 && NoSpace(token) && !Contains(token, prefix)
    ensures DecodeModel(prefix + token, prefix) == RemoveChar(token, '*')
  {
    RemoveAllPrefix(prefix, token);
    var s := RemoveChar(token, '*');
    assert NoSpace(s) by {
      forall k | 0 <= k < |s|
        ensures !IsSpace(s[k])
      {
        assert s[k] in s;
      }
    }
    StripNoop(s);
  }

  /** A word without `_` never contains either prefix, so its ids decode to the word. */
  lemma DecodeWord(token: string)
    requires NoSpace(token) && '_' !in token && '*' !in token
    ensures DecodeModel(DetailPrefix + token, DetailPrefix) == token
    ensures DecodeModel(GalleryPrefix + token, GalleryPrefix) == token
  {
    LacksChar(token, DetailPrefix, '_');
    LacksChar(token, GalleryPrefix, '_');
    DecodeEncoded(DetailPrefix, token);
    DecodeEncoded(GalleryPrefix, token);
    RemoveCharAbsent(token, '*');
  }

  /** Clicking any of the built buttons routes back to the matching branch. */
  lemma ClickRoutes(token: string, title: string)
    ensures ClassifyButton(DetailPrefix + token, title).Detail?
    ensures ClassifyButton(GalleryPrefix + token, title).Gallery?
    ensures ClassifyButton(DeclineId, title) == Decline
  {
    ConcatEnds(DetailPrefix, token);
    ConcatEnds(GalleryPrefix, token);
    assert !StartsWith(GalleryPrefix + token, DetailPrefix) by {
      assert (GalleryPrefix + token)[0] == 'v';
    }
  }

  // ---------------------------------------------------------------------------
  // Reading the inbound message
  // ---------------------------------------------------------------------------

  /** The sender as it was sent (a number is only normalised when a reply is posted) and
      the command. */
  datatype Event = Event(sender: Json, command: Command)

  /** The normalisation at the top of the handler: `message['from']` first, then the
      message type; a missing key or a non-string where a string method is called is
      an `Err` carrying the exception text. */
  function ReadEvent(message: Json): (r: Result<Event>)
    ensures r.Ok? ==> message.JObj? && "from" in message.fields && r.value.sender == message.fields["from"]
    ensures r.Ok? && !r.value.command.Ask? ==> Get(message.fields, "type") == JStr("interactive")
    ensures r.Ok? && r.value.command.Ask? ==> NoUpper(r.value.command.text) && Trimmed(r.value.command.text)
    ensures message.JObj? && "from" in message.fields
      && Get(message.fields, "type") !in {JStr("interactive"), JStr("text")}
      ==> r == Ok(Event(message.fields["from"], Ask("")))
  {
    var sender :- Index(message, "from");
    var kind := Get(message.fields, "type");
    if kind == JStr("interactive") then
      var interactive :- Index(message, "interactive");
      var sub :- GetOr(interactive, "type", JNull);
      if sub == JStr("button_reply") then
        var reply :- Index(interactive, "button_reply");
        var id :- Index(reply, "id");
        var title :- Index(reply, "title");
        var t :- AsStr(title, "strip");
        var i :- AsStr(id, "startswith");
        LowerKeepsTrimmed(Strip(t));
        Ok(Event(sender, ClassifyButton(i, Lower(Strip(t)))))
      else if sub == JStr("list_reply") then
        var reply :- Index(interactive, "list_reply");
        var title :- Index(reply, "title");
        var t :- AsStr(title, "strip");
        LowerKeepsTrimmed(Strip(t));
        Ok(Event(sender, Ask(Lower(Strip(t)))))
      else Ok(Event(sender, Ask("")))
    else if kind == JStr("text") then
      var text :- Index(message, "text");
      var body :- Index(text, "body");
      var b :- AsStr(body, "strip");
      LowerKeepsTrimmed(Strip(b));
      Ok(Event(sender, Ask(Lower(Strip(b)))))
    else Ok(Event(sender, Ask("")))
  }

  function TextMessage(sender: string, body: string): Json {
    JObj(map["from" := JStr(sender), "type" := JStr("text"), "text" := Obj1("body", JStr(body))])
  }

  function Interactive(sender: string, kind: string, reply: Json): Json {
    JObj(map["from" := JStr(sender), "type" := JStr("interactive"),
             "interactive" := JObj(map[kind := reply]["type" := JStr(kind)])])
  }

  function ButtonMessage(sender: string, id: string, title: string): Json {
    Interactive(sender, "button_reply", JObj(map["id" := JStr(id), "title" := JStr(title)]))
  }

  function ListMessage(sender: string, title: string): Json {
    Interactive(sender, "list_reply", JObj(map["id" := JStr("x"), "title" := JStr(title)]))
  }

  /** A typed message is its body, stripped and lower-cased. */
  lemma ReadText(sender: string, body: string)
    ensures ReadEvent(TextMessage(sender, body)) == Ok(Event(JStr(sender), Ask(Lower(Strip(body)))))
  {
  }

  /** A button click is classified by its id; an unknown id falls back to the title. */
  lemma ReadButton(sender: string, id: string, title: string)
    ensures ReadEvent(ButtonMessage(sender, id, title)) == Ok(Event(JStr(sender), ClassifyButton(id, Lower(Strip(title)))))
  {
    var m := ButtonMessage(sender, id, title);
    assert Index(m, "interactive").Ok?;
  }

  /** A list choice is its title, stripped and lower-cased. */
  lemma ReadList(sender: string, title: string)
    ensures ReadEvent(ListMessage(sender, title)) == Ok(Event(JStr(sender), Ask(Lower(Strip(title)))))
  {
    var m := ListMessage(sender, title);
    assert Index(m, "interactive").Ok?;
  }

  /** Any other interactive subtype is an empty question. */
  lemma ReadOtherInteractive(sender: string, kind: string, reply: Json)
    requires kind != "button_reply" && kind != "list_reply"
    ensures ReadEvent(Interactive(sender, kind, reply)) == Ok(Event(JStr(sender), Ask("")))
  {
    var m := Interactive(sender, kind, reply);
    assert Index(m, "interactive").Ok?;
  }

  // ---------------------------------------------------------------------------
  // Fixed texts
  // ---------------------------------------------------------------------------

  const DetailErrorText := "Desculpe, houve um erro ao buscar as informações. Tente novamente mais tarde."
  const GalleryErrorText := "Desculpe, houve um erro ao buscar as fotos. Tente novamente mais tarde."
  const NoMorePhotosText := "Não há mais fotos disponíveis para este veículo."
  const PhotoIntroText := "Aqui está uma foto do veículo:"
  const FollowUpText := "O que deseja fazer agora?"
  const DeclineText := "Entendi! Se precisar de mais informações sobre nossos veículos, é só me chamar. Estou à disposição para ajudar você a encontrar o carro ideal! 😊"

  function NotFoundText(modelo: string): (r: string)
    ensures Contains(r, modelo)
  {
    Framed("Desculpe, não encontrei informações detalhadas sobre o ", modelo, ". Posso te ajudar com outro modelo?")
  }

  // ---------------------------------------------------------------------------
  // Detail and gallery branches
  // ---------------------------------------------------------------------------

  /** The lookup both button branches run: `Vehicle.modelo.ilike(f"%{modelo}%")` among the
      unsold vehicles of the dealership, first in store order. */
  predicate ModelMatch(v: Vehicle, dealershipId: int, modelo: string) {
    v.dealershipId == dealershipId && ILike(v.modelo, "%" + modelo + "%") && !v.vendido
  }

  function FindModel(db: Db, dealershipId: int, modelo: string): (r: Option<Vehicle>)
    ensures r.Some? ==> r.value in db.vehicles && ModelMatch(r.value, dealershipId, modelo)
    ensures r.None? <==> forall i :: 0 <= i < |db.vehicles| ==> !ModelMatch(db.vehicles[i], dealershipId, modelo)
  {
    First(db.vehicles, (v: Vehicle) => ModelMatch(v, dealershipId, modelo))
  }

  /** The decoded model finds every unsold vehicle whose model is that word. */
  lemma FindModelOfOwnName(db: Db, v: Vehicle)
    requires v in db.vehicles && !v.vendido && NoWildcards(v.modelo)
    ensures ModelMatch(v, v.dealershipId, Lower(v.modelo))
    ensures FindModel(db, v.dealershipId, Lower(v.modelo)).Some?
  {
    LowerKeepsNoWildcards(v.modelo);
    ILikeInfix(v.modelo, Lower(v.modelo));
    LowerIdempotent(v.modelo);
    ContainsSelf(Lower(v.modelo));
  }

  /** `Itens de Série`: `itens_opcionais.replace(';', '\n• ')`, or "Não informado". */
  function SeriesItems(itens: Option<string>): (r: string)
    ensures ';' !in r
    ensures itens.None? || itens.value == "" ==> r == "Não informado"
    ensures itens.Some? && ';' !in itens.value && itens.value != "" ==> r == itens.value
  {
    if itens.Some? && itens.value != "" then ReplaceChar(itens.value, ';', "\n• ") else "Não informado"
  }

  /** Everything of the detail text after the bold header. */
  function DetailBody(v: Vehicle): string
    requires Formattable(v)
  {
    "\n\nCaracterísticas Técnicas:\n"
    + "• Motor: " + ShowText(v.motor) + "\n"
    + "• Câmbio: " + ShowText(v.cambio) + "\n"
    + "• Combustível: " + ShowText(v.combustivel) + "\n"
    + "• Quilometragem: " + Grouped(v.quilometragem.value) + " km\n\n"
    + "Itens de Série:\n"
    + "• " + SeriesItems(v.itensOpcionais) + "\n\n"
    + "Preço: R$ " + Price(v.preco.value) + "\n\n"
    + "Gostaria de:\n"
    + "• Ver mais fotos?"
  }

  /** The detail message: the same bold header as the search reply, then the details. */
  function DetailText(v: Vehicle): (r: string)
    requires Formattable(v)
    ensures StartsWith(r, Header(v))
    ensures EndsWith(r, DetailBody(v))
  {
    ConcatEnds(Header(v), DetailBody(v));
    Header(v) + DetailBody(v)
  }

  /** The messages of the detail branch, in order. */
  function DetailMessages(db: Db, modelo: string): (r: Result<seq<Message>>)
    ensures r.Ok? ==> |r.value| >= 1
    ensures FirstDealership(db).None? ==> r == Ok([TextOnly(DetailErrorText)])
    ensures FirstDealership(db).Some? && FindModel(db, FirstDealership(db).value.id, modelo).None?
      ==> r == Ok([TextOnly(NotFoundText(modelo))])
    ensures FirstDealership(db).Some? && FindModel(db, FirstDealership(db).value.id, modelo).Some? ==>
      r == VehicleDetail(FindModel(db, FirstDealership(db).value.id, modelo).value)
  {
    match FirstDealership(db)
    case None => Ok([TextOnly(DetailErrorText)])
    case Some(d) =>
      match FindModel(db, d.id, modelo)
      case None => Ok([TextOnly(NotFoundText(modelo))])
      case Some(v) => VehicleDetail(v)
  }

  /** The detail messages for the vehicle found: its details, its first photo if any, and
      the follow-up buttons. Formatting a vehicle without price or mileage raises. */
  function VehicleDetail(v: Vehicle): (r: Result<seq<Message>>)
    ensures r.Err? <==> !Formattable(v)
    ensures r.Ok? ==>
      && |r.value| == (if FirstPhoto(v.linkFotos).Some? then 3 else 2)
      && r.value[0] == TextOnly(DetailText(v))
      && (FirstPhoto(v.linkFotos).Some? ==> r.value[1] == Message(PhotoIntroText, FirstPhoto(v.linkFotos), []))
      && r.value[|r.value| - 1] == Message(FollowUpText, None, FollowUpButtons(Lower(v.modelo)))
  {
    if !Formattable(v) then Err(NoneFormatError)
    else
      var photo := FirstPhoto(v.linkFotos);
      var intro := if photo.Some? then [Message(PhotoIntroText, photo, [])] else [];
      Ok([TextOnly(DetailText(v))] + intro + [Message(FollowUpText, None, FollowUpButtons(Lower(v.modelo)))])
  }

  /** `f"Foto {idx+1} do {veiculo.modelo}"`. */
  function PhotoCaption(i: nat, modelo: string): (r: string)
    ensures EndsWith(r, modelo)
  {
    var pre := "Foto " + NatToString(i + 1) + " do ";
    ConcatEnds(pre, modelo);
    pre + modelo
  }

  /** The messages of the gallery branch, in order. */
  function GalleryMessages(db: Db, modelo: string): (r: seq<Message>)
    ensures |r| >= 1
    ensures FirstDealership(db).None? ==> r == [TextOnly(GalleryErrorText)]
    ensures FirstDealership(db).Some? ==>
      var found := FindModel(db, FirstDealership(db).value.id, modelo);
      && (found.None? || Photos(found.value.linkFotos) == [] ==> r == [TextOnly(NoMorePhotosText)])
      && (found.Some? && Photos(found.value.linkFotos) != [] ==>
        var ps := Photos(found.value.linkFotos);
        && |r| == |ps|
        && forall i :: 0 <= i < |ps| ==> r[i] == Message(PhotoCaption(i, found.value.modelo), Some(ps[i]), []))
  {
    match FirstDealership(db)
    case None => [TextOnly(GalleryErrorText)]
    case Some(d) =>
      var found := FindModel(db, d.id, modelo);
      if found.Some? && found.value.linkFotos.Some? && found.value.linkFotos.value != "" then
        var ps := Photos(found.value.linkFotos);
        if |ps| > 0 then
          seq(|ps|, i requires 0 <= i < |ps| => Message(PhotoCaption(i, found.value.modelo), Some(ps[i]), []))
        else [TextOnly(NoMorePhotosText)]
      else
        assert found.Some? ==> Photos(found.value.linkFotos) == [] by {
          if found.Some? {
            assert Split("", ';') == [""];
          }
        }
        [TextOnly(NoMorePhotosText)]
  }

  /** Every gallery photo reaches the recipient as an image with its caption, in order. */
  lemma GalleryDelivers(db: Db, modelo: string, to: string, i: nat)
    requires FirstDealership(db).Some?
    requires FindModel(db, FirstDealership(db).value.id, modelo).Some?
    requires i < |Photos(FindModel(db, FirstDealership(db).value.id, modelo).value.linkFotos)|
    ensures
      var v := FindModel(db, FirstDealership(db).value.id, modelo).value;
      Received(Payload(to, GalleryMessages(db, modelo)[i]))
        == Some(Message(PhotoCaption(i, v.modelo), Some(Photos(v.linkFotos)[i]), []))
  {
    var v := FindModel(db, FirstDealership(db).value.id, modelo).value;
    var m := GalleryMessages(db, modelo)[i];
    ReceivedPayload(to, m);
    assert HasImage(m);
  }

  // ---------------------------------------------------------------------------
  // The assistant path
  // ---------------------------------------------------------------------------

  /** What is sent for the assistant's replies: only the first one, with the three buttons
      unless it is the no-match notice. `split()[1]` raises when the text has one word. */
  function AskMessages(replies: seq<Reply>): (r: Result<seq<Message>>)
    requires |replies| >= 1
    ensures r.Err? <==> !StartsWith(replies[0].text, Sad) && |Words(replies[0].text)| < 2
    ensures r.Ok? ==> |r.value| == 1 && r.value[0].text == replies[0].text && r.value[0].image.None?
    ensures r.Ok? ==> (|r.value[0].buttons| == 3 <==> !StartsWith(replies[0].text, Sad))
    ensures r.Ok? ==> (r.value[0].buttons == [] <==> StartsWith(replies[0].text, Sad))
    ensures r.Ok? && r.value[0].buttons != [] ==> r.value[0].buttons == SearchButtons(Lower(Words(replies[0].text)[1]))
  {
    var first := replies[0];
    if !StartsWith(first.text, Sad) then
      var ws := Words(first.text);
      if |ws| < 2 then Err("list index out of range")
      else Ok([Message(first.text, None, SearchButtons(Lower(ws[1])))])
    else Ok([TextOnly(first.text)])
  }

  /** A search reply for a vehicle whose brand and model are single words carries the
      buttons for that model, lower-cased. */
  lemma VehicleReplyButtons(v: Vehicle, image: Option<string>, rest: seq<Reply>)
    requires Formattable(v)
    requires NoSpace(v.marca) && |v.modelo| > 0 && NoSpace(v.modelo)
    ensures AskMessages([Reply(VehicleText(v), image)] + rest)
      == Ok([Message(VehicleText(v), None, SearchButtons(Lower(v.modelo)))])
  {
    VehicleTextNotSad(v);
    ModeloIsSecondWord(v);
  }

  /** The no-match notice goes out as plain text. */
  lemma NoMatchHasNoButtons()
    ensures AskMessages([Reply(NoMatchText, None)]) == Ok([TextOnly(NoMatchText)])
  {
    NoMatchIsSad();
  }

  /** The round trip the button ids exist for: clicking "Quero saber mais" under a search
      reply for `v` opens the detail branch for `v`'s model, and that lookup finds a
      vehicle (`v` itself or an earlier match). */
  lemma DetailRoundTrip(db: Db, v: Vehicle, title: string)
    requires v in db.vehicles && !v.vendido && Formattable(v)
    requires NoSpace(v.marca) && |v.modelo| > 0 && NoSpace(v.modelo)
    requires NoWildcards(v.modelo) && '*' !in v.modelo
    ensures
      var buttons := SearchButtons(Lower(v.modelo));
      && ClassifyButton(ClickedId(buttons[0]).value, title) == Detail(Lower(v.modelo))
      && ClassifyButton(ClickedId(buttons[1]).value, title) == Gallery(Lower(v.modelo))
      && FindModel(db, v.dealershipId, Lower(v.modelo)).Some?
  {
    var token := Lower(v.modelo);
    LowerNoSpace(v.modelo);
    LowerKeepsAbsent(v.modelo, '_');
    LowerKeepsAbsent(v.modelo, '*');
    DecodeWord(token);
    ClickRoutes(token, title);
    FindModelOfOwnName(db, v);
  }

  // ---------------------------------------------------------------------------
  // The handler
  // ---------------------------------------------------------------------------

  /** What the command asks to send, or that there is no dealership to ask about. */
  datatype Plan = NoDealership | Deliver(messages: seq<Message>)

  function PlanFor(db: Db, command: Command, o: Oracles): (r: Result<Plan>)
    ensures r.Ok? && r.value.Deliver? ==> |r.value.messages| >= 1
    ensures command == Decline ==> r == Ok(Deliver([TextOnly(DeclineText)]))
    ensures command.Gallery? ==> r == Ok(Deliver(GalleryMessages(db, command.modelo)))
    ensures command.Detail? ==>
      (r.Ok? <==> DetailMessages(db, command.modelo).Ok?)
      && (r.Ok? ==> r == Ok(Deliver(DetailMessages(db, command.modelo).value)))
    ensures command.Ask? && FirstDealership(db).None? ==> r == Ok(NoDealership)
    ensures command.Ask? && FirstDealership(db).Some? ==>
      var replies := ProcessMessage(db, FirstDealership(db).value.id, command.text, o);
      (r.Ok? <==> AskMessages(replies).Ok?) && (r.Ok? ==> r == Ok(Deliver(AskMessages(replies).value)))
  {
    match command
    case Detail(modelo) =>
      var ms :- DetailMessages(db, modelo);
      Ok(Deliver(ms))
    case Gallery(modelo) => Ok(Deliver(GalleryMessages(db, modelo)))
    case Decline => Ok(Deliver([TextOnly(DeclineText)]))
    case Ask(text) =>
      match FirstDealership(db)
      case None => Ok(NoDealership)
      case Some(d) =>
        var ms :- AskMessages(ProcessMessage(db, d.id, text, o));
        Ok(Deliver(ms))
  }

  /** `send_whatsapp_message` for each message in order. Every send goes to the same
      sender, so either all of them are posted or the first one raises. */
  function SendAll(to: Json, ms: seq<Message>): (r: Result<seq<map<string, Json>>>)
    requires |ms| >= 1
    ensures r.Ok? <==> to.JStr?
    ensures r.Ok? ==> |r.value| == |ms| && forall i :: 0 <= i < |ms| ==> r.value[i] == Payload(NormaliseNumber(to.s), ms[i])
  {
    var n :- AsStr(to, "replace");
    Ok(seq(|ms|, i requires 0 <= i < |ms| => Payload(NormaliseNumber(n), ms[i])))
  }

  /** The HTTP answer and the payloads posted before it. */
  datatype Outcome = Outcome(response: Response, sent: seq<map<string, Json>>)

  /** `jsonify({'status': 'ignored'}), 200` and `jsonify({'status': 'ok'}), 200`. */
  const Ignored := Response(200, Obj1("status", JStr("ignored")))
  const Done := Response(200, Obj1("status", JStr("ok")))
  const DealershipNotFound := ErrorResponse(404, "Dealership not found")

  /** `handle_whatsapp_webhook(request)`: any exception is a 500 carrying its text. */
  function Handle(db: Db, data: Json, o: Oracles): (r: Outcome)
    ensures r.response.status in {200, 400, 404, 500}
    ensures r.sent != [] ==> r.response == Done
    ensures r.response.status == 404 ==> r.response == DealershipNotFound && r.sent == []
    ensures Unwrap(data, Ignored).Ok? && Unwrap(data, Ignored).value.Stop? ==>
      r == Outcome(Unwrap(data, Ignored).value.response, [])
    ensures r.sent != [] ==>
      && Unwrap(data, Ignored).Ok? && Unwrap(data, Ignored).value.Continue?
      && r == Proceed(db, Unwrap(data, Ignored).value.message, o)
  {
    match Unwrap(data, Ignored)
    case Err(e) => Outcome(ErrorResponse(500, e), [])
    case Ok(Stop(response)) => Outcome(response, [])
    case Ok(Continue(message)) => Proceed(db, message, o)
  }

  /** The handler once a message was unwrapped: read the event, then serve it. */
  function Proceed(db: Db, message: Json, o: Oracles): (r: Outcome)
    ensures r.response.status in {200, 404, 500}
    ensures r.sent != [] ==> r.response == Done
    ensures r.response.status == 404 ==> r.response == DealershipNotFound && r.sent == []
    ensures ReadEvent(message).Err? ==> r == Outcome(ErrorResponse(500, ReadEvent(message).error), [])
    ensures ReadEvent(message).Ok? ==> r == Serve(db, ReadEvent(message).value, o)
    ensures r.sent != [] ==> ReadEvent(message).Ok?
  {
    match ReadEvent(message)
    case Err(e) => Outcome(ErrorResponse(500, e), [])
    case Ok(event) => Serve(db, event, o)
  }

  /** The handler once the event was read: plan the messages, then post them in order. */
  function Serve(db: Db, event: Event, o: Oracles): (r: Outcome)
    ensures r.response.status in {200, 404, 500}
    ensures r.sent != [] ==> r.response == Done
    ensures r.response.status == 404 <==> PlanFor(db, event.command, o) == Ok(NoDealership)
    ensures r.response.status == 404 ==> r.response == DealershipNotFound && r.sent == []
    ensures r.response.status == 200 <==> PlanFor(db, event.command, o).Ok? && PlanFor(db, event.command, o).value.Deliver? && event.sender.JStr?
    ensures r.response.status == 200 ==>
      var ms := PlanFor(db, event.command, o).value.messages;
      && r.response == Done
      && |r.sent| == |ms|
      && forall i :: 0 <= i < |ms| ==> r.sent[i] == Payload(NormaliseNumber(event.sender.s), ms[i])
    ensures r.response.status != 200 ==> r.sent == []
  {
    match PlanFor(db, event.command, o)
    case Err(e) => Outcome(ErrorResponse(500, e), [])
    case Ok(NoDealership) => Outcome(DealershipNotFound, [])
    case Ok(Deliver(ms)) =>
      match SendAll(event.sender, ms)
      case Err(e) => Outcome(ErrorResponse(500, e), [])
      case Ok(sent) => Outcome(Done, sent)
  }

  /** A change without messages (a delivery status) is acknowledged without a reply. */
  lemma StatusIsIgnored(db: Db, o: Oracles)
    ensures Handle(db, Envelope(JArr([Change(JArr([]))])), o) == Outcome(Ignored, [])
  {
    UnwrapNoMessages(Ignored);
  }

  /** None of the three buttons consults the assistant: their outcome is the same for any
      collaborators. */
  lemma ButtonsIgnoreAssistant(db: Db, data: Json, o1: Oracles, o2: Oracles)
    requires Unwrap(data, Ignored).Ok? && Unwrap(data, Ignored).value.Continue?
    requires ReadEvent(Unwrap(data, Ignored).value.message).Ok?
    requires !ReadEvent(Unwrap(data, Ignored).value.message).value.command.Ask?
    ensures Handle(db, data, o1) == Handle(db, data, o2)
  {
    var event := ReadEvent(Unwrap(data, Ignored).value.message).value;
    ButtonPlansIgnoreAssistant(db, event.command, o1, o2);
  }

  lemma ButtonPlansIgnoreAssistant(db: Db, command: Command, o1: Oracles, o2: Oracles)
    requires !command.Ask?
    ensures PlanFor(db, command, o1) == PlanFor(db, command, o2)
  {
  }

  /** Declining answers with the farewell, sent to the normalised sender. */
  lemma DeclineReplies(db: Db, sender: string, title: string, o: Oracles)
    ensures Handle(db, Envelope(JArr([Change(JArr([ButtonMessage(sender, DeclineId, title)]))])), o)
      == Outcome(Done, [Payload(NormaliseNumber(sender), TextOnly(DeclineText))])
  {
    var message := ButtonMessage(sender, DeclineId, title);
    var data := Envelope(JArr([Change(JArr([message]))]));
    assert Unwrap(data, Ignored) == Ok(Continue(message)) by {
      UnwrapFirstMessage(Ignored, message, []);
      assert [message] + [] == [message];
    }
    assert ReadEvent(message) == Ok(Event(JStr(sender), Decline)) by {
      ReadButton(sender, DeclineId, title);
      ClickRoutes("", title);
    }
    HandleServes(db, data, o, message, Event(JStr(sender), Decline));
    DeclineServed(db, sender, o);
  }

  /** Once the envelope yields a message and the message reads as an event, the handler serves that event. */
  lemma HandleServes(db: Db, data: Json, o: Oracles, message: Json, event: Event)
    requires Unwrap(data, Ignored) == Ok(Continue(message))
    requires ReadEvent(message) == Ok(event)
    ensures Handle(db, data, o) == Serve(db, event, o)
  {
  }

  lemma DeclineServed(db: Db, sender: string, o: Oracles)
    ensures Serve(db, Event(JStr(sender), Decline), o) == Outcome(Done, [Payload(NormaliseNumber(sender), TextOnly(DeclineText))])
  {
  }

  /** A sender that is not a string makes the first send raise: 500 and nothing posted. */
  lemma NonStringSender(db: Db, data: Json, o: Oracles)
    requires Unwrap(data, Ignored).Ok? && Unwrap(data, Ignored).value.Continue?
    requires ReadEvent(Unwrap(data, Ignored).value.message).Ok?
    requires !ReadEvent(Unwrap(data, Ignored).value.message).value.sender.JStr?
    ensures Handle(db, data, o).sent == []
    ensures Handle(db, data, o).response.status != 200
  {
  }
}

=== FILE: wrappers.dfy ===
/** Failure-carrying datatypes shared by every module of the model. */
module Wrappers {

  /** An optional value: Python's `None` or a present value. */
  datatype Option<+T> = None | Some(value: T) {
    function GetOr(default: T): T {
      match this
      case Some(v) => v
      case None => default
    }
  }

  /** The outcome of an operation that the source lets raise: `Err` carries the exception's message. */
  datatype Result<+T> = Ok(value: T) | Err(error: string) {
    predicate IsFailure() {
      Err?
    }

    function PropagateFailure<U>(): Result<U>
      requires Err?
    {
      Err(error)
    }

    function Extract(): T
      requires Ok?
    {
      value
    }
  }
}
